=== FILE: README.md ===
# NestJS security toolkit — a Dafny model of its core

This project models the core of a NestJS toolkit for authentication and
request hardening, written with pure functions over immutable data:

- **Auth token lifecycle** (`AuthService`, `AuthProperties`):
  - the user, role, permission and refresh-token tables are sequences in a `Store`;
  - each service method is a function from a store to a new store and a
    `Result` (login, register, refresh, logout, change password, profile,
    reset request, reset verification, reset);
  - password hashing, JWT signing and the random token values are parameters;
  - `AuthProperties` states an invariant of the store that every operation
    keeps, and the security properties of the lifecycle.
- **Entities** (`Entities`): the entity helpers `hasRole`, `hasPermission`,
  `fullName`, `isExpired`, and the column defaults.
- **`JwtStrategy.validate`** (`JwtStrategy`): the principal the passport
  strategy builds from a token's `sub`.
- **Guards**:
  - `JwtAuthGuard`: the `Authorization` header is split on a space, and the
    verifier is a parameter;
  - `RolesGuard` and `PermissionsGuard`: they read the `request.user`
    shapes in `RequestUsers`;
  - `RateLimitGuard`: a fixed-window counter per key over a map of records,
    with the clock as a parameter.
- **Pagination** (`PaginationUtils`, `PaginationInterceptor`): page
  metadata, `Array.prototype.slice` with its negative-index rules,
  query-parameter extraction, the response envelope, and the interceptor
  that merges options and wraps array results.
- **Sanitizing** (`SanitizeUtils`, `SanitizeInterceptor`):
  - the string cleaners: tag stripping, the five-pass HTML escape, the SQL
    cleaner, URL scheme removal, filename cleaning and composition;
  - the interceptor's recursive walk over JSON values with field selection,
    the `deep` switch and a custom sanitizer.

JavaScript semantics are written out where they matter:
- truthiness (`!x`, `||`);
- `??` against `||` defaults;
- `!== undefined` option defaults;
- `Math.ceil` of a quotient as integer ceiling division;
- `slice` with negative or out-of-range indices;
- a regular-expression `replace` as a left-to-right scan.

Numbers are unbounded integers. `Wrappers` (`Option`, `Result`) and `Seqs`
(search, filter, flatten, split, join and the subsequence relation) are shared helpers.

## Model

| member | source | states |
|---|---|---|
| Entities.NewUser | packages/database/ORM/typeOrm/entities/user.entity.ts:32-45 | a new user is active and has no reset token or expiry; every other column is the given value |
| Entities.NewRefreshToken | packages/database/ORM/typeOrm/entities/refresh-token.entity.ts:15-23 | a new refresh-token row is not revoked and carries the given id, token, expiry and owner |
| Entities.HasPermission | packages/database/ORM/typeOrm/entities/role.entity.ts:24-27 | a role grants a name exactly when its permissions are loaded and one of them has that name; unloaded or empty permissions grant nothing |
| Entities.HasRole | packages/database/ORM/typeOrm/entities/user.entity.ts:48-51 | a user has a role exactly when the roles are loaded and one of them has that name; unloaded roles mean no role |
| Entities.FullName | packages/database/ORM/typeOrm/entities/user.entity.ts:53-58 | first and last name joined by a space when both are non-empty, otherwise the username |
| Entities.ExpiredAt | packages/auth/services/auth.service.ts:219-221 | the strict comparison `now > expiresAt` of `isTokenExpired`; ExpiryIsStrict and ExpiryIsMonotone state what follows from it |
| Entities.IsExpired | packages/database/ORM/typeOrm/entities/refresh-token.entity.ts:29-31 | `isExpired` is the same strict comparison against the row's own expiry |
| Entities.ExpiryIsStrict | packages/database/ORM/typeOrm/entities/refresh-token.entity.ts:29-31 | a token is still valid at exactly its expiry instant and expired one millisecond later |
| Entities.ExpiryIsMonotone | packages/database/ORM/typeOrm/entities/refresh-token.entity.ts:29-31 | once expired, a token stays expired at every later time |
| Entities.HasPermissionMonotone | packages/database/ORM/typeOrm/entities/role.entity.ts:24-27 | adding a permission to a role never takes a granted name away |
| Seqs.FirstIndex | packages/auth/services/auth.service.ts:54-63 | the lookup `findOne` performs: the first index whose row satisfies the condition, or none exactly when no row does |
| Seqs.Filter | packages/auth/services/auth.service.ts:117-122 | the kept rows are exactly the rows that satisfy the condition |
| Seqs.FlattenAppend | packages/auth/strategies/jwt.strategy.ts:41 | `flatMap` distributes over concatenation of the role list |
| AuthService.WithoutPassword | packages/auth/services/auth.service.ts:34-36 | the public view of a user keeps every column except the password |
| AuthService.UserIndexByUsername | packages/auth/services/auth.service.ts:29-32 | lookup by username finds the first user with that username, and none exactly when no user has it |
| AuthService.UserIndexById | packages/auth/services/auth.service.ts:125-128 | lookup by id finds the first user with that id, and none exactly when no user has it |
| AuthService.UserIndexByEmail | packages/auth/services/auth.service.ts:228-230 | lookup by email finds the first user with that email, and none exactly when no user has it |
| AuthService.UserIndexByResetToken | packages/auth/services/auth.service.ts:284-286 | lookup by reset token finds the first user holding that token, and none exactly when no user holds it |
| AuthService.LiveTokenIndex | packages/auth/services/auth.service.ts:95-102 | the refresh lookup only finds rows with that token that are not revoked, and none exactly when no such row exists |
| AuthService.DeleteTokenById | packages/auth/services/auth.service.ts:111 | deleting a row by id keeps exactly the rows with another id |
| AuthService.DeleteTokensOfUser | packages/auth/services/auth.service.ts:117-122 | deleting a user's tokens keeps exactly the rows of other users |
| AuthService.PermissionNames | packages/database/ORM/typeOrm/entities/role.entity.ts:24-27 | the names a role lists are exactly the names it grants |
| AuthService.RoleNames | packages/auth/services/auth.service.ts:169 | the `roles` claim lists each role's name in order, and is empty when roles are not loaded |
| AuthService.PermissionNameLists | packages/auth/services/auth.service.ts:170-172 | one list of permission names per role, in role order |
| AuthService.BuildPayload | packages/auth/services/auth.service.ts:166-173 | the access payload carries the user's id as `sub`, the username and the role names; a name is in its `permissions` claim exactly when some role of the user grants it |
| AuthService.RefreshTokenExpiresIn | packages/auth/services/auth.service.ts:197 | the refresh lifetime is the configured value, and the default of seven days when the value is absent or zero |
| AuthService.IssuedRow | packages/auth/services/auth.service.ts:195-208 | a new refresh row takes the next id, belongs to the user, is live, and expires `now` plus the lifetime in milliseconds |
| AuthService.GenerateTokens | packages/auth/services/auth.service.ts:165-193 | the token pair appends exactly one refresh row and changes no user or role; it returns the signed payload and the new refresh token |
| AuthService.ValidateUser | packages/auth/services/auth.service.ts:28-40 | credentials validate only for the first user with that username, when the hash verifies; an unknown username never validates |
| AuthService.Login | packages/auth/services/auth.service.ts:42-50 | login fails with "Invalid credentials" and no store change exactly when validation fails; on success it issues tokens for the validated user |
| AuthService.RoleIndexByName | packages/auth/services/auth.service.ts:69 | lookup by role name finds a role with that name, and none exactly when no role has it |
| AuthService.DefaultRole | packages/auth/services/auth.service.ts:69-78 | registration reuses the existing `user` role, found with its eager permissions; when it is missing, it creates the role with the next role id and the fixed description, appends it to the role table with an empty permission list, and holds an object without `permissions` |
| AuthService.Register | packages/auth/services/auth.service.ts:52-92 | registration fails with a conflict exactly when the username or email is taken, changing nothing; otherwise it appends one active user with the hashed password and the default role as stored, issues no token, and returns that user without its password but with the role object it held, so a freshly created role comes back without `permissions` |
| AuthService.Taken | packages/auth/services/auth.service.ts:54-63 | the `findOne` with the alternatives `{ username }` and `{ email }` finds a row exactly when a lookup by the username or one by the email would |
| AuthService.Rotate | packages/auth/services/auth.service.ts:108-114 | rotation deletes the consumed row and appends one row for the owner with the new token |
| AuthService.Refresh | packages/auth/services/auth.service.ts:94-115 | an unknown or revoked token and an expired token are refused as Unauthorized with no store change; a live row without an owner is deleted and the call ends in a server error; otherwise the token is rotated for its owner |
| AuthService.Logout | packages/auth/services/auth.service.ts:117-122 | logout succeeds and removes exactly the user's refresh tokens |
| AuthService.ChangePassword | packages/auth/services/auth.service.ts:124-149 | an unknown user is NotFound and a wrong old password is Unauthorized, both without change; success stores the new hash and deletes the user's tokens |
| AuthService.GetUserProfile | packages/auth/services/auth.service.ts:151-163 | the profile is the password-free view of the user with that id, and NotFound exactly when no such user exists |
| AuthService.RequestPasswordReset | packages/auth/services/auth.service.ts:227-258 | the reply always reports success; a known email gets a reset token expiring one hour later; the tables are otherwise unchanged |
| AuthService.VerifyResetToken | packages/auth/services/auth.service.ts:263-278 | a reset token is valid exactly when the first user holding it has an expiry not yet passed |
| AuthService.ResetPassword | packages/auth/services/auth.service.ts:283-310 | a reset succeeds exactly when the token verifies; it then sets the new hash, clears both reset fields and deletes the user's tokens; failures change nothing |
| AuthProperties.GenerateTokensPreservesInv | packages/auth/services/auth.service.ts:165-193 | issuing a token with a fresh value keeps ids and token strings unique |
| AuthProperties.RegisterPreservesInv | packages/auth/services/auth.service.ts:52-92 | registration keeps user ids, usernames and emails unique |
| AuthProperties.RefreshPreservesInv | packages/auth/services/auth.service.ts:94-115 | refreshing keeps the invariant |
| AuthProperties.ChangePasswordPreservesInv | packages/auth/services/auth.service.ts:124-149 | changing a password keeps the invariant |
| AuthProperties.RequestResetPreservesInv | packages/auth/services/auth.service.ts:227-258 | a reset request with a fresh token keeps reset tokens unique and paired with an expiry |
| AuthProperties.ResetPasswordPreservesInv | packages/auth/services/auth.service.ts:283-310 | a reset keeps the invariant |
| AuthProperties.ApplyPreservesInv | packages/auth/services/auth.service.ts:28-310 | every service operation with fresh random values keeps the invariant |
| AuthProperties.RunPreservesInv | packages/auth/services/auth.service.ts:28-310 | any sequence of operations from an invariant store keeps the invariant |
| AuthProperties.LoginSucceedsIffCredentialsVerify | packages/auth/services/auth.service.ts:28-50 | with unique usernames, login succeeds exactly when a user with that username has a hash that verifies the password |
| AuthProperties.RefreshIsSingleUse | packages/auth/services/auth.service.ts:94-115 | a consumed refresh token is refused as "Invalid refresh token" when replayed |
| AuthProperties.RefreshedTokenIsLive | packages/auth/services/auth.service.ts:108-114 | the token a refresh returns is live and belongs to the same user |
| AuthProperties.ChangePasswordRevokesSessions | packages/auth/services/auth.service.ts:145-146 | after a password change, each of the user's earlier refresh tokens is refused with Unauthorized "Invalid refresh token" |
| AuthProperties.LogoutRevokesSessions | packages/auth/services/auth.service.ts:117-122 | after logout, each of the user's refresh tokens is refused with Unauthorized "Invalid refresh token" |
| AuthProperties.ChangedPasswordVerifies | packages/auth/services/auth.service.ts:138-143 | after a change, the stored hash verifies the new password |
| AuthProperties.RegisteredUserCanLogIn | packages/auth/services/auth.service.ts:52-92 | a freshly registered user can log in with the registration password |
| AuthProperties.ResetIsSingleUse | packages/auth/services/auth.service.ts:283-304 | a reset token that was used is refused as "Invalid reset token" |
| AuthProperties.ResetPasswordRevokesSessions | packages/auth/services/auth.service.ts:306-307 | after a reset, each of the user's earlier refresh tokens is refused with Unauthorized "Invalid refresh token" |
| AuthProperties.ResetTokenLifetime | packages/auth/services/auth.service.ts:238-246 | a requested reset token verifies until exactly one hour later and not one millisecond after |
| AuthProperties.ResetRequestRevealsAccount | packages/auth/services/auth.service.ts:227-258 | as written, a known and an unknown email get different replies |
| AuthProperties.RequestPasswordResetUniform | packages/auth/services/auth.service.ts:227-258 | the corrected reset request changes the store as the original does but always gives the same reply |
| AuthProperties.UniformResetRequestHidesAccount | packages/auth/services/auth.service.ts:227-258 | with the corrected reply, no two reset requests can be told apart by their response |
| AuthService.PayloadPermissions | packages/auth/services/auth.service.ts:170-172 | a name is in the `permissions` claim exactly when the roles are loaded and some role grants it |
| AuthService.ClaimComesFromSomeRole | packages/auth/services/auth.service.ts:171-172 | every claimed permission is granted by some role |
| AuthService.RolePermissionIsClaimed | packages/auth/services/auth.service.ts:171-172 | every permission some role grants is claimed |
| AuthProperties.PayloadPermissionsKeepDuplicates | packages/auth/services/auth.service.ts:171-172 | a permission shared by two roles appears twice in the claim: names are not de-duplicated |
| JwtStrategy.Names | packages/auth/strategies/jwt.strategy.ts:41 | the names of a permission list, element by element |
| JwtStrategy.Validate | packages/auth/strategies/jwt.strategy.ts:22-43 | an unknown `sub` is "User not found" and an inactive user "User is inactive"; success is the active user's id, username, email, roles and flattened permissions |
| JwtStrategy.ValidateIgnoresOtherClaims | packages/auth/strategies/jwt.strategy.ts:23-26 | only the `sub` claim decides the outcome |
| JwtStrategy.InactiveUserIsRejected | packages/auth/strategies/jwt.strategy.ts:32-34 | an inactive user is refused whatever the token says |
| JwtStrategy.PermissionNamesMatchClaim | packages/auth/strategies/jwt.strategy.ts:41 | the principal's permissions carry the same names, in the same order, as the access token's `permissions` claim |
| Seqs.Split | packages/core/guards/jwt-auth.guard.ts:16 | `split(' ')` gives at least one part, no part holds a space, and joining the parts with spaces restores the header |
| Seqs.SplitAfterPrefix | packages/core/guards/jwt-auth.guard.ts:16 | a header with a first space splits into the part before it followed by the split of the rest |
| Seqs.SplitWithoutSeparator | packages/core/guards/jwt-auth.guard.ts:16 | a header without a space splits into itself alone |
| JwtAuthGuard.BearerToken | packages/core/guards/jwt-auth.guard.ts:16-19 | the second space-separated part holds no space, and there is none exactly when the header has no space |
| JwtAuthGuard.BearerTokenOfAnyScheme | packages/core/guards/jwt-auth.guard.ts:16 | any scheme word followed by a space and a token yields that token: the scheme is not checked |
| JwtAuthGuard.CanActivate | packages/core/guards/jwt-auth.guard.ts:6-39 | a missing or empty header and a missing token are Unauthorized before the secret is read; a missing secret is a server error; access is granted exactly when the token verifies, with its claims as the user |
| JwtAuthGuard.VerifyFailuresAreUnauthorized | packages/core/guards/jwt-auth.guard.ts:31-37 | every verification failure is an Unauthorized refusal |
| JwtAuthGuard.HeaderCheckedBeforeSecret | packages/core/guards/jwt-auth.guard.ts:11-24 | without a usable token the refusal is Unauthorized even when the secret is missing |
| RequestUsers.FromPrincipal | packages/auth/strategies/jwt.strategy.ts:36-42 | the strategy's principal has no `role` field and one named permission per element |
| RequestUsers.FromClaims | packages/core/guards/jwt-auth.guard.ts:28-29 | the decoded claims have no `role` field, and their permissions are plain strings without a `name` |
| RolesGuard.CanActivate | packages/core/guards/roles.guard.ts:8-35 | no or empty requirement allows; a missing user or role is Forbidden; otherwise allow exactly when the single role is among the required ones |
| RolesGuard.NoRequirementIgnoresUser | packages/core/guards/roles.guard.ts:12-14 | with no requirement the user does not matter |
| RolesGuard.RoleListIsNeverConsulted | packages/core/guards/roles.guard.ts:25-30 | every user the auth layer produces lacks `role` and is refused whenever a role is required |
| RolesGuard.AllowIsMonotoneInRequired | packages/core/guards/roles.guard.ts:33 | allowing more roles never refuses an allowed user |
| PermissionsGuard.CoversAll | packages/core/guards/permissions.guard.ts:22-24 | every required name is granted by some permission of the user |
| PermissionsGuard.CanActivate | packages/core/guards/permissions.guard.ts:9-25 | no requirement allows; a missing user or permission list refuses; otherwise allow exactly when every required name is held |
| PermissionsGuard.EmptyRequirementNeedsUser | packages/core/guards/permissions.guard.ts:12-20 | an empty requirement still refuses a missing user but allows any user with a permission list |
| PermissionsGuard.AllowIsMonotoneInGrants | packages/core/guards/permissions.guard.ts:22-24 | more permissions never turn an allowed user away |
| PermissionsGuard.AllowIsMonotoneInRequired | packages/core/guards/permissions.guard.ts:22-24 | requiring fewer names never turns an allowed user away |
| PermissionsGuard.PrincipalAllowedIffRolesGrant | packages/core/guards/permissions.guard.ts:22-24 | a strategy principal is allowed exactly when every required name is granted by one of its roles |
| PermissionsGuard.GrantsIffNamed | packages/core/guards/permissions.guard.ts:22-24 | a principal holds a name exactly when the name is among its permission names |
| PermissionsGuard.ClaimsNeverCarryPermissions | packages/core/guards/permissions.guard.ts:22-24 | a user set by `JwtAuthGuard` is refused by any non-empty requirement, because its permission strings have no `name` |
| RateLimitGuard.Override | packages/core/guards/rate-limit.guard.ts:83 | an absent handler field keeps the default, a given one replaces it, and an explicit `undefined` overrides it with nothing |
| RateLimitGuard.GetOptions | packages/core/guards/rate-limit.guard.ts:77-84 | no metadata gives the defaults; otherwise each field is overridden field by field |
| RateLimitGuard.WindowMs | packages/core/guards/rate-limit.guard.ts:104 | `windowMs ?? 60000`: only a missing or `undefined` window takes the default, and a given 0 is kept |
| RateLimitGuard.Max | packages/core/guards/rate-limit.guard.ts:105 | `max ?? 100`: only a missing or `undefined` maximum takes the default, and a given 0 is kept |
| RateLimitGuard.Message | packages/core/guards/rate-limit.guard.ts:67-69 | the refusal message is never empty and is the configured one when that is non-empty |
| RateLimitGuard.StatusCode | packages/core/guards/rate-limit.guard.ts:68-69 | the refusal status is never 0; a configured non-zero status is used, and a zero falls back to 429 |
| RateLimitGuard.OptionsOverrideFieldByField | packages/core/guards/rate-limit.guard.ts:29-35 | the defaults are a 60000 ms window, 100 calls, status 429 and headers on, each replaced only by the field given |
| RateLimitGuard.GenerateKey | packages/core/guards/rate-limit.guard.ts:87-97 | a custom key generator decides the key; otherwise the first non-empty of IP and remote address, else `unknown` |
| RateLimitGuard.DefaultKeyIsNonEmpty | packages/core/guards/rate-limit.guard.ts:96 | the default key is never empty |
| RateLimitGuard.WindowAt | packages/core/guards/rate-limit.guard.ts:108-117 | a missing record, or one whose reset time has strictly passed, starts a fresh window; otherwise the stored record continues |
| RateLimitGuard.CheckRateLimit | packages/core/guards/rate-limit.guard.ts:100-135 | only the caller's record changes, its count goes up by one even when refused; allowed exactly when the count stays at most `max`; `remaining` is never negative |
| RateLimitGuard.ResetSeconds | packages/core/guards/rate-limit.guard.ts:143 | the reset header is the reset time in whole seconds, rounded up |
| RateLimitGuard.CanActivate | packages/core/guards/rate-limit.guard.ts:46-74 | the request passes exactly when the check allows it; a refusal carries the message and status of the options |
| RateLimitGuard.CallsWithinWindow | packages/core/guards/rate-limit.guard.ts:119-126 | inside one window every call is counted and exactly the calls that keep the count at most `max` are allowed |
| RateLimitGuard.FirstWindowAllowsAtMostMax | packages/core/guards/rate-limit.guard.ts:100-135 | a new key gets min(n, max) of its first n calls in one window allowed |
| RateLimitGuard.SecondCallDeniedWhenMaxIsOne | test/unit/rate-limit.guard.spec.ts:81-101 | with `max` 1 the second call in the window is refused with nothing remaining |
| RateLimitGuard.CallAfterWindowIsAllowed | test/unit/rate-limit.guard.spec.ts:129-154 | after the window passes the next call is allowed and starts a new count |
| RateLimitGuard.KeysAreIndependent | test/unit/rate-limit.guard.spec.ts:103-127 | calls for one key do not change what another key is told |
| RateLimitGuard.WindowBoundaryIsStrict | packages/core/guards/rate-limit.guard.ts:111 | a call exactly at the reset time still counts in the old window |
| PaginationUtils.CeilDiv | packages/core/utils/pagination.utils.ts:15 | `Math.ceil(a / b)` is the least multiple count covering `a` |
| PaginationUtils.CreateMeta | packages/core/utils/pagination.utils.ts:14-25 | for a non-zero limit the page count is the least number of pages of `limit` items holding all items, and a next page exists exactly when `page` is below it; a zero limit gives `Infinity` (items present) or `NaN` (none), with a next page exactly when there are items; a previous page exists exactly when `page` exceeds 1 |
| PaginationUtils.ZeroLimitPage | packages/core/utils/pagination.utils.ts:14-39 | a zero limit gives an empty page, and a next page is announced exactly when the array is not empty |
| PaginationUtils.SliceIndex | packages/core/utils/pagination.utils.ts:38 | a slice bound counts from the end when negative and is clamped to the array |
| PaginationUtils.Slice | packages/core/utils/pagination.utils.ts:38 | `slice` takes the elements between the clamped bounds, and nothing when they cross |
| PaginationUtils.PaginateArray | packages/core/utils/pagination.utils.ts:34-39 | a page is never longer than the array |
| PaginationUtils.PageIsWindow | packages/core/utils/pagination.utils.ts:34-39 | for positive page and limit, a page is the existing elements with index in `[(page-1)*limit, page*limit)` |
| PaginationUtils.FirstPagesArePrefix | packages/core/utils/pagination.utils.ts:34-39 | pages 1 to k laid end to end are the first `k*limit` elements |
| PaginationUtils.PagesCoverArray | packages/core/utils/pagination.utils.ts:14-39 | pages 1 to `totalPages` laid end to end are the whole array |
| PaginationUtils.PagesBeyondLastAreEmpty | packages/core/utils/pagination.utils.ts:14-39 | a page past `totalPages` is empty, and every page up to it is not |
| PaginationUtils.ExtractParams | packages/core/utils/pagination.utils.ts:47-58 | the page is the parsed page when at least 1 and otherwise 1, and defaults to 1; the limit is the parsed limit when at most `maxLimit` and otherwise `maxLimit`, and defaults to the smaller of the default limit and `maxLimit`; it has no lower bound; an empty or missing sort is absent |
| PaginationUtils.CreatePaginatedResponse | packages/core/utils/pagination.utils.ts:67-81 | the response holds the items and, when metadata is included, the meta under its key (which wins if the keys coincide) |
| PaginationInterceptor.MergeOptions | packages/core/interceptors/pagination.interceptor.ts:39-48 | no metadata gives the defaults; a given field replaces its default |
| PaginationInterceptor.EmptyOptionsAreDefaults | packages/core/interceptors/pagination.interceptor.ts:20-29 | empty handler options are the defaults |
| PaginationInterceptor.RequestPagination | packages/core/interceptors/pagination.interceptor.ts:51-57 | the stored page is at least 1 and the limit at most the merged `maxLimit`; parameters missing from the query give page 1 and the smaller of the default limit and `maxLimit`; a sort is stored exactly when the query has a non-empty one |
| PaginationInterceptor.MapResult | packages/core/interceptors/pagination.interceptor.ts:61-76 | a non-array result passes unchanged; an array becomes the envelope of its page and the metadata of the whole array |
| PaginationInterceptor.Intercept | packages/core/interceptors/pagination.interceptor.ts:37-78 | the parameters stored on the request are the extracted ones, and the result is mapped with them |
| PaginationInterceptor.NonArrayPassesThrough | packages/core/interceptors/pagination.interceptor.ts:63-65 | a handler that returns a non-array value gets it back untouched |
| PaginationInterceptor.MetaCountsWholeArray | packages/core/interceptors/pagination.interceptor.ts:67-69 | the metadata counts every item of the array, not only the page |
| PaginationInterceptor.TwentyItemsPageTwo | test/unit/pagination.interceptor.spec.ts:33-75 | 20 items with page 2 and limit 5 give items 6 to 10, four pages and both neighbours |
| PaginationInterceptor.FiftyItemsByDefault | test/integration/paginate.integration.spec.ts:69-80 | 50 items with no query give the first ten items and a total of 50 |
| PaginationInterceptor.ZeroLimitGivesEmptyPage | packages/core/interceptors/pagination.interceptor.ts:51-76 | a limit of 0 from the query is accepted: an array gets an empty page while the metadata counts every item and announces a next page exactly when there are items |
| PaginationInterceptor.NoMetadataOnlyItems | test/integration/paginate.integration.spec.ts:106-114 | with metadata off the response holds only the items key |
| SanitizeUtils.CloseAtIsFirst | packages/core/utils/sanitize.utils.ts:12 | the tag scan stops at the first `>` after the `<` |
| SanitizeUtils.StripTags | packages/core/utils/sanitize.utils.ts:11-13 | stripping tags never lengthens the string |
| SanitizeUtils.StripTagsKeepsCharacters | packages/core/utils/sanitize.utils.ts:11-13 | the result is the input with some characters deleted and the rest in their original order, so nothing is added or reordered |
| SanitizeUtils.StripTagsLeavesNoTag | packages/core/utils/sanitize.utils.ts:11-13 | no `<` followed later by `>` survives |
| SanitizeUtils.StripTagsKeepsTagFree | packages/core/utils/sanitize.utils.ts:11-13 | a string holding no tag is returned unchanged |
| SanitizeUtils.StripTagsIdempotent | packages/core/utils/sanitize.utils.ts:11-13 | stripping twice is stripping once |
| SanitizeUtils.StripTagsPlain | test/unit/sanitize.utils.spec.ts:15-23 | a string without `<` is unchanged, the empty string included |
| SanitizeUtils.StripTagsTag | packages/core/utils/sanitize.utils.ts:12 | a leading tag is removed and the rest is stripped |
| SanitizeUtils.StripTagsElement | test/unit/sanitize.utils.spec.ts:8-12 | an element `<t>text</t>` keeps only its text |
| SanitizeUtils.StripTagsClosingTag | test/unit/sanitize.utils.spec.ts:8-12 | a closing tag is removed |
| SanitizeUtils.ReplaceCharContents | packages/core/utils/sanitize.utils.ts:22-26 | the result is the input's `c`-free pieces, as `split(c)` gives them, joined by the replacement: every occurrence becomes the replacement and every other character is kept in place; no `c` survives unless the replacement holds one |
| SanitizeUtils.ReplaceCharPieces | packages/core/utils/sanitize.utils.ts:22-26 | `c`-free pieces joined by `c` come out joined by the replacement |
| SanitizeUtils.EscapeHtml | packages/core/utils/sanitize.utils.ts:20-27 | the output holds no `<`, `>`, `"` or `'`, and text without special characters is unchanged |
| SanitizeUtils.ReplaceCharAppend | packages/core/utils/sanitize.utils.ts:22-26 | a one-character replace of a concatenation is the concatenation of the replaces |
| SanitizeUtils.EscapeHtmlAppend | packages/core/utils/sanitize.utils.ts:20-27 | escaping a concatenation escapes each part |
| SanitizeUtils.EscapeHtmlOfChar | packages/core/utils/sanitize.utils.ts:20-27 | each special character becomes its one entity and every other character is kept |
| SanitizeUtils.EscapeHtmlIsPerCharacter | packages/core/utils/sanitize.utils.ts:20-27 | the five passes in that order equal one per-character substitution, so `&` is never escaped twice |
| SanitizeUtils.UnescapeOfEscapedChar | packages/core/utils/sanitize.utils.ts:20-27 | decoding the entities restores each escaped character |
| SanitizeUtils.UnescapeEscapeHtml | packages/core/utils/sanitize.utils.ts:20-27 | escaping loses no information: decoding the five entities gives the input back |
| SanitizeUtils.EscapeHtmlTag | test/unit/sanitize.utils.spec.ts:29-34 | a plain tag `<t>` becomes `&lt;t&gt;` |
| SanitizeUtils.RemoveDoubleDash | packages/core/utils/sanitize.utils.ts:38 | the result holds no `--`, holds only characters of the input, keeps a leading non-dash, and equals a dash-free input |
| SanitizeUtils.RemoveDoubleDashKeepsOrder | packages/core/utils/sanitize.utils.ts:38 | the result is the input with some characters deleted and the rest in their original order |
| SanitizeUtils.RemoveDoubleDashRuns | packages/core/utils/sanitize.utils.ts:38 | a maximal run of `k` dashes keeps `k % 2` of them and the rest is cleaned on its own; with RemoveDoubleDashPlain this fixes the result on every input |
| SanitizeUtils.PreventSqlInjection | packages/core/utils/sanitize.utils.ts:34-40 | the result holds no `;` |
| SanitizeUtils.PreventSqlInjectionLeavesCommentMarker | packages/core/utils/sanitize.utils.ts:36-39 | as written, `-;-` comes out as the comment marker `--` |
| SanitizeUtils.PreventSqlInjectionCorrected | packages/core/utils/sanitize.utils.ts:34-40 | with `;` removed before `--`, the result holds neither `;` nor `--` |
| SanitizeUtils.CorrectedAgreesWithoutSemicolons | packages/core/utils/sanitize.utils.ts:34-40 | the correction changes nothing on input without `;` |
| SanitizeUtils.PreventSqlInjectionClosesStatement | test/unit/sanitize.utils.spec.ts:50-55 | `a');b;--` becomes `a'')b`: the quote is doubled and `;` and `--` are gone |
| SanitizeUtils.QuoteIsDoubled | packages/core/utils/sanitize.utils.ts:37 | quote-free pieces joined by `'` come out joined by `''`: every quote is doubled and nothing else changes |
| SanitizeUtils.RemoveDoubleDashPlain | packages/core/utils/sanitize.utils.ts:38 | text without `-` is unchanged |
| SanitizeUtils.RemoveCharPieces | packages/core/utils/sanitize.utils.ts:39 | `c`-free pieces joined by `c` come out as the pieces concatenated: every `c` is deleted and nothing else changes |
| SanitizeUtils.SanitizeUrl | packages/core/utils/sanitize.utils.ts:47-50 | a leading `javascript:`, `data:` or `vbscript:` in any case is removed once; any other URL is unchanged |
| SanitizeUtils.SchemesAreExclusive | packages/core/utils/sanitize.utils.ts:49 | at most one of the three schemes matches a URL |
| SanitizeUtils.SanitizeUrlIsSuffix | packages/core/utils/sanitize.utils.ts:47-50 | the result is a suffix of the input |
| SanitizeUtils.SanitizeUrlRemovesOneScheme | test/unit/sanitize.utils.spec.ts:64-91 | `javascript:` in any case followed by anything gives that rest |
| SanitizeUtils.SanitizeFilename | packages/core/utils/sanitize.utils.ts:57-60 | same length; each unsafe character becomes `-` and each other one is kept |
| SanitizeUtils.SanitizeFilenameIsClean | packages/core/utils/sanitize.utils.ts:57-60 | the result holds no unsafe character, and cleaning it again changes nothing |
| SanitizeUtils.SanitizeFilenameKeepsSafeName | test/unit/sanitize.utils.spec.ts:110-121 | a name without unsafe characters is unchanged |
| SanitizeUtils.Combine | packages/core/utils/sanitize.utils.ts:67-71 | `reduce` is a left fold: with no sanitizers the input is returned, and otherwise the last sanitizer runs on what the others produced |
| SanitizeUtils.CombineAppend | packages/core/utils/sanitize.utils.ts:67-71 | combining two lists applies the first list and then the second |
| SanitizeUtils.CombineOrder | test/unit/sanitize.utils.spec.ts:141-152 | no sanitizers is the identity, and `[f, g]` applies `f` first |
| SanitizeInterceptor.Resolve | packages/core/interceptors/sanitize.interceptor.ts:23-35 | no fields means all fields, the three switches default to on unless explicitly off, and the custom sanitizer defaults to the identity |
| SanitizeInterceptor.SanitizeString | packages/core/interceptors/sanitize.interceptor.ts:131-153 | with escaping on, the result holds no raw special character and decodes to the custom-then-stripped value |
| SanitizeInterceptor.SanitizeStringStrips | packages/core/interceptors/sanitize.interceptor.ts:138-140 | with stripping on and escaping off, the result is the custom value with tags stripped |
| SanitizeInterceptor.SanitizeStringOnlyCustom | packages/core/interceptors/sanitize.interceptor.ts:135 | with both switches off only the custom sanitizer applies |
| SanitizeInterceptor.SanitizeStringCustomFirst | test/unit/sanitize.interceptor.spec.ts:163-198 | the custom sanitizer runs before stripping, so a tag it produces is stripped and the text is escaped |
| SanitizeInterceptor.SanitizeStringKeepsTagsEscaped | test/integration/sanitize.integration.spec.ts:175-190 | with stripping off, a tag survives as escaped text |
| SanitizeInterceptor.SanitizeData | packages/core/interceptors/sanitize.interceptor.ts:89-126 | sanitizing keeps the JSON shape: the same kinds, array lengths and member keys in order, and equal non-string scalars |
| SanitizeInterceptor.SanitizeItems | packages/core/interceptors/sanitize.interceptor.ts:93-95 | `data.map(...)`: one sanitized element per element, in order |
| SanitizeInterceptor.SanitizeMembers | packages/core/interceptors/sanitize.interceptor.ts:99-117 | the spread copy keeps every key in order and gives each its new value |
| SanitizeInterceptor.SanitizeMember | packages/core/interceptors/sanitize.interceptor.ts:101-115 | a property keeps its shape, and an unselected one keeps its value |
| SanitizeInterceptor.SanitizeDataKeepsUnselected | packages/core/interceptors/sanitize.interceptor.ts:103-105 | members whose key is not selected keep their value at every depth |
| SanitizeInterceptor.SanitizeDataEscapesEverywhere | packages/core/interceptors/sanitize.interceptor.ts:89-126 | with the defaults for fields and deep and escaping on, no string anywhere holds a raw special character |
| SanitizeInterceptor.ShallowLeavesNestedValues | packages/core/interceptors/sanitize.interceptor.ts:108-114 | with `deep` off, nested objects and arrays are left as they are and selected strings are sanitized |
| SanitizeInterceptor.SanitizeDataIdentity | packages/core/interceptors/sanitize.interceptor.ts:89-126 | with every rewrite off and the identity sanitizer the data is unchanged |
| SanitizeInterceptor.QueryIsTopLevelOnly | packages/core/interceptors/sanitize.interceptor.ts:43-52 | the query pass gives the same result whatever `fields` and `deep` say |
| SanitizeInterceptor.QueryAgreesWithDataOnStrings | packages/core/interceptors/sanitize.interceptor.ts:43-52 | a query string is sanitized exactly as a body string would be |
| SanitizeInterceptor.SanitizeQuery | packages/core/interceptors/sanitize.interceptor.ts:43-52 | the new query has the same keys in order, copies every non-string value, keeps strings as strings, and with escaping on leaves no raw special character in them |
| SanitizeInterceptor.InterceptSanitizesEachPart | packages/core/interceptors/sanitize.interceptor.ts:37-79 | body and params are sanitized as data and the query field by field; the truthiness guard changes nothing |
| SanitizeInterceptor.Intercept | packages/core/interceptors/sanitize.interceptor.ts:18-83 | body and route parameters keep their JSON shape, and the query is present afterwards exactly when it was before, with the same keys in order |
| SanitizeInterceptor.InterceptDefaultsEscapeEverything | test/integration/sanitize.integration.spec.ts:104-126 | without options, no string left in the body holds a raw special character |

## Left out

- Password hashing, JWT signing and verification, and the random values (`uuid`, `randomBytes`) are parameters. Their internals are not modelled: a sound hasher is a requirement of the lemmas that need it.
- The clock (`Date.now()`, `new Date()`) is an integer parameter in milliseconds. The reset expiry is `now` plus one hour; the source adds an hour to the local wall-clock hour (`setHours(getHours() + 1)`), which lands two hours later when a daylight-saving fall-back falls in that hour, and time zones are not modelled.
- Repository calls are synchronous reads and writes of the sequences in `Store`; concurrency between requests is not modelled.
- Database constraints beyond what the service checks are not modelled.
- The ORM-maintained `createdAt` and `updatedAt` columns of users are not modelled, so the user objects that `validateUser`, `register` and `getUserProfile` return lack those two fields.
- AuthService.Refresh: the owner of a refresh row is the user whose id is the row's `userId`. In the source the owner is the loaded `user` relation, whose join column is `user_id`, while `generateRefreshToken` writes only the separate `userId` column; the model assumes the relation resolves through `userId`, which holds only under a naming strategy that maps both to one column. When no owner is found, the model follows the source: the row is deleted, then reading `user.id` fails and the call ends in a server error.
- Decorators, reflection metadata, controllers, modules, DTO validation and the logging interceptor are left out. Handler metadata is an `Option` parameter.
- `console.log` and `console.warn` calls are left out.
- The query's `Object.defineProperty` replacement and its failure path are left out: the sanitized query always replaces the original.
- RateLimitGuard.CanActivate: of the two headers, the model computes the reset value and not the header writing; the response object is not modelled.
- PaginationInterceptor.MergeOptions: a decorator field written explicitly as `undefined` is not modelled; a handler option is either absent (the default applies) or given. In the source such a field overrides the default with `undefined`: `defaultLimit` then throws in `toString()` when the query has no limit, `maxLimit` makes the limit `NaN`, and an undefined parameter or key name is looked up or written as the key `"undefined"`.
- JwtStrategy.Validate: unloaded `roles` or `permissions` relations are read as empty lists. In the source, `user.roles.flatMap` throws on unloaded roles and an unloaded `role.permissions` becomes an `undefined` element; both relations are loaded by the query in jwt.strategy.ts, so neither case arises there.
- `parseInt` is the parameter `parse` returning an integer; `NaN` results and floating-point page values are not modelled.
- SanitizeInterceptor.SanitizeData: JSON numbers are integers, so `NaN` as a falsy value is not modelled.
- `for … in` over inherited enumerable properties is not modelled: objects have only their own members, in order.
- `SanitizeUtils.StripTags` and the other regular-expression replacements are written as scans over the characters the expression matches. There is no general regular-expression engine.
- Unit examples on long literal strings are stated as general lemmas over the same shape of input (an element, a tag, a statement closed by `;--`) rather than on the literal text.
- The `permissions` claim is not de-duplicated in the source; `AuthProperties.PayloadPermissionsKeepDuplicates` records that.

## Findings

| source | as written | input that shows it | evidently intended | confidence | as-written member | corrected member |
|---|---|---|---|---|---|---|
| packages/auth/services/auth.service.ts:227-258 | an unknown email gets "If a user with that email exists, …" and a known one gets "Password reset link has been sent to your email." | any store with one registered and one unregistered email | one reply whatever the email, so the reply does not reveal whether an account exists | not executed | AuthProperties.ResetRequestRevealsAccount | AuthProperties.UniformResetRequestHidesAccount |
| packages/core/utils/sanitize.utils.ts:34-40 | `--` is removed before `;`, so removing `;` can create a new `--` | `-;-` gives `--` | the cleaned text holds neither `;` nor the comment marker `--` | not executed | SanitizeUtils.PreventSqlInjectionLeavesCommentMarker | SanitizeUtils.PreventSqlInjectionCorrected |

Where the code and its documentation disagree, the model follows the code:
- `RolesGuard` reads a single `role` field, which neither producer of `request.user` sets. See `RolesGuard.RoleListIsNeverConsulted`.
- The claims `JwtAuthGuard` stores list permission strings without a `name`, so `PermissionsGuard` refuses them. See `PermissionsGuard.ClaimsNeverCarryPermissions`.
- Registration returns the user without issuing tokens.
- The two reset-request replies differ, as the first finding records.

=== FILE: auth_properties.dfy ===
/** Properties of the authentication service that relate several calls: the
    store invariant every operation preserves, single use of refresh and reset
    tokens, and revocation of sessions. */
module AuthProperties {
  import opened Wrappers
  import opened Seqs
  import opened Entities
  import opened AuthService

  // ---------------------------------------------------------------------
  // The store invariant

  /** The unique columns of `users` and the primary-key sequence. */
  ghost predicate DistinctUsers(users: seq<User>, nextUserId: int) {
    && (forall i :: 0 <= i < |users| ==> users[i].id < nextUserId)
    && (forall i, j :: 0 <= i < j < |users| ==>
          users[i].id != users[j].id && users[i].username != users[j].username && users[i].email != users[j].email)
  }

  /** `resetToken` and `resetTokenExpiry` are set and cleared together. */
  ghost predicate ResetPairsConsistent(users: seq<User>) {
    forall i :: 0 <= i < |users| ==> (users[i].resetToken.None? <==> users[i].resetTokenExpiry.None?)
  }

  /** No two users hold the same reset token. */
  ghost predicate DistinctResetTokens(users: seq<User>) {
    forall i, j :: 0 <= i < j < |users| && users[i].resetToken.Some? ==> users[i].resetToken != users[j].resetToken
  }

  /** Refresh rows are identified both by their id (below the next id) and by
      their token string. */
  ghost predicate KeyedTokens(tokens: seq<RefreshToken>, nextTokenId: int) {
    && (forall t :: t in tokens ==> t.id < nextTokenId)
    && (forall a, b :: a in tokens && b in tokens && a.id == b.id ==> a == b)
    && (forall a, b :: a in tokens && b in tokens && a.token == b.token ==> a == b)
  }

  ghost predicate Inv(s: Store) {
    && DistinctUsers(s.users, s.nextUserId)
    && ResetPairsConsistent(s.users)
    && DistinctResetTokens(s.users)
    && KeyedTokens(s.tokens, s.nextTokenId)
  }

  /** A `uuidv4()` value no stored row carries. */
  predicate FreshRefreshToken(s: Store, token: string) {
    forall t :: t in s.tokens ==> t.token != token
  }

  /** A `randomBytes(32)` value no user currently holds. */
  predicate FreshResetToken(s: Store, token: string) {
    forall i :: 0 <= i < |s.users| ==> s.users[i].resetToken != Some(token)
  }

  function EmptyStore(): (s: Store)
    ensures Inv(s)
  {
    Store([], [], [], 1, 1, 1)
  }

  // ---------------------------------------------------------------------
  // Frame lemmas

  lemma KeyedSubset(small: seq<RefreshToken>, big: seq<RefreshToken>, next: int)
    requires KeyedTokens(big, next)
    requires forall t :: t in small ==> t in big
    ensures KeyedTokens(small, next)
  {
  }

  lemma KeyedAppend(tokens: seq<RefreshToken>, next: int, row: RefreshToken)
    requires KeyedTokens(tokens, next)
    requires row.id == next
    requires forall t :: t in tokens ==> t.token != row.token
    ensures KeyedTokens(tokens + [row], next + 1)
  {
    forall t | t in tokens + [row] ensures t in tokens || t == row {
    }
  }

  /** Changing a user's password or reset fields keeps the unique columns. */
  lemma UpdateKeepsDistinctUsers(users: seq<User>, next: int, i: nat, u: User)
    requires DistinctUsers(users, next)
    requires i < |users|
    requires u.id == users[i].id && u.username == users[i].username && u.email == users[i].email
    ensures DistinctUsers(users[i := u], next)
  {
  }

  /** Clearing a user's reset token keeps the reset columns well formed. */
  lemma ClearKeepsResetColumns(users: seq<User>, i: nat, u: User)
    requires ResetPairsConsistent(users) && DistinctResetTokens(users)
    requires i < |users|
    requires u.resetToken.None? && u.resetTokenExpiry.None?
    ensures ResetPairsConsistent(users[i := u]) && DistinctResetTokens(users[i := u])
  {
  }

  /** Deleting one user's rows leaves no live row with any of that user's old
      token strings. */
  lemma RevokedTokensAreDead(tokens: seq<RefreshToken>, next: int, userId: int, t: RefreshToken)
    requires KeyedTokens(tokens, next)
    requires t in tokens && t.userId == userId
    ensures LiveTokenIndex(DeleteTokensOfUser(tokens, userId), t.token).None?
  {
    var rest := DeleteTokensOfUser(tokens, userId);
    forall j | 0 <= j < |rest| ensures rest[j].token != t.token {
      assert rest[j] in rest;
    }
  }

  lemma GenerateTokensPreservesInv(s: Store, env: Env, u: PublicUser, newToken: string, now: int)
    requires Inv(s)
    requires FreshRefreshToken(s, newToken)
    ensures Inv(GenerateTokens(s, env, u, newToken, now).0)
  {
    KeyedAppend(s.tokens, s.nextTokenId, IssuedRow(s, env, u.id, newToken, now));
  }

  // ---------------------------------------------------------------------
  // Every operation preserves the invariant

  /** One call into the service, with the fresh values it draws. */
  datatype Op =
    | LoginOp(login: LoginDto, newToken: string, now: int)
    | RegisterOp(register: RegisterDto)
    | RefreshOp(token: string, newToken: string, now: int)
    | LogoutOp(userId: int)
    | ChangePasswordOp(userId: int, oldPassword: string, newPassword: string)
    | RequestResetOp(email: string, resetToken: string, now: int)
    | ResetPasswordOp(token: string, newPassword: string, now: int)

  /** The store after one call. */
  function Apply(s: Store, env: Env, op: Op): Store {
    match op
    case LoginOp(dto, t, now) => Login(s, env, dto, t, now).store
    case RegisterOp(dto) => Register(s, env, dto).store
    case RefreshOp(token, t, now) => Refresh(s, env, token, t, now).store
    case LogoutOp(id) => Logout(s, id).store
    case ChangePasswordOp(id, o, n) => ChangePassword(s, env, id, o, n).store
    case RequestResetOp(email, t, now) => RequestPasswordReset(s, email, t, now).store
    case ResetPasswordOp(token, n, now) => ResetPassword(s, env, token, n, now).store
  }

  /** The random values an operation draws are fresh in the store it runs on. */
  predicate DrawsFresh(s: Store, op: Op) {
    match op
    case LoginOp(_, t, _) => FreshRefreshToken(s, t)
    case RefreshOp(_, t, _) => FreshRefreshToken(s, t)
    case RequestResetOp(_, t, _) => FreshResetToken(s, t)
    case _ => true
  }

  lemma RegisterPreservesInv(s: Store, env: Env, dto: RegisterDto)
    requires Inv(s)
    ensures Inv(Register(s, env, dto).store)
  {
    var s' := Register(s, env, dto).store;
    if !Taken(s.users, dto.username, dto.email) {
      var n := |s.users|;
      assert s'.users == s.users + [s'.users[n]];
      forall i, j | 0 <= i < j < |s'.users|
        ensures s'.users[i].id != s'.users[j].id && s'.users[i].username != s'.users[j].username &&
                s'.users[i].email != s'.users[j].email
      {
        if j == n {
          assert s'.users[i] == s.users[i];
        }
      }
    }
  }

  lemma RefreshPreservesInv(s: Store, env: Env, token: string, newToken: string, now: int)
    requires Inv(s)
    requires FreshRefreshToken(s, newToken)
    ensures Inv(Refresh(s, env, token, newToken, now).store)
  {
    var r := Refresh(s, env, token, newToken, now);
    if r.out.Err? && r.out.error.ServerError? {
      var k := LiveTokenIndex(s.tokens, token).value;
      KeyedSubset(DeleteTokenById(s.tokens, s.tokens[k].id), s.tokens, s.nextTokenId);
    } else if r.out.Ok? {
      var k :| LiveTokenIndex(s.tokens, token) == Some(k) && !IsExpired(s.tokens[k], now) &&
               r.store.tokens == DeleteTokenById(s.tokens, s.tokens[k].id) + [IssuedRow(s, env, s.tokens[k].userId, newToken, now)];
      var row := s.tokens[k];
      var rest := DeleteTokenById(s.tokens, row.id);
      KeyedSubset(rest, s.tokens, s.nextTokenId);
      KeyedAppend(rest, s.nextTokenId, IssuedRow(s, env, row.userId, newToken, now));
    }
  }

  lemma ChangePasswordPreservesInv(s: Store, env: Env, userId: int, oldPassword: string, newPassword: string)
    requires Inv(s)
    ensures Inv(ChangePassword(s, env, userId, oldPassword, newPassword).store)
  {
    var r := ChangePassword(s, env, userId, oldPassword, newPassword);
    if r.out.Ok? {
      var i := UserIndexById(s.users, userId).value;
      var u := s.users[i].(password := env.hasher.hash(newPassword));
      UpdateKeepsDistinctUsers(s.users, s.nextUserId, i, u);
      KeyedSubset(DeleteTokensOfUser(s.tokens, userId), s.tokens, s.nextTokenId);
    }
  }

  lemma RequestResetPreservesInv(s: Store, email: string, resetToken: string, now: int)
    requires Inv(s)
    requires FreshResetToken(s, resetToken)
    ensures Inv(RequestPasswordReset(s, email, resetToken, now).store)
  {
    match UserIndexByEmail(s.users, email)
    case None =>
    case Some(i) =>
      var u := s.users[i].(resetToken := Some(resetToken), resetTokenExpiry := Some(now + ResetTokenLifetimeMs));
      UpdateKeepsDistinctUsers(s.users, s.nextUserId, i, u);
  }

  lemma ResetPasswordPreservesInv(s: Store, env: Env, token: string, newPassword: string, now: int)
    requires Inv(s)
    ensures Inv(ResetPassword(s, env, token, newPassword, now).store)
  {
    var r := ResetPassword(s, env, token, newPassword, now);
    if r.out.Ok? {
      var i := UserIndexByResetToken(s.users, token).value;
      var u := s.users[i].(password := env.hasher.hash(newPassword), resetToken := None, resetTokenExpiry := None);
      UpdateKeepsDistinctUsers(s.users, s.nextUserId, i, u);
      ClearKeepsResetColumns(s.users, i, u);
      KeyedSubset(DeleteTokensOfUser(s.tokens, s.users[i].id), s.tokens, s.nextTokenId);
    }
  }

  /** Every operation preserves the store invariant, in particular that the
      two reset columns are null together. */
  lemma {:induction false} ApplyPreservesInv(s: Store, env: Env, op: Op)
    requires Inv(s) && DrawsFresh(s, op)
    ensures Inv(Apply(s, env, op))
  {
    match op
    case LoginOp(dto, t, now) =>
      var v := ValidateUser(s, env.hasher, dto.username, dto.password);
      if v.Some? {
        GenerateTokensPreservesInv(s, env, v.value, t, now);
      }
    case RegisterOp(dto) => RegisterPreservesInv(s, env, dto);
    case RefreshOp(token, t, now) => RefreshPreservesInv(s, env, token, t, now);
    case LogoutOp(id) => KeyedSubset(DeleteTokensOfUser(s.tokens, id), s.tokens, s.nextTokenId);
    case ChangePasswordOp(id, o, n) => ChangePasswordPreservesInv(s, env, id, o, n);
    case RequestResetOp(email, t, now) => RequestResetPreservesInv(s, email, t, now);
    case ResetPasswordOp(token, n, now) => ResetPasswordPreservesInv(s, env, token, n, now);
  }

  /** The store after a sequence of calls. */
  function Run(s: Store, env: Env, ops: seq<Op>): Store
    decreases |ops|
  {
    if ops == [] then s else Run(Apply(s, env, ops[0]), env, ops[1..])
  }

  /** Every call of the sequence draws values fresh in the store it meets. */
  predicate RunDrawsFresh(s: Store, env: Env, ops: seq<Op>)
    decreases |ops|
  {
    ops == [] || (DrawsFresh(s, ops[0]) && RunDrawsFresh(Apply(s, env, ops[0]), env, ops[1..]))
  }

  /** Any sequence of calls from a store that satisfies the invariant keeps it. */
  lemma {:induction false} RunPreservesInv(s: Store, env: Env, ops: seq<Op>)
    requires Inv(s) && RunDrawsFresh(s, env, ops)
    ensures Inv(Run(s, env, ops))
    decreases |ops|
  {
    if ops != [] {
      ApplyPreservesInv(s, env, ops[0]);
      RunPreservesInv(Apply(s, env, ops[0]), env, ops[1..]);
    }
  }

  // ---------------------------------------------------------------------
  // Token lifecycle

  /** With unique usernames, login succeeds exactly for a stored username whose
      hash verifies the password. */
  lemma LoginSucceedsIffCredentialsVerify(s: Store, env: Env, dto: LoginDto, newToken: string, now: int)
    requires Inv(s)
    ensures Login(s, env, dto, newToken, now).out.Ok? <==>
              exists i :: 0 <= i < |s.users| && s.users[i].username == dto.username &&
                          env.hasher.verify(dto.password, s.users[i].password)
  {
    if exists i :: 0 <= i < |s.users| && s.users[i].username == dto.username &&
                   env.hasher.verify(dto.password, s.users[i].password) {
      var i :| 0 <= i < |s.users| && s.users[i].username == dto.username &&
               env.hasher.verify(dto.password, s.users[i].password);
      assert UserIndexByUsername(s.users, dto.username) == Some(i);
    }
  }

  /** A refresh token works once: replaying the consumed token fails with
      Unauthorized, whatever fresh value the second call draws. */
  lemma RefreshIsSingleUse(s: Store, env: Env, token: string, t1: string, now1: int, t2: string, now2: int)
    requires Inv(s)
    requires FreshRefreshToken(s, t1)
    requires Refresh(s, env, token, t1, now1).out.Ok?
    ensures Refresh(Refresh(s, env, token, t1, now1).store, env, token, t2, now2).out ==
              Err(Unauthorized("Invalid refresh token"))
  {
    var r := Refresh(s, env, token, t1, now1);
    var s' := r.store;
    var k :| LiveTokenIndex(s.tokens, token) == Some(k) && !IsExpired(s.tokens[k], now1) &&
             s'.tokens == DeleteTokenById(s.tokens, s.tokens[k].id) + [IssuedRow(s, env, s.tokens[k].userId, t1, now1)];
    var row := s.tokens[k];
    var rest := DeleteTokenById(s.tokens, row.id);
    assert row in s.tokens;
    forall j | 0 <= j < |s'.tokens| ensures s'.tokens[j].token != token {
      if j < |rest| {
        assert s'.tokens[j] == rest[j];
        assert rest[j] in rest;
      } else {
        assert s'.tokens[j] == IssuedRow(s, env, row.userId, t1, now1);
      }
    }
  }

  /** The token a successful refresh hands out is itself live and refreshes
      for the same user. */
  lemma RefreshedTokenIsLive(s: Store, env: Env, token: string, t1: string, now1: int)
    requires Refresh(s, env, token, t1, now1).out.Ok?
    requires FreshRefreshToken(s, t1)
    ensures var s' := Refresh(s, env, token, t1, now1).store;
            LiveTokenIndex(s'.tokens, t1).Some? &&
            s'.tokens[LiveTokenIndex(s'.tokens, t1).value].userId ==
              Refresh(s, env, token, t1, now1).out.value.user.id
  {
    var r := Refresh(s, env, token, t1, now1);
    var s' := r.store;
    var k :| LiveTokenIndex(s.tokens, token) == Some(k) && !IsExpired(s.tokens[k], now1) &&
             r.out.value.user.id == s.tokens[k].userId &&
             s'.tokens == DeleteTokenById(s.tokens, s.tokens[k].id) + [IssuedRow(s, env, s.tokens[k].userId, t1, now1)];
    var row := s.tokens[k];
    var rest := DeleteTokenById(s.tokens, row.id);
    assert s'.tokens[|rest|].token == t1;
    forall j | 0 <= j < |rest| ensures s'.tokens[j].token != t1 {
      assert s'.tokens[j] == rest[j];
      assert rest[j] in rest;
    }
  }

  /** After a successful password change, none of the user's earlier refresh
      tokens refreshes any more. */
  lemma ChangePasswordRevokesSessions(s: Store, env: Env, userId: int, oldPassword: string, newPassword: string,
                                      t: RefreshToken, newToken: string, now: int)
    requires Inv(s)
    requires ChangePassword(s, env, userId, oldPassword, newPassword).out.Ok?
    requires t in s.tokens && t.userId == userId
    ensures Refresh(ChangePassword(s, env, userId, oldPassword, newPassword).store, env, t.token, newToken, now).out ==
              Err(Unauthorized("Invalid refresh token"))
  {
    RevokedTokensAreDead(s.tokens, s.nextTokenId, userId, t);
  }

  /** After logout, none of the user's refresh tokens refreshes any more. */
  lemma LogoutRevokesSessions(s: Store, env: Env, userId: int, t: RefreshToken, newToken: string, now: int)
    requires Inv(s)
    requires t in s.tokens && t.userId == userId
    ensures Refresh(Logout(s, userId).store, env, t.token, newToken, now).out ==
              Err(Unauthorized("Invalid refresh token"))
  {
    RevokedTokensAreDead(s.tokens, s.nextTokenId, userId, t);
  }

  /** The new password verifies after a successful change. */
  lemma ChangedPasswordVerifies(s: Store, env: Env, userId: int, oldPassword: string, newPassword: string)
    requires Sound(env.hasher)
    requires ChangePassword(s, env, userId, oldPassword, newPassword).out.Ok?
    ensures var s' := ChangePassword(s, env, userId, oldPassword, newPassword).store;
            UserIndexById(s'.users, userId).Some? &&
            env.hasher.verify(newPassword, s'.users[UserIndexById(s'.users, userId).value].password)
  {
    var i := UserIndexById(s.users, userId).value;
    var s' := ChangePassword(s, env, userId, oldPassword, newPassword).store;
    assert s'.users[i].id == userId;
    assert UserIndexById(s'.users, userId) == Some(i);
  }

  /** A registered user can log in with the password given at registration. */
  lemma RegisteredUserCanLogIn(s: Store, env: Env, dto: RegisterDto, newToken: string, now: int)
    requires Inv(s) && Sound(env.hasher)
    requires Register(s, env, dto).out.Ok?
    ensures Login(Register(s, env, dto).store, env, LoginDto(dto.username, dto.password), newToken, now).out.Ok?
  {
    var s' := Register(s, env, dto).store;
    RegisterPreservesInv(s, env, dto);
    assert s'.users[|s.users|].username == dto.username;
    LoginSucceedsIffCredentialsVerify(s', env, LoginDto(dto.username, dto.password), newToken, now);
  }

  // ---------------------------------------------------------------------
  // Password reset

  /** A reset token resets once: reusing it answers NotFound, because both
      reset fields were cleared. */
  lemma ResetIsSingleUse(s: Store, env: Env, token: string, p1: string, now1: int, p2: string, now2: int)
    requires Inv(s)
    requires ResetPassword(s, env, token, p1, now1).out.Ok?
    ensures ResetPassword(ResetPassword(s, env, token, p1, now1).store, env, token, p2, now2).out ==
              Err(NotFound("Invalid reset token"))
  {
    var s' := ResetPassword(s, env, token, p1, now1).store;
    var i := UserIndexByResetToken(s.users, token).value;
    forall j | 0 <= j < |s'.users| ensures s'.users[j].resetToken != Some(token) {
      if j != i {
        assert s'.users[j] == s.users[j];
      }
    }
  }

  /** After a successful reset, none of the user's earlier refresh tokens
      refreshes any more. */
  lemma ResetPasswordRevokesSessions(s: Store, env: Env, token: string, newPassword: string, now: int,
                                     t: RefreshToken, newToken: string, later: int)
    requires Inv(s)
    requires ResetPassword(s, env, token, newPassword, now).out.Ok?
    requires t in s.tokens && t.userId == s.users[UserIndexByResetToken(s.users, token).value].id
    ensures Refresh(ResetPassword(s, env, token, newPassword, now).store, env, t.token, newToken, later).out ==
              Err(Unauthorized("Invalid refresh token"))
  {
    RevokedTokensAreDead(s.tokens, s.nextTokenId, t.userId, t);
  }

  /** A reset token requested at `now` verifies until exactly one hour later
      and is rejected one millisecond after that. */
  lemma ResetTokenLifetime(s: Store, email: string, token: string, now: int)
    requires Inv(s) && FreshResetToken(s, token)
    requires UserIndexByEmail(s.users, email).Some?
    ensures var s' := RequestPasswordReset(s, email, token, now).store;
            VerifyResetToken(s', token, now) &&
            VerifyResetToken(s', token, now + ResetTokenLifetimeMs) &&
            !VerifyResetToken(s', token, now + ResetTokenLifetimeMs + 1)
  {
    var s' := RequestPasswordReset(s, email, token, now).store;
    var i := UserIndexByEmail(s.users, email).value;
    assert s'.users[i].resetToken == Some(token);
    forall j | 0 <= j < i ensures s'.users[j].resetToken != Some(token) {
      assert s'.users[j] == s.users[j];
    }
    assert UserIndexByResetToken(s'.users, token) == Some(i);
  }

  // ---------------------------------------------------------------------
  // Reset request responses

  /** As written, the reply to a reset request tells whether the email belongs
      to an account: the two messages differ. */
  lemma ResetRequestRevealsAccount(s: Store, known: string, unknown: string, token: string, now: int)
    requires UserIndexByEmail(s.users, known).Some?
    requires UserIndexByEmail(s.users, unknown).None?
    ensures RequestPasswordReset(s, known, token, now).out != RequestPasswordReset(s, unknown, token, now).out
  {
    assert |ResetSentMessage| != |ResetUnknownMessage|;
  }

  /** The reset request with the response the surrounding comment intends:
      one message whether or not the email matches; the store changes as in
      `RequestPasswordReset`. */
  function RequestPasswordResetUniform(s: Store, email: string, resetToken: string, now: int): (r: Step<ResetRequestAck>)
    ensures r.store == RequestPasswordReset(s, email, resetToken, now).store
    ensures r.out == Ok(ResetRequestAck(true, ResetUnknownMessage))
  {
    Step(RequestPasswordReset(s, email, resetToken, now).store, Ok(ResetRequestAck(true, ResetUnknownMessage)))
  }

  /** With the uniform reply, two reset requests cannot be told apart by their
      response. */
  lemma UniformResetRequestHidesAccount(s: Store, e1: string, e2: string, t1: string, t2: string, now1: int, now2: int)
    ensures RequestPasswordResetUniform(s, e1, t1, now1).out == RequestPasswordResetUniform(s, e2, t2, now2).out
  {
  }

  // ---------------------------------------------------------------------
  // Access-token claims

  /** The claim keeps duplicates: two roles granting the same permission put
      its name in twice. */
  lemma PayloadPermissionsKeepDuplicates(p: Permission)
    ensures PayloadPermissions(Some([Role(1, "a", None, Some([p])), Role(2, "b", None, Some([p]))])) == [p.name, p.name]
  {
    var r1 := Role(1, "a", None, Some([p]));
    var r2 := Role(2, "b", None, Some([p]));
    assert PermissionNames(r1) == [p.name];
    assert PermissionNames(r2) == [p.name];
    var xss := PermissionNameLists([r1, r2]);
    assert xss == [[p.name], [p.name]];
    assert Flatten(xss) == [p.name] + Flatten(xss[1..]);
    assert Flatten(xss[1..]) == [p.name] + Flatten(xss[2..]);
  }
}

=== FILE: auth_service.dfy ===
/** The authentication service: login, registration, refresh-token rotation,
    logout, password change and the password-reset workflow, as transitions of
    an explicit credential store.

    Collaborators the service cannot see are parameters: bcrypt is a `Hasher`
    oracle, `jwtService.sign` is `Env.sign`, newToken `uuidv4()` and
    `randomBytes(32)` values are passed in, and the clock is an integer `now`
    in milliseconds. A `findOne` query returns the first matching row in
    sequence order. */
module AuthService {
  import opened Wrappers
  import opened Seqs
  import opened Entities

  /** The exceptions the service throws. */
  datatype AuthError =
    | Unauthorized(message: string)
    | NotFound(message: string)
    | Conflict(message: string)
    /** An uncaught runtime error, which the framework answers with status 500. */
    | ServerError(message: string)

  /** Password hashing: `hash` stands for `bcrypt.hash`, `verify` for
      `bcrypt.compare(plain, hashed)`. */
  datatype Hasher = Hasher(hash: string -> string, verify: (string, string) -> bool)

  /** The one property the service relies on: a hash verifies its own
      plaintext. */
  ghost predicate Sound(h: Hasher) {
    forall p :: h.verify(p, h.hash(p))
  }

  /** The claims signed into an access token. */
  datatype AccessPayload = AccessPayload(sub: int, username: string, roles: seq<string>, permissions: seq<string>)

  /** The `AUTH_OPTIONS` value the service reads: only the refresh lifetime
      (in seconds) matters here. */
  datatype Config = Config(refreshTokenExpiresIn: Option<int>)

  datatype Env = Env(hasher: Hasher, sign: AccessPayload -> string, config: Config)

  /** One week, in seconds. */
  const DefaultRefreshTokenExpiresIn: int := 7 * 24 * 60 * 60
  /** One hour, in milliseconds. */
  const ResetTokenLifetimeMs: int := 60 * 60 * 1000
  const DefaultRoleName: string := "user"
  const DefaultRoleDescription: string := "Regular user with limited access"
  const ResetSentMessage: string := "Password reset link has been sent to your email."
  const ResetUnknownMessage: string := "If a user with that email exists, a password reset link has been sent."
  /** The body message the framework sends for an uncaught error. */
  const InternalServerError: string := "Internal server error"

  /** The three repositories, with the next value of each primary-key
      sequence. A user's `roles` holds the joined role records. */
  datatype Store = Store(
    users: seq<User>,
    roles: seq<Role>,
    tokens: seq<RefreshToken>,
    nextUserId: int,
    nextRoleId: int,
    nextTokenId: int)

  /** A user record with the `password` property removed
      (`const { password, ...result } = user`). */
  datatype PublicUser = PublicUser(
    id: int,
    username: string,
    email: string,
    firstName: Option<string>,
    lastName: Option<string>,
    roles: Option<seq<Role>>,
    isActive: bool,
    resetToken: Option<string>,
    resetTokenExpiry: Option<int>)

  /** The `user` object returned beside a token pair. */
  datatype UserSummary = UserSummary(
    id: int,
    username: string,
    email: string,
    firstName: Option<string>,
    lastName: Option<string>,
    roles: Option<seq<Role>>)

  datatype TokenResponse = TokenResponse(accessToken: string, refreshToken: string, user: UserSummary)

  datatype Ack = Ack(success: bool)

  datatype ResetRequestAck = ResetRequestAck(success: bool, message: string)

  datatype LoginDto = LoginDto(username: string, password: string)

  datatype RegisterDto = RegisterDto(
    username: string,
    email: string,
    password: string,
    firstName: Option<string>,
    lastName: Option<string>)

  /** The store after an operation together with what the operation returned
      or threw. */
  datatype Step<T> = Step(store: Store, out: Result<T, AuthError>)

  function WithoutPassword(u: User): (p: PublicUser)
    ensures p.id == u.id && p.username == u.username && p.email == u.email
    ensures p.firstName == u.firstName && p.lastName == u.lastName && p.roles == u.roles
    ensures p.isActive == u.isActive && p.resetToken == u.resetToken && p.resetTokenExpiry == u.resetTokenExpiry
  {
    PublicUser(u.id, u.username, u.email, u.firstName, u.lastName, u.roles,
               u.isActive, u.resetToken, u.resetTokenExpiry)
  }

  // ---------------------------------------------------------------------
  // Queries

  function UserIndexByUsername(users: seq<User>, username: string): (r: Option<nat>)
    ensures r.Some? ==> r.value < |users| && users[r.value].username == username
    ensures r.Some? ==> forall j :: 0 <= j < r.value ==> users[j].username != username
    ensures r.None? <==> forall j :: 0 <= j < |users| ==> users[j].username != username
  {
    FirstIndex(users, (u: User) => u.username == username)
  }

  function UserIndexById(users: seq<User>, id: int): (r: Option<nat>)
    ensures r.Some? ==> r.value < |users| && users[r.value].id == id
    ensures r.Some? ==> forall j :: 0 <= j < r.value ==> users[j].id != id
    ensures r.None? <==> forall j :: 0 <= j < |users| ==> users[j].id != id
  {
    FirstIndex(users, (u: User) => u.id == id)
  }

  function UserIndexByEmail(users: seq<User>, email: string): (r: Option<nat>)
    ensures r.Some? ==> r.value < |users| && users[r.value].email == email
    ensures r.Some? ==> forall j :: 0 <= j < r.value ==> users[j].email != email
    ensures r.None? <==> forall j :: 0 <= j < |users| ==> users[j].email != email
  {
    FirstIndex(users, (u: User) => u.email == email)
  }

  function UserIndexByResetToken(users: seq<User>, token: string): (r: Option<nat>)
    ensures r.Some? ==> r.value < |users| && users[r.value].resetToken == Some(token)
    ensures r.Some? ==> forall j :: 0 <= j < r.value ==> users[j].resetToken != Some(token)
    ensures r.None? <==> forall j :: 0 <= j < |users| ==> users[j].resetToken != Some(token)
  {
    FirstIndex(users, (u: User) => u.resetToken == Some(token))
  }

  /** The row `findOne({ where: { token, isRevoked: false } })` returns. */
  function LiveTokenIndex(tokens: seq<RefreshToken>, token: string): (r: Option<nat>)
    ensures r.Some? ==> r.value < |tokens| && tokens[r.value].token == token && !tokens[r.value].isRevoked
    ensures r.None? <==> forall j :: 0 <= j < |tokens| ==> !(tokens[j].token == token && !tokens[j].isRevoked)
  {
    FirstIndex(tokens, (t: RefreshToken) => t.token == token && !t.isRevoked)
  }

  function RoleIndexByName(roles: seq<Role>, name: string): (r: Option<nat>)
    ensures r.Some? ==> r.value < |roles| && roles[r.value].name == name
    ensures r.None? <==> forall j :: 0 <= j < |roles| ==> roles[j].name != name
  {
    FirstIndex(roles, (role: Role) => role.name == name)
  }

  /** `delete(id)` on the refresh-token repository. */
  function DeleteTokenById(tokens: seq<RefreshToken>, id: int): (r: seq<RefreshToken>)
    ensures forall t :: t in r <==> t in tokens && t.id != id
  {
    var r := Filter(tokens, (t: RefreshToken) => t.id != id);
    assert forall t :: t in tokens && t.id != id ==> t in r by {
      forall t | t in tokens && t.id != id ensures t in r {
        var k :| 0 <= k < |tokens| && tokens[k] == t;
      }
    }
    r
  }

  /** `delete({ userId })` on the refresh-token repository: revokes every
      session of one user. */
  function DeleteTokensOfUser(tokens: seq<RefreshToken>, userId: int): (r: seq<RefreshToken>)
    ensures forall t :: t in r <==> t in tokens && t.userId != userId
  {
    var r := Filter(tokens, (t: RefreshToken) => t.userId != userId);
    assert forall t :: t in tokens && t.userId != userId ==> t in r by {
      forall t | t in tokens && t.userId != userId ensures t in r {
        var k :| 0 <= k < |tokens| && tokens[k] == t;
      }
    }
    r
  }

  // ---------------------------------------------------------------------
  // Token issuing

  /** `role.permissions?.map(p => p.name) || []` */
  function PermissionNames(role: Role): (names: seq<string>)
    ensures forall n :: n in names <==> HasPermission(role, n)
  {
    if role.permissions.None? then []
    else
      var ps := role.permissions.value;
      var names := seq(|ps|, i requires 0 <= i < |ps| => ps[i].name);
      assert forall n :: n in names <==> exists i :: 0 <= i < |ps| && ps[i].name == n by {
        forall n ensures n in names <==> exists i :: 0 <= i < |ps| && ps[i].name == n {
          if exists i :: 0 <= i < |ps| && ps[i].name == n {
            var i :| 0 <= i < |ps| && ps[i].name == n;
            assert names[i] == n;
          }
        }
      }
      names
  }

  /** `user.roles?.map(role => role.name) || []` */
  function RoleNames(roles: Option<seq<Role>>): (names: seq<string>)
    ensures roles.None? ==> names == []
    ensures roles.Some? ==> |names| == |roles.value|
    ensures roles.Some? ==> forall i :: 0 <= i < |names| ==> names[i] == roles.value[i].name
  {
    if roles.None? then []
    else seq(|roles.value|, i requires 0 <= i < |roles.value| => roles.value[i].name)
  }

  /** The `permissions` claim: each role's permission names, role by role, with
      duplicates kept. */
  function PayloadPermissions(roles: Option<seq<Role>>): (names: seq<string>)
    ensures forall n :: n in names <==> roles.Some? && exists i :: 0 <= i < |roles.value| && HasPermission(roles.value[i], n)
  {
    if roles.None? then []
    else
      var names := Flatten(PermissionNameLists(roles.value));
      assert forall n :: n in names <==> exists i :: 0 <= i < |roles.value| && HasPermission(roles.value[i], n) by {
        forall n ensures n in names <==> exists i :: 0 <= i < |roles.value| && HasPermission(roles.value[i], n) {
          if n in names {
            ClaimComesFromSomeRole(roles.value, n);
          }
          if exists i :: 0 <= i < |roles.value| && HasPermission(roles.value[i], n) {
            var i :| 0 <= i < |roles.value| && HasPermission(roles.value[i], n);
            RolePermissionIsClaimed(roles.value, i, n);
          }
        }
      }
      names
  }

  /** Every name in the flattened lists comes from a role that grants it. */
  lemma ClaimComesFromSomeRole(rs: seq<Role>, n: string)
    requires n in Flatten(PermissionNameLists(rs))
    ensures exists i :: 0 <= i < |rs| && HasPermission(rs[i], n)
  {
    var xss := PermissionNameLists(rs);
    FlattenMemberComesFromSome(xss, n);
    var i :| 0 <= i < |xss| && n in xss[i];
    assert HasPermission(rs[i], n);
  }

  /** Every name a role grants appears in the flattened lists. */
  lemma RolePermissionIsClaimed(rs: seq<Role>, i: nat, n: string)
    requires i < |rs| && HasPermission(rs[i], n)
    ensures n in Flatten(PermissionNameLists(rs))
  {
    var xss := PermissionNameLists(rs);
    assert n in xss[i];
    FlattenContainsMember(xss, i, n);
  }

  lemma FlattenMemberComesFromSome(xss: seq<seq<string>>, n: string)
    requires n in Flatten(xss)
    ensures exists i :: 0 <= i < |xss| && n in xss[i]
  {
    var k :| 0 <= k < |Flatten(xss)| && Flatten(xss)[k] == n;
  }

  lemma FlattenContainsMember(xss: seq<seq<string>>, i: nat, n: string)
    requires i < |xss| && n in xss[i]
    ensures n in Flatten(xss)
  {
    var j :| 0 <= j < |xss[i]| && xss[i][j] == n;
    assert xss[i][j] in Flatten(xss);
  }


  /** Each role's permission names, role by role. */
  function PermissionNameLists(rs: seq<Role>): (xss: seq<seq<string>>)
    ensures |xss| == |rs| && forall i :: 0 <= i < |rs| ==> xss[i] == PermissionNames(rs[i])
  {
    seq(|rs|, i requires 0 <= i < |rs| => PermissionNames(rs[i]))
  }

  function BuildPayload(u: PublicUser): (p: AccessPayload)
    ensures p.sub == u.id && p.username == u.username
    ensures p.roles == RoleNames(u.roles)
    ensures p.permissions == PayloadPermissions(u.roles)
    ensures forall n :: n in p.permissions <==>
              u.roles.Some? && exists i :: 0 <= i < |u.roles.value| && HasPermission(u.roles.value[i], n)
  {
    AccessPayload(u.id, u.username, RoleNames(u.roles), PayloadPermissions(u.roles))
  }

  /** `options.refreshTokenExpiresIn || 604800`: an absent or zero setting
      falls back to one week. */
  function RefreshTokenExpiresIn(c: Config): (seconds: int)
    ensures c.refreshTokenExpiresIn.None? ==> seconds == DefaultRefreshTokenExpiresIn
    ensures c.refreshTokenExpiresIn == Some(0) ==> seconds == DefaultRefreshTokenExpiresIn
    ensures c.refreshTokenExpiresIn.Some? && c.refreshTokenExpiresIn.value != 0 ==>
              seconds == c.refreshTokenExpiresIn.value
  {
    match c.refreshTokenExpiresIn
    case Some(n) => if n != 0 then n else DefaultRefreshTokenExpiresIn
    case None => DefaultRefreshTokenExpiresIn
  }

  /** The row `generateRefreshToken(userId)` saves. */
  function IssuedRow(s: Store, env: Env, userId: int, newToken: string, now: int): (t: RefreshToken)
    ensures t.id == s.nextTokenId && t.token == newToken && t.userId == userId && !t.isRevoked
    ensures t.expiresAt == now + RefreshTokenExpiresIn(env.config) * 1000
  {
    NewRefreshToken(s.nextTokenId, newToken, now + RefreshTokenExpiresIn(env.config) * 1000, userId)
  }

  function Summary(u: PublicUser): UserSummary {
    UserSummary(u.id, u.username, u.email, u.firstName, u.lastName, u.roles)
  }

  /** `generateTokens`: signs the claims and saves exactly one new refresh row
      for the user; nothing else in the store changes. */
  function GenerateTokens(s: Store, env: Env, u: PublicUser, newToken: string, now: int): (r: (Store, TokenResponse))
    ensures r.0.users == s.users && r.0.roles == s.roles
    ensures r.0.tokens == s.tokens + [IssuedRow(s, env, u.id, newToken, now)]
    ensures r.0.nextTokenId == s.nextTokenId + 1
    ensures r.0.nextUserId == s.nextUserId && r.0.nextRoleId == s.nextRoleId
    ensures r.1.refreshToken == newToken
    ensures r.1.accessToken == env.sign(BuildPayload(u))
    ensures r.1.user.id == u.id && r.1.user.roles == u.roles
  {
    var row := IssuedRow(s, env, u.id, newToken, now);
    var s' := s.(tokens := s.tokens + [row], nextTokenId := s.nextTokenId + 1);
    (s', TokenResponse(env.sign(BuildPayload(u)), newToken, Summary(u)))
  }

  // ---------------------------------------------------------------------
  // Operations

  /** `validateUser`: the first user with the username, stripped of its
      password, provided the password verifies against its hash. */
  function ValidateUser(s: Store, h: Hasher, username: string, password: string): (r: Option<PublicUser>)
    ensures r.Some? ==> exists i :: 0 <= i < |s.users| && s.users[i].username == username &&
                          h.verify(password, s.users[i].password) && r.value == WithoutPassword(s.users[i])
    ensures (forall i :: 0 <= i < |s.users| ==> s.users[i].username != username) ==> r.None?
    ensures forall i :: 0 <= i < |s.users| && UserIndexByUsername(s.users, username) == Some(i) ==>
              (r.Some? <==> h.verify(password, s.users[i].password))
  {
    match UserIndexByUsername(s.users, username)
    case None => None
    case Some(i) =>
      if h.verify(password, s.users[i].password) then Some(WithoutPassword(s.users[i])) else None
  }

  /** `login`: Unauthorized exactly when the credentials do not validate,
      otherwise a newToken token pair for the validated user. */
  function Login(s: Store, env: Env, dto: LoginDto, newToken: string, now: int): (r: Step<TokenResponse>)
    ensures r.out.Err? <==> ValidateUser(s, env.hasher, dto.username, dto.password).None?
    ensures r.out.Err? ==> r.store == s && r.out.error == Unauthorized("Invalid credentials")
    ensures r.out.Ok? ==>
              var u := ValidateUser(s, env.hasher, dto.username, dto.password).value;
              r.store.users == s.users &&
              r.store.tokens == s.tokens + [IssuedRow(s, env, u.id, newToken, now)] &&
              r.out.value.refreshToken == newToken && r.out.value.user.id == u.id
  {
    match ValidateUser(s, env.hasher, dto.username, dto.password)
    case None => Step(s, Err(Unauthorized("Invalid credentials")))
    case Some(u) =>
      var (s', resp) := GenerateTokens(s, env, u, newToken, now);
      Step(s', Ok(resp))
  }

  /** Whether some user already has the username or the email: the
      `findOne` with the two alternatives finds a row exactly when a lookup
      by either column would. */
  function Taken(users: seq<User>, username: string, email: string): (r: bool)
    ensures r <==> UserIndexByUsername(users, username).Some? || UserIndexByEmail(users, email).Some?
  {
    exists i :: 0 <= i < |users| && (users[i].username == username || users[i].email == email)
  }

  /** The role `register` attaches: the object `register` holds, the row as
      the table (and every eager reload) has it, the role table afterwards and
      the next role id. An existing 'user' role is found with its eager
      permissions, so the two coincide; a created one is built without
      `permissions`, so the object held has none while the stored row has an
      empty join list. */
  function DefaultRole(s: Store): (r: (Role, Role, seq<Role>, int))
    ensures r.0.name == DefaultRoleName && r.1.name == DefaultRoleName
    ensures r.1 in r.2
    ensures RoleIndexByName(s.roles, DefaultRoleName).Some? ==>
              r.0 == r.1 && r.1 in s.roles && r.2 == s.roles && r.3 == s.nextRoleId
    ensures RoleIndexByName(s.roles, DefaultRoleName).None? ==>
              r.0 == Role(s.nextRoleId, DefaultRoleName, Some(DefaultRoleDescription), None) &&
              r.1 == r.0.(permissions := Some([])) &&
              r.2 == s.roles + [r.1] && r.3 == s.nextRoleId + 1
  {
    match RoleIndexByName(s.roles, DefaultRoleName)
    case Some(k) => (s.roles[k], s.roles[k], s.roles, s.nextRoleId)
    case None =>
      var held := Role(s.nextRoleId, DefaultRoleName, Some(DefaultRoleDescription), None);
      var stored := held.(permissions := Some([]));
      (held, stored, s.roles + [stored], s.nextRoleId + 1)
  }

  /** `register`: Conflict when the username or the email is taken; otherwise
      appends one active user holding the hashed password and only the
      'user' role, issues no refresh token and returns the user object it
      built, without its password. The stored user carries the role row as
      reloads see it; the reply carries the role object `register` held. */
  function Register(s: Store, env: Env, dto: RegisterDto): (r: Step<PublicUser>)
    ensures r.out.Err? <==> Taken(s.users, dto.username, dto.email)
    ensures r.out.Err? ==> r.store == s && r.out.error == Conflict("Username or email already exists")
    ensures r.out.Ok? ==> r.store.tokens == s.tokens
    ensures r.out.Ok? ==> |r.store.users| == |s.users| + 1 && r.store.users[..|s.users|] == s.users
    ensures r.out.Ok? ==>
              var u := r.store.users[|s.users|];
              u.id == s.nextUserId && u.username == dto.username && u.email == dto.email &&
              u.password == env.hasher.hash(dto.password) && u.isActive &&
              u.resetToken.None? && u.resetTokenExpiry.None? &&
              u.roles == Some([DefaultRole(s).1]) &&
              r.out.value == WithoutPassword(u.(roles := Some([DefaultRole(s).0])))
    ensures r.out.Ok? && RoleIndexByName(s.roles, DefaultRoleName).None? ==>
              r.out.value.roles.Some? && |r.out.value.roles.value| == 1 &&
              r.out.value.roles.value[0].permissions.None?
    ensures r.out.Ok? ==> r.store.nextUserId == s.nextUserId + 1
    ensures r.out.Ok? ==> r.store.roles == DefaultRole(s).2 && r.store.nextRoleId == DefaultRole(s).3
  {
    if Taken(s.users, dto.username, dto.email) then
      Step(s, Err(Conflict("Username or email already exists")))
    else
      var (held, stored, roles', nextRoleId') := DefaultRole(s);
      var u := NewUser(s.nextUserId, dto.username, dto.email, env.hasher.hash(dto.password),
                       dto.firstName, dto.lastName, Some([stored]));
      var s' := s.(users := s.users + [u], roles := roles',
                   nextUserId := s.nextUserId + 1, nextRoleId := nextRoleId');
      assert s'.users[..|s.users|] == s.users;
      Step(s', Ok(WithoutPassword(u.(roles := Some([held])))))
  }

  /** The success path of `refreshToken`: deletes the consumed row and issues a
      new pair for the row's owner. */
  function Rotate(s: Store, env: Env, row: RefreshToken, owner: User, newToken: string, now: int): (r: (Store, TokenResponse))
    ensures r.0.users == s.users
    ensures r.0.tokens == DeleteTokenById(s.tokens, row.id) + [IssuedRow(s, env, owner.id, newToken, now)]
    ensures r.1.refreshToken == newToken && r.1.user.id == owner.id
  {
    GenerateTokens(s.(tokens := DeleteTokenById(s.tokens, row.id)), env, WithoutPassword(owner), newToken, now)
  }

  /** `refreshToken`: rotates a live, unexpired refresh token. The consumed row
      is deleted and one row for the same user is added. An unknown, revoked or
      expired token is Unauthorized and leaves the store as it was. The owner
      is the user whose id is the row's `userId`; when there is none, the row
      has already been deleted when building the payload fails on the missing
      user, so the call ends in a server error with the token consumed. */
  function Refresh(s: Store, env: Env, token: string, newToken: string, now: int): (r: Step<TokenResponse>)
    ensures r.out.Err? ==> r.out.error.Unauthorized? || r.out.error.ServerError?
    ensures r.out.Err? && r.out.error.Unauthorized? ==> r.store == s
    ensures LiveTokenIndex(s.tokens, token).None? ==> r.out == Err(Unauthorized("Invalid refresh token"))
    ensures forall k :: LiveTokenIndex(s.tokens, token) == Some(k) && IsExpired(s.tokens[k], now) ==>
              r.out == Err(Unauthorized("Refresh token expired"))
    ensures forall k :: LiveTokenIndex(s.tokens, token) == Some(k) && !IsExpired(s.tokens[k], now) &&
                        UserIndexById(s.users, s.tokens[k].userId).None? ==>
              r.out == Err(ServerError(InternalServerError)) &&
              r.store == s.(tokens := DeleteTokenById(s.tokens, s.tokens[k].id))
    ensures r.out.Ok? ==>
              exists k :: LiveTokenIndex(s.tokens, token) == Some(k) && !IsExpired(s.tokens[k], now) &&
                UserIndexById(s.users, s.tokens[k].userId).Some? &&
                r.out.value.refreshToken == newToken && r.out.value.user.id == s.tokens[k].userId &&
                r.store.users == s.users &&
                r.store.tokens == DeleteTokenById(s.tokens, s.tokens[k].id) + [IssuedRow(s, env, s.tokens[k].userId, newToken, now)]
  {
    match LiveTokenIndex(s.tokens, token)
    case None => Step(s, Err(Unauthorized("Invalid refresh token")))
    case Some(k) =>
      var row := s.tokens[k];
      if ExpiredAt(row.expiresAt, now) then Step(s, Err(Unauthorized("Refresh token expired")))
      else
        match UserIndexById(s.users, row.userId)
        case None => Step(s.(tokens := DeleteTokenById(s.tokens, row.id)), Err(ServerError(InternalServerError)))
        case Some(i) =>
          var (s', resp) := Rotate(s, env, row, s.users[i], newToken, now);
          Step(s', Ok(resp))
  }

  /** `logout`: deletes the user's refresh rows and always succeeds. */
  function Logout(s: Store, userId: int): (r: Step<Ack>)
    ensures r.out == Ok(Ack(true))
    ensures r.store == s.(tokens := DeleteTokensOfUser(s.tokens, userId))
    ensures forall t :: t in r.store.tokens <==> t in s.tokens && t.userId != userId
  {
    Step(s.(tokens := DeleteTokensOfUser(s.tokens, userId)), Ok(Ack(true)))
  }

  /** `changePassword`: NotFound for an unknown id, Unauthorized when the old
      password does not verify, and otherwise stores the hash of the new
      password and deletes all of the user's refresh rows. */
  function ChangePassword(s: Store, env: Env, userId: int, oldPassword: string, newPassword: string): (r: Step<Ack>)
    ensures r.out.Err? ==> r.store == s
    ensures UserIndexById(s.users, userId).None? <==> r.out == Err(NotFound("User not found"))
    ensures UserIndexById(s.users, userId).Some? ==>
              var i := UserIndexById(s.users, userId).value;
              (r.out.Ok? <==> env.hasher.verify(oldPassword, s.users[i].password)) &&
              (r.out.Err? ==> r.out.error == Unauthorized("Invalid current password")) &&
              (r.out.Ok? ==>
                 r.out.value == Ack(true) &&
                 r.store == s.(users := s.users[i := s.users[i].(password := env.hasher.hash(newPassword))],
                               tokens := DeleteTokensOfUser(s.tokens, userId)))
  {
    match UserIndexById(s.users, userId)
    case None => Step(s, Err(NotFound("User not found")))
    case Some(i) =>
      var u := s.users[i];
      if !env.hasher.verify(oldPassword, u.password) then Step(s, Err(Unauthorized("Invalid current password")))
      else
        var u' := u.(password := env.hasher.hash(newPassword));
        Step(s.(users := s.users[i := u'], tokens := DeleteTokensOfUser(s.tokens, userId)), Ok(Ack(true)))
  }

  /** `getUserProfile`: the user without its password, or NotFound. */
  function GetUserProfile(s: Store, userId: int): (r: Result<PublicUser, AuthError>)
    ensures r.Err? <==> forall i :: 0 <= i < |s.users| ==> s.users[i].id != userId
    ensures r.Err? ==> r.error == NotFound("User not found")
    ensures r.Ok? ==> r.value.id == userId && exists i :: 0 <= i < |s.users| && r.value == WithoutPassword(s.users[i])
  {
    match UserIndexById(s.users, userId)
    case None => Err(NotFound("User not found"))
    case Some(i) => Ok(WithoutPassword(s.users[i]))
  }

  /** `requestPasswordReset`: always reports success. Only when a user has the
      email are both reset fields set, to the newToken token and to one hour from
      `now`; nothing else changes. */
  function RequestPasswordReset(s: Store, email: string, resetToken: string, now: int): (r: Step<ResetRequestAck>)
    ensures r.out.Ok? && r.out.value.success
    ensures r.store.tokens == s.tokens && r.store.roles == s.roles && |r.store.users| == |s.users|
    ensures UserIndexByEmail(s.users, email).None? ==>
              r.store == s && r.out.value.message == ResetUnknownMessage
    ensures UserIndexByEmail(s.users, email).Some? ==>
              var i := UserIndexByEmail(s.users, email).value;
              r.out.value.message == ResetSentMessage &&
              r.store == s.(users := s.users[i := s.users[i].(resetToken := Some(resetToken),
                                                              resetTokenExpiry := Some(now + ResetTokenLifetimeMs))])
  {
    match UserIndexByEmail(s.users, email)
    case None => Step(s, Ok(ResetRequestAck(true, ResetUnknownMessage)))
    case Some(i) =>
      var u' := s.users[i].(resetToken := Some(resetToken), resetTokenExpiry := Some(now + ResetTokenLifetimeMs));
      Step(s.(users := s.users[i := u']), Ok(ResetRequestAck(true, ResetSentMessage)))
  }

  /** `verifyResetToken`: read-only; valid exactly when the first holder of the
      token has an expiry and `now` has not passed it. */
  function VerifyResetToken(s: Store, token: string, now: int): (valid: bool)
    ensures valid <==> exists i :: 0 <= i < |s.users| &&
                         UserIndexByResetToken(s.users, token) == Some(i) &&
                         s.users[i].resetTokenExpiry.Some? && now <= s.users[i].resetTokenExpiry.value
  {
    match UserIndexByResetToken(s.users, token)
    case None => false
    case Some(i) =>
      match s.users[i].resetTokenExpiry
      case None => false
      case Some(expiry) => !ExpiredAt(expiry, now)
  }

  /** `resetPassword`: NotFound when no user holds the token or its expiry is
      missing, Unauthorized once expired; otherwise sets the new password hash,
      clears both reset fields and deletes the user's refresh rows. */
  function ResetPassword(s: Store, env: Env, token: string, newPassword: string, now: int): (r: Step<Ack>)
    ensures r.out.Err? ==> r.store == s
    ensures UserIndexByResetToken(s.users, token).None? ==> r.out == Err(NotFound("Invalid reset token"))
    ensures UserIndexByResetToken(s.users, token).Some? ==>
              var i := UserIndexByResetToken(s.users, token).value;
              var u := s.users[i];
              (u.resetTokenExpiry.None? ==> r.out == Err(NotFound("Invalid reset token"))) &&
              (u.resetTokenExpiry.Some? && ExpiredAt(u.resetTokenExpiry.value, now) ==>
                 r.out == Err(Unauthorized("Reset token has expired"))) &&
              (u.resetTokenExpiry.Some? && !ExpiredAt(u.resetTokenExpiry.value, now) ==>
                 r.out == Ok(Ack(true)) &&
                 r.store == s.(users := s.users[i := u.(password := env.hasher.hash(newPassword),
                                                        resetToken := None, resetTokenExpiry := None)],
                               tokens := DeleteTokensOfUser(s.tokens, u.id)))
    ensures r.out.Ok? <==> VerifyResetToken(s, token, now)
  {
    match UserIndexByResetToken(s.users, token)
    case None => Step(s, Err(NotFound("Invalid reset token")))
    case Some(i) =>
      var u := s.users[i];
      match u.resetTokenExpiry
      case None => Step(s, Err(NotFound("Invalid reset token")))
      case Some(expiry) =>
        if ExpiredAt(expiry, now) then Step(s, Err(Unauthorized("Reset token has expired")))
        else
          var u' := u.(password := env.hasher.hash(newPassword), resetToken := None, resetTokenExpiry := None);
          Step(s.(users := s.users[i := u'], tokens := DeleteTokensOfUser(s.tokens, u.id)), Ok(Ack(true)))
  }
}

=== FILE: entities.dfy ===
/** The persisted records of the auth core: `Permission`, `Role`, `User` and
    `RefreshToken`, with the helper methods the entity classes define.
    Timestamps are milliseconds since the epoch, as plain integers. The
    ORM-maintained `createdAt`/`updatedAt` columns are not modelled. */
module Entities {
  import opened Wrappers
  import opened Seqs

  /** A named capability scoped by resource and action. */
  datatype Permission = Permission(
    id: int,
    name: string,
    description: Option<string>,
    resource: string,
    action: string)

  /** A named authorization group. `permissions` is `None` when the relation
      was never populated on the object (the property is `undefined`). */
  datatype Role = Role(
    id: int,
    name: string,
    description: Option<string>,
    permissions: Option<seq<Permission>>)

  /** An account. `password` always holds a hash; the two reset columns are
      nullable and are meant to be set and cleared together. */
  datatype User = User(
    id: int,
    username: string,
    email: string,
    password: string,
    firstName: Option<string>,
    lastName: Option<string>,
    roles: Option<seq<Role>>,
    isActive: bool,
    resetToken: Option<string>,
    resetTokenExpiry: Option<int>)

  /** A stored refresh token; each row belongs to the single user `userId`. */
  datatype RefreshToken = RefreshToken(
    id: int,
    token: string,
    expiresAt: int,
    isRevoked: bool,
    userId: int)

  /** JavaScript truthiness of an optional string: `undefined`, `null` and
      `""` are falsy. */
  predicate Truthy(s: Option<string>) {
    s.Some? && s.value != ""
  }

  /** A freshly created user row: the column defaults apply, so the account is
      active and no password reset is in flight. */
  function NewUser(id: int, username: string, email: string, password: string,
                   firstName: Option<string>, lastName: Option<string>,
                   roles: Option<seq<Role>>): (u: User)
    ensures u.isActive
    ensures u.resetToken.None? && u.resetTokenExpiry.None?
    ensures u.id == id && u.username == username && u.email == email && u.password == password
    ensures u.firstName == firstName && u.lastName == lastName && u.roles == roles
  {
    User(id, username, email, password, firstName, lastName, roles, true, None, None)
  }

  /** A freshly created refresh-token row: the `isRevoked` default is false. */
  function NewRefreshToken(id: int, token: string, expiresAt: int, userId: int): (t: RefreshToken)
    ensures !t.isRevoked
    ensures t.id == id && t.token == token && t.expiresAt == expiresAt && t.userId == userId
  {
    RefreshToken(id, token, expiresAt, false, userId)
  }

  /** `Role.hasPermission`: false when the relation is absent or empty,
      otherwise whether some permission carries the name. */
  function HasPermission(role: Role, permissionName: string): (b: bool)
    ensures role.permissions.None? ==> !b
    ensures role.permissions == Some([]) ==> !b
    ensures b <==> role.permissions.Some? &&
                   exists i :: 0 <= i < |role.permissions.value| && role.permissions.value[i].name == permissionName
  {
    role.permissions.Some? && AnySatisfy(role.permissions.value, (p: Permission) => p.name == permissionName)
  }

  /** `User.hasRole`: false when the relation is absent, otherwise whether some
      role carries the name. */
  function HasRole(user: User, roleName: string): (b: bool)
    ensures user.roles.None? ==> !b
    ensures b <==> user.roles.Some? &&
                   exists i :: 0 <= i < |user.roles.value| && user.roles.value[i].name == roleName
  {
    user.roles.Some? && AnySatisfy(user.roles.value, (r: Role) => r.name == roleName)
  }

  /** The `fullName` getter: both names joined by one space when both are
      truthy, otherwise the username (an empty name counts as missing). */
  function FullName(user: User): (name: string)
    ensures Truthy(user.firstName) && Truthy(user.lastName) ==>
              |name| == |user.firstName.value| + 1 + |user.lastName.value| &&
              name[..|user.firstName.value|] == user.firstName.value &&
              name[|user.firstName.value|] == ' ' &&
              name[|user.firstName.value| + 1..] == user.lastName.value
    ensures !(Truthy(user.firstName) && Truthy(user.lastName)) ==> name == user.username
  {
    if Truthy(user.firstName) && Truthy(user.lastName) then
      user.firstName.value + " " + user.lastName.value
    else
      user.username
  }

  /** The expiry test shared by `RefreshToken.isExpired` and the service's
      `isTokenExpired`: strictly after the expiry instant. */
  predicate ExpiredAt(expiresAt: int, now: int) {
    now > expiresAt
  }

  /** `RefreshToken.isExpired` at time `now`. */
  predicate IsExpired(t: RefreshToken, now: int) {
    ExpiredAt(t.expiresAt, now)
  }

  /** A token is still valid at the exact instant it expires, and expired one
      millisecond later. */
  lemma ExpiryIsStrict(t: RefreshToken)
    ensures !IsExpired(t, t.expiresAt)
    ensures IsExpired(t, t.expiresAt + 1)
  {
  }

  /** Once expired, a token stays expired at every later instant. */
  lemma ExpiryIsMonotone(t: RefreshToken, now: int, later: int)
    requires now <= later
    ensures IsExpired(t, now) ==> IsExpired(t, later)
  {
  }

  /** Appending a permission to a role never withdraws one it already has. */
  lemma HasPermissionMonotone(role: Role, extra: Permission, name: string)
    requires role.permissions.Some?
    ensures HasPermission(role, name) ==>
              HasPermission(role.(permissions := Some(role.permissions.value + [extra])), name)
  {
    var bigger := role.(permissions := Some(role.permissions.value + [extra]));
    if HasPermission(role, name) {
      var i :| 0 <= i < |role.permissions.value| && role.permissions.value[i].name == name;
      assert bigger.permissions.value[i] == role.permissions.value[i];
    }
  }
}

=== FILE: jwt_auth_guard.dfy ===
/** `JwtAuthGuard.canActivate`: extracts the bearer credential from the
    `Authorization` header (in the manner of section 2.1 of RFC 6750, but
    without checking the scheme word) and verifies it with a JSON Web Token
    verifier (RFC 7519) given as an oracle. */
module JwtAuthGuard {
  import opened Wrappers
  import opened Seqs

  const Space: char := ' '

  /** `authHeader.split(' ')[1]`: the second space-separated piece, if any. */
  function BearerToken(header: string): (token: Option<string>)
    ensures token.Some? ==> Space !in token.value
    ensures token.None? <==> Space !in header
  {
    var parts := Split(header, Space);
    if |parts| >= 2 then Some(parts[1])
    else
      assert parts == [header] by {
        assert Join(parts, [Space]) == parts[0];
      }
      None
  }

  /** Whatever the first word is, `<word> <token>` yields the token: the scheme
      word is never inspected. */
  lemma BearerTokenOfAnyScheme(scheme: string, token: string)
    requires Space !in scheme && Space !in token
    ensures BearerToken(scheme + " " + token) == Some(token)
  {
    SplitAfterPrefix(scheme, token, Space);
    SplitWithoutSeparator(token, Space);
  }

  /** What the `jsonwebtoken` verifier does with a token and a secret. The
      expired case is the `TokenExpiredError` subclass of
      `JsonWebTokenError`. */
  datatype Verification<C> = Verified(claims: C) | TokenExpiredError | JsonWebTokenError | OtherError

  /** Why the guard answers Unauthorized; every case has the same status code. */
  datatype UnauthorizedReason = MissingHeader | MalformedHeader | TokenExpired | TokenInvalid | VerificationFailed

  /** Unauthorized, or the plain `Error` thrown when `JWT_SECRET` is unset. */
  datatype GuardError = Unauthorized(reason: UnauthorizedReason) | MissingSecret

  /** `canActivate`. `Ok(claims)` means the guard returned true after setting
      `request.user` to `claims`; the guard never returns false. */
  function CanActivate<C>(header: Option<string>, secret: Option<string>,
                          verify: (string, string) -> Verification<C>): (r: Result<C, GuardError>)
    ensures header.None? || header == Some("") ==> r == Err(Unauthorized(MissingHeader))
    ensures (header.Some? && header.value != "" &&
             (BearerToken(header.value).None? || BearerToken(header.value) == Some(""))) ==>
              r == Err(Unauthorized(MalformedHeader))
    ensures r == Err(MissingSecret) <==>
              header.Some? && BearerToken(header.value).Some? && BearerToken(header.value).value != "" &&
              (secret.None? || secret == Some(""))
    ensures r.Ok? <==>
              header.Some? && BearerToken(header.value).Some? && BearerToken(header.value).value != "" &&
              secret.Some? && secret.value != "" &&
              verify(BearerToken(header.value).value, secret.value).Verified?
    ensures r.Ok? ==> verify(BearerToken(header.value).value, secret.value) == Verified(r.value)
    ensures r.Err? && r.error.Unauthorized? && r.error.reason == TokenExpired ==>
              verify(BearerToken(header.value).value, secret.value).TokenExpiredError?
  {
    match header
    case None => Err(Unauthorized(MissingHeader))
    case Some(h) =>
      if h == "" then Err(Unauthorized(MissingHeader))
      else
        match BearerToken(h)
        case None => Err(Unauthorized(MalformedHeader))
        case Some(token) =>
          if token == "" then Err(Unauthorized(MalformedHeader))
          else if secret.None? || secret.value == "" then Err(MissingSecret)
          else
            match verify(token, secret.value)
            case Verified(claims) => Ok(claims)
            case TokenExpiredError => Err(Unauthorized(TokenExpired))
            case JsonWebTokenError => Err(Unauthorized(TokenInvalid))
            case OtherError => Err(Unauthorized(VerificationFailed))
  }

  /** Every verification failure becomes Unauthorized, never the plain error. */
  lemma VerifyFailuresAreUnauthorized<C>(header: string, secret: string, verify: (string, string) -> Verification<C>)
    requires BearerToken(header).Some? && BearerToken(header).value != "" && secret != ""
    requires !verify(BearerToken(header).value, secret).Verified?
    ensures CanActivate(Some(header), Some(secret), verify).Err?
    ensures CanActivate(Some(header), Some(secret), verify).error.Unauthorized?
  {
  }

  /** A header without a credential is refused before the secret is looked at. */
  lemma HeaderCheckedBeforeSecret<C>(header: Option<string>, verify: (string, string) -> Verification<C>)
    requires header.None? || BearerToken(header.value).None? || BearerToken(header.value) == Some("")
    ensures CanActivate(header, None, verify).Err? && CanActivate(header, None, verify).error.Unauthorized?
  {
  }
}

=== FILE: jwt_strategy.dfy ===
/** `JwtStrategy.validate`: turns the claims of a verified access token back
    into a principal by reloading the user from the store. */
module JwtStrategy {
  import opened Wrappers
  import opened Seqs
  import opened Entities
  import opened AuthService

  /** What `validate` returns and the framework stores as `request.user`. */
  datatype Principal = Principal(
    id: int,
    username: string,
    email: string,
    roles: Option<seq<Role>>,
    permissions: seq<Permission>)

  /** `roles.flatMap(role => role.permissions)`: the permission objects of each
      role, role by role, duplicates kept. Relations are loaded eagerly, so an
      absent list contributes nothing. */
  function FlatPermissions(rs: seq<Role>): seq<Permission>
  {
    if rs == [] then [] else rs[0].permissions.GetOr([]) + FlatPermissions(rs[1..])
  }

  /** The names of a list of permissions, in order. */
  function Names(ps: seq<Permission>): (names: seq<string>)
    ensures |names| == |ps| && forall i :: 0 <= i < |ps| ==> names[i] == ps[i].name
  {
    seq(|ps|, i requires 0 <= i < |ps| => ps[i].name)
  }

  /** `validate(payload)`: Unauthorized when no user has id `payload.sub` or the
      user is inactive; otherwise a principal built from the stored user. */
  function Validate(s: Store, payload: AccessPayload): (r: Result<Principal, AuthError>)
    ensures UserIndexById(s.users, payload.sub).None? ==> r == Err(Unauthorized("User not found"))
    ensures UserIndexById(s.users, payload.sub).Some? ==>
              var u := s.users[UserIndexById(s.users, payload.sub).value];
              (!u.isActive ==> r == Err(Unauthorized("User is inactive"))) &&
              (u.isActive ==> r.Ok? && r.value.id == u.id && r.value.username == u.username &&
                              r.value.email == u.email && r.value.roles == u.roles &&
                              r.value.permissions == FlatPermissions(u.roles.GetOr([])))
    ensures r.Ok? ==> exists i :: 0 <= i < |s.users| && s.users[i].id == payload.sub && s.users[i].isActive
  {
    match UserIndexById(s.users, payload.sub)
    case None => Err(Unauthorized("User not found"))
    case Some(i) =>
      var u := s.users[i];
      if !u.isActive then Err(Unauthorized("User is inactive"))
      else Ok(Principal(u.id, u.username, u.email, u.roles, FlatPermissions(u.roles.GetOr([]))))
  }

  /** Only the subject claim matters: the principal never reflects the
      username, roles or permissions written into the token. */
  lemma ValidateIgnoresOtherClaims(s: Store, p1: AccessPayload, p2: AccessPayload)
    requires p1.sub == p2.sub
    ensures Validate(s, p1) == Validate(s, p2)
  {
  }

  /** A deactivated account is refused even though its token verified. */
  lemma InactiveUserIsRejected(s: Store, payload: AccessPayload, i: nat)
    requires i < |s.users| && s.users[i].id == payload.sub && !s.users[i].isActive
    requires forall j :: 0 <= j < |s.users| && s.users[j].id == payload.sub ==> j == i
    ensures Validate(s, payload).Err?
  {
    assert UserIndexById(s.users, payload.sub) == Some(i);
  }

  /** The principal's permission names are exactly the `permissions` claim that
      `generateTokens` signs for the same roles, in the same order. */
  lemma {:induction false} PermissionNamesMatchClaim(rs: seq<Role>)
    ensures Names(FlatPermissions(rs)) == PayloadPermissions(Some(rs))
  {
    if rs == [] {
    } else {
      PermissionNamesMatchClaim(rs[1..]);
      var xss := PermissionNameLists(rs);
      assert xss[1..] == PermissionNameLists(rs[1..]);
      var head := rs[0].permissions.GetOr([]);
      assert Names(head) == PermissionNames(rs[0]);
      NamesAppend(head, FlatPermissions(rs[1..]));
      assert Flatten(xss) == xss[0] + Flatten(xss[1..]);
    }
  }

  lemma NamesAppend(a: seq<Permission>, b: seq<Permission>)
    ensures Names(a + b) == Names(a) + Names(b)
  {
  }
}

=== FILE: pagination_interceptor.dfy ===
/** `PaginationInterceptor`: merges the handler's options with the defaults,
    extracts the page parameters before the handler runs, and wraps an array
    result in a paginated envelope. */
module PaginationInterceptor {
  import opened Wrappers
  import opened PaginationUtils

  /** `Required<PaginateOptions>` */
  datatype Options = Options(
    defaultLimit: int,
    maxLimit: int,
    pageParam: string,
    limitParam: string,
    sortParam: string,
    includeMetadata: bool,
    itemsKey: string,
    metaKey: string)

  /** The `@Paginate` decorator's options; `None` is a property not written. */
  datatype HandlerOptions = HandlerOptions(
    defaultLimit: Option<int>,
    maxLimit: Option<int>,
    pageParam: Option<string>,
    limitParam: Option<string>,
    sortParam: Option<string>,
    includeMetadata: Option<bool>,
    itemsKey: Option<string>,
    metaKey: Option<string>)

  function Defaults(): Options
  {
    Options(10, 100, "page", "limit", "sort", true, "items", "meta")
  }

  /** `{ ...defaultOptions, ...(metadata || {}) }` */
  function MergeOptions(metadata: Option<HandlerOptions>): (o: Options)
    ensures metadata.None? ==> o == Defaults()
    ensures metadata.Some? ==>
              var h := metadata.value;
              o.defaultLimit == h.defaultLimit.GetOr(10) && o.maxLimit == h.maxLimit.GetOr(100) &&
              o.pageParam == h.pageParam.GetOr("page") && o.limitParam == h.limitParam.GetOr("limit") &&
              o.sortParam == h.sortParam.GetOr("sort") && o.includeMetadata == h.includeMetadata.GetOr(true) &&
              o.itemsKey == h.itemsKey.GetOr("items") && o.metaKey == h.metaKey.GetOr("meta")
  {
    match metadata
    case None => Defaults()
    case Some(h) =>
      var d := Defaults();
      Options(h.defaultLimit.GetOr(d.defaultLimit), h.maxLimit.GetOr(d.maxLimit), h.pageParam.GetOr(d.pageParam),
              h.limitParam.GetOr(d.limitParam), h.sortParam.GetOr(d.sortParam),
              h.includeMetadata.GetOr(d.includeMetadata), h.itemsKey.GetOr(d.itemsKey), h.metaKey.GetOr(d.metaKey))
  }

  /** Empty decorator options behave exactly like no decorator options. */
  lemma EmptyOptionsAreDefaults()
    ensures MergeOptions(Some(HandlerOptions(None, None, None, None, None, None, None, None))) == MergeOptions(None)
  {
  }

  /** What the route handler produced: an array, or anything else. */
  datatype Data<T, V> = Array(items: seq<T>) | NotArray(value: V)

  /** The value sent back: the handler's non-array value, or the envelope. */
  datatype Reply<T, V> = Unchanged(value: V) | Envelope(body: map<string, Entry<T>>)

  /** The parameters `intercept` stores as `request.pagination`, read from
      the query under the merged option names. */
  function RequestPagination(query: map<string, string>, parse: string -> int, o: Options): (p: Params)
    ensures p.page >= 1 && p.limit <= o.maxLimit
    ensures Lookup(query, o.pageParam).None? ==> p.page == 1
    ensures Lookup(query, o.limitParam).None? ==> p.limit == Min(o.defaultLimit, o.maxLimit)
    ensures p.sort.Some? <==> o.sortParam in query && query[o.sortParam] != ""
  {
    ExtractParams(query, parse, o.pageParam, o.limitParam, o.sortParam, o.defaultLimit, o.maxLimit)
  }

  /** The body of `intercept`'s `map`: a non-array passes through, an array is
      sliced to the requested page and wrapped with metadata about the whole
      array. */
  function MapResult<T, V>(data: Data<T, V>, p: Params, o: Options): (r: Reply<T, V>)
    ensures data.NotArray? ==> r == Unchanged(data.value)
    ensures data.Array? ==>
              r.Envelope? &&
              r.body == CreatePaginatedResponse(PaginateArray(data.items, p.page, p.limit),
                                                CreateMeta(|data.items|, p.page, p.limit),
                                                o.itemsKey, o.metaKey, o.includeMetadata)
  {
    match data
    case NotArray(v) => Unchanged(v)
    case Array(items) =>
      Envelope(CreatePaginatedResponse(PaginateArray(items, p.page, p.limit), CreateMeta(|items|, p.page, p.limit),
                                       o.itemsKey, o.metaKey, o.includeMetadata))
  }

  /** `intercept`: the request's pagination parameters and the reply. */
  function Intercept<T, V>(metadata: Option<HandlerOptions>, query: map<string, string>, parse: string -> int,
                           data: Data<T, V>): (r: (Params, Reply<T, V>))
    ensures r.0 == RequestPagination(query, parse, MergeOptions(metadata))
    ensures r.1 == MapResult(data, r.0, MergeOptions(metadata))
  {
    var o := MergeOptions(metadata);
    var p := RequestPagination(query, parse, o);
    (p, MapResult(data, p, o))
  }

  /** A handler that returns a non-array value gets it back untouched. */
  lemma NonArrayPassesThrough<T, V>(metadata: Option<HandlerOptions>, query: map<string, string>,
                                    parse: string -> int, v: V)
    ensures Intercept<T, V>(metadata, query, parse, NotArray(v)).1 == Unchanged(v)
  {
  }

  /** The metadata counts the whole array, not the page. */
  lemma MetaCountsWholeArray<T, V>(metadata: Option<HandlerOptions>, query: map<string, string>,
                                   parse: string -> int, items: seq<T>)
    requires MergeOptions(metadata).includeMetadata
    ensures var o := MergeOptions(metadata);
            var r := Intercept<T, V>(metadata, query, parse, Array(items)).1;
            r.Envelope? && o.metaKey in r.body && r.body[o.metaKey].Meta? &&
            r.body[o.metaKey].meta.totalItems == |items|
  {
  }

  /** The unit example: 20 items with `page=2&limit=5` give the five items
      starting at the sixth, four pages, and both neighbours. */
  lemma TwentyItemsPageTwo(items: seq<int>, parse: string -> int)
    requires |items| == 20 && forall i :: 0 <= i < 20 ==> items[i] == i + 1
    requires parse("2") == 2 && parse("5") == 5
    ensures var query := map["page" := "2", "limit" := "5"];
            var r := Intercept<int, int>(None, query, parse, Array(items)).1;
            r.Envelope? && r.body.Keys == {"items", "meta"} &&
            r.body["items"] == Items([6, 7, 8, 9, 10]) &&
            r.body["meta"] == Meta(PaginationMeta(2, 5, 20, Pages(4), true, true))
  {
    var query := map["page" := "2", "limit" := "5"];
    assert RequestPagination(query, parse, Defaults()) == Params(2, 5, None);
    assert PaginateArray(items, 2, 5) == items[5..10];
  }

  /** The integration example: 50 items and no query parameters give the first
      ten items and `totalItems` 50. */
  lemma FiftyItemsByDefault(items: seq<int>, parse: string -> int)
    requires |items| == 50
    ensures var r := Intercept<int, int>(None, map[], parse, Array(items)).1;
            r.Envelope? && r.body["items"] == Items(items[..10]) &&
            r.body["meta"].Meta? && r.body["meta"].meta.totalItems == 50 && r.body["meta"].meta.currentPage == 1
  {
    assert RequestPagination(map[], parse, Defaults()) == Params(1, 10, None);
  }

  /** A limit of 0 (for example from `?limit=0`) is accepted: an array gets an
      empty page, and the metadata still counts every item and announces a
      next page exactly when there are items. */
  lemma ZeroLimitGivesEmptyPage<T, V>(metadata: Option<HandlerOptions>, query: map<string, string>,
                                      parse: string -> int, items: seq<T>)
    requires RequestPagination(query, parse, MergeOptions(metadata)).limit == 0
    ensures var o := MergeOptions(metadata);
            var r := Intercept<T, V>(metadata, query, parse, Array(items)).1;
            r.Envelope? &&
            ((!o.includeMetadata || o.itemsKey != o.metaKey) ==> r.body[o.itemsKey] == Items([])) &&
            (o.includeMetadata ==> r.body[o.metaKey].Meta? && r.body[o.metaKey].meta.totalItems == |items| &&
                                   (r.body[o.metaKey].meta.hasNextPage <==> |items| > 0))
  {
    ZeroLimitPage(items, RequestPagination(query, parse, MergeOptions(metadata)).page);
  }

  /** Without metadata the envelope has only the items key. */
  lemma NoMetadataOnlyItems<T, V>(query: map<string, string>, parse: string -> int, items: seq<T>)
    ensures var r := Intercept<T, V>(Some(HandlerOptions(None, None, None, None, None, Some(false), None, None)), query, parse, Array(items)).1;
            r.Envelope? && r.body.Keys == {"items"}
  {
  }
}

=== FILE: pagination_utils.dfy ===
/** `PaginationUtils`: page metadata, array slicing, query-parameter
    extraction and the response envelope. Numbers are integers; `Math.ceil` of
    a quotient is integer ceiling division. */
module PaginationUtils {
  import opened Wrappers

  /** `Math.ceil(a / b)` for a non-zero integer divisor. */
  function CeilDiv(a: int, b: int): (q: int)
    requires b != 0
    ensures b > 0 ==> b * (q - 1) < a <= b * q
    ensures b < 0 ==> b * q <= a < b * (q - 1)
  {
    if b > 0 then -((-a) / b) else -(a / (-b))
  }

  /** A page count as `Math.ceil(totalItems / limit)` yields it: a finite
      integer for a non-zero limit, and for a zero limit `Infinity` (some
      items) or `NaN` (no items). */
  datatype PageCount = Pages(n: int) | Infinity | NaN

  /** `page < totalPages` in JavaScript: every finite page is below
      `Infinity`, and no comparison with `NaN` holds. */
  predicate Below(page: int, c: PageCount)
  {
    match c
    case Pages(n) => page < n
    case Infinity => true
    case NaN => false
  }

  datatype PaginationMeta = PaginationMeta(
    currentPage: int,
    itemsPerPage: int,
    totalItems: int,
    totalPages: PageCount,
    hasNextPage: bool,
    hasPreviousPage: bool)

  /** `createMeta` */
  function CreateMeta(totalItems: nat, page: int, limit: int): (m: PaginationMeta)
    ensures m.currentPage == page && m.itemsPerPage == limit && m.totalItems == totalItems
    ensures limit != 0 <==> m.totalPages.Pages?
    ensures limit > 0 ==> limit * (m.totalPages.n - 1) < totalItems <= limit * m.totalPages.n
    ensures limit < 0 ==> limit * m.totalPages.n <= totalItems < limit * (m.totalPages.n - 1)
    ensures limit == 0 ==> m.totalPages == (if totalItems > 0 then Infinity else NaN)
    ensures limit != 0 ==> (m.hasNextPage <==> page < m.totalPages.n)
    ensures limit == 0 ==> (m.hasNextPage <==> totalItems > 0)
    ensures m.hasPreviousPage <==> page > 1
  {
    var totalPages := if limit != 0 then Pages(CeilDiv(totalItems, limit))
                      else if totalItems > 0 then Infinity else NaN;
    PaginationMeta(page, limit, totalItems, totalPages, Below(page, totalPages), page > 1)
  }

  /** The index `Array.prototype.slice` starts or stops at: a negative
      argument counts from the end, and the result is clamped to the array. */
  function SliceIndex(i: int, len: nat): (k: nat)
    ensures k <= len
    ensures 0 <= i <= len ==> k == i
    ensures i > len ==> k == len
    ensures i < 0 ==> k == (if len + i > 0 then len + i else 0)
  {
    if i < 0 then (if len + i > 0 then len + i else 0) else if i > len then len else i
  }

  /** `array.slice(start, end)` */
  function Slice<T>(a: seq<T>, start: int, end: int): (r: seq<T>)
    ensures SliceIndex(start, |a|) <= SliceIndex(end, |a|) ==> r == a[SliceIndex(start, |a|)..SliceIndex(end, |a|)]
    ensures SliceIndex(start, |a|) >= SliceIndex(end, |a|) ==> r == []
  {
    var s := SliceIndex(start, |a|);
    var e := SliceIndex(end, |a|);
    if s < e then a[s..e] else []
  }

  /** `paginateArray`: the slice from `(page-1)*limit` to `page*limit`. */
  function PaginateArray<T>(a: seq<T>, page: int, limit: int): (r: seq<T>)
    ensures |r| <= |a|
  {
    Slice(a, (page - 1) * limit, page * limit)
  }

  function Min(x: int, y: int): int { if x <= y then x else y }

  /** For a positive page and limit, a page holds the elements at indices
      `[(page-1)*limit, page*limit)` that exist. */
  lemma PageIsWindow<T>(a: seq<T>, page: int, limit: int)
    requires page >= 1 && limit >= 1
    ensures PaginateArray(a, page, limit) == a[Min((page - 1) * limit, |a|)..Min(page * limit, |a|)]
    ensures |PaginateArray(a, page, limit)| == Min(page * limit, |a|) - Min((page - 1) * limit, |a|)
  {
    assert (page - 1) * limit >= 0 && page * limit == (page - 1) * limit + limit;
  }

  /** Pages `1..k` laid end to end. */
  function FirstPages<T>(a: seq<T>, limit: int, k: nat): seq<T>
  {
    if k == 0 then [] else FirstPages(a, limit, k - 1) + PaginateArray(a, k, limit)
  }

  lemma {:induction false} FirstPagesArePrefix<T>(a: seq<T>, limit: int, k: nat)
    requires limit >= 1
    ensures FirstPages(a, limit, k) == a[..Min(k * limit, |a|)]
  {
    if k > 0 {
      FirstPagesArePrefix(a, limit, k - 1);
      PageIsWindow(a, k, limit);
      assert (k - 1) * limit + limit == k * limit;
      var lo := Min((k - 1) * limit, |a|);
      var hi := Min(k * limit, |a|);
      assert a[..lo] + a[lo..hi] == a[..hi];
    }
  }

  /** Pages `1..totalPages` concatenate to the whole array. */
  lemma PagesCoverArray<T>(a: seq<T>, limit: int)
    requires limit >= 1
    ensures FirstPages(a, limit, CreateMeta(|a|, 1, limit).totalPages.n) == a
  {
    var n := CreateMeta(|a|, 1, limit).totalPages.n;
    FirstPagesArePrefix(a, limit, n);
    assert n * limit >= |a|;
  }

  /** A page past the last one is empty; every page up to it is not. */
  lemma PagesBeyondLastAreEmpty<T>(a: seq<T>, page: int, limit: int)
    requires page >= 1 && limit >= 1
    ensures page > CreateMeta(|a|, page, limit).totalPages.n ==> PaginateArray(a, page, limit) == []
    ensures page <= CreateMeta(|a|, page, limit).totalPages.n ==> PaginateArray(a, page, limit) != []
  {
    PageIsWindow(a, page, limit);
    var t := CreateMeta(|a|, page, limit).totalPages.n;
    var lo := (page - 1) * limit;
    assert page * limit == lo + limit;
    if page > t {
      MulMonotone(t, page - 1, limit);
      assert lo >= |a|;
    } else {
      MulMonotone(page - 1, t - 1, limit);
      assert lo < |a|;
    }
  }

  /** A zero limit, which a `?limit=0` query produces, gives an empty page
      and an unbounded page count: a next page is announced exactly when there
      are items. */
  lemma ZeroLimitPage<T>(a: seq<T>, page: int)
    ensures PaginateArray(a, page, 0) == []
    ensures CreateMeta(|a|, page, 0).hasNextPage <==> |a| > 0
  {
    assert (page - 1) * 0 == 0 && page * 0 == 0;
  }

  lemma MulMonotone(x: int, y: int, c: nat)
    requires x <= y
    ensures x * c <= y * c
  {
    assert y * c - x * c == (y - x) * c;
  }

  /** The `{ page, limit, sort }` the interceptor stores on the request. */
  datatype Params = Params(page: int, limit: int, sort: Option<string>)

  /** `query[name] || ...`: a missing or empty query value is not used. */
  function Lookup(query: map<string, string>, name: string): Option<string>
  {
    if name in query && query[name] != "" then Some(query[name]) else None
  }

  /** `extractPaginationParams`: `page` is at least 1 (default 1), `limit` is
      capped by `maxLimit` (default `defaultLimit`) but has no lower bound, and
      an empty sort becomes absent. `parseInt` is the parameter `parse`. */
  function ExtractParams(query: map<string, string>, parse: string -> int,
                         pageParam: string, limitParam: string, sortParam: string,
                         defaultLimit: int, maxLimit: int): (p: Params)
    ensures p.page >= 1
    ensures Lookup(query, pageParam).None? ==> p.page == 1
    ensures Lookup(query, pageParam).Some? && parse(query[pageParam]) >= 1 ==> p.page == parse(query[pageParam])
    ensures Lookup(query, pageParam).Some? && parse(query[pageParam]) < 1 ==> p.page == 1
    ensures p.limit <= maxLimit
    ensures Lookup(query, limitParam).None? ==> p.limit == Min(defaultLimit, maxLimit)
    ensures Lookup(query, limitParam).Some? && parse(query[limitParam]) <= maxLimit ==> p.limit == parse(query[limitParam])
    ensures Lookup(query, limitParam).Some? && parse(query[limitParam]) > maxLimit ==> p.limit == maxLimit
    ensures p.sort.Some? <==> sortParam in query && query[sortParam] != ""
    ensures p.sort.Some? ==> p.sort.value == query[sortParam]
  {
    var rawPage := match Lookup(query, pageParam) case None => 1 case Some(v) => parse(v);
    var rawLimit := match Lookup(query, limitParam) case None => defaultLimit case Some(v) => parse(v);
    Params(if rawPage > 1 then rawPage else 1, Min(rawLimit, maxLimit), Lookup(query, sortParam))
  }

  /** A value in the response object. */
  datatype Entry<T> = Items(items: seq<T>) | Meta(meta: PaginationMeta)

  /** `createPaginatedResponse`: items under `itemsKey`, then meta assigned
      under `metaKey` when metadata is included (overwriting the items if the
      two keys coincide). */
  function CreatePaginatedResponse<T>(items: seq<T>, meta: PaginationMeta, itemsKey: string, metaKey: string,
                                      includeMetadata: bool): (r: map<string, Entry<T>>)
    ensures r.Keys == if includeMetadata then {itemsKey, metaKey} else {itemsKey}
    ensures includeMetadata ==> r[metaKey] == Meta(meta)
    ensures !includeMetadata || metaKey != itemsKey ==> r[itemsKey] == Items(items)
  {
    var response := map[itemsKey := Items(items)];
    if includeMetadata then response[metaKey := Meta(meta)] else response
  }
}

=== FILE: permissions_guard.dfy ===
/** `PermissionsGuard.canActivate`: every required permission name must be
    the `name` of some element of `request.user.permissions`. */
module PermissionsGuard {
  import opened Wrappers
  import opened Seqs
  import opened Entities
  import opened AuthService
  import opened JwtStrategy
  import opened RequestUsers

  /** Some element of the user's list carries the name `n`. */
  predicate Grants(perms: seq<Option<string>>, n: string)
  {
    exists j :: 0 <= j < |perms| && perms[j] == Some(n)
  }

  /** `requiredPermissions.every(p => user.permissions.some(up => up.name === p))` */
  function CoversAll(required: seq<string>, perms: seq<Option<string>>): (r: bool)
    ensures r <==> forall i :: 0 <= i < |required| ==> Grants(perms, required[i])
  {
    if required == [] then true
    else
      var r := Grants(perms, required[0]) && CoversAll(required[1..], perms);
      assert forall i :: 1 <= i < |required| ==> required[i] == required[1..][i - 1];
      r
  }

  /** The guard's boolean result; it never throws. */
  function CanActivate(required: Option<seq<string>>, user: Option<RequestUser>): (allow: bool)
    ensures required.None? ==> allow
    ensures required.Some? && (user.None? || user.value.permissions.None?) ==> !allow
    ensures required.Some? && user.Some? && user.value.permissions.Some? ==>
              (allow <==> forall i :: 0 <= i < |required.value| ==> Grants(user.value.permissions.value, required.value[i]))
  {
    match required
    case None => true
    case Some(names) =>
      if user.None? || user.value.permissions.None? then false
      else CoversAll(names, user.value.permissions.value)
  }

  /** Metadata with an empty list still refuses a request without a user. */
  lemma EmptyRequirementNeedsUser()
    ensures !CanActivate(Some([]), None)
    ensures forall perms :: CanActivate(Some([]), Some(RequestUser(None, Some(perms))))
  {
  }

  /** Granting the user more permissions never turns allow into deny. */
  lemma AllowIsMonotoneInGrants(required: seq<string>, perms: seq<Option<string>>, more: seq<Option<string>>)
    requires CanActivate(Some(required), Some(RequestUser(None, Some(perms))))
    ensures CanActivate(Some(required), Some(RequestUser(None, Some(perms + more))))
  {
    forall i | 0 <= i < |required|
      ensures Grants(perms + more, required[i])
    {
      var j :| 0 <= j < |perms| && perms[j] == Some(required[i]);
      assert (perms + more)[j] == Some(required[i]);
    }
  }

  /** Requiring fewer permissions (any sub-list) never turns allow into deny. */
  lemma AllowIsMonotoneInRequired(required: seq<string>, fewer: seq<string>, u: RequestUser)
    requires CanActivate(Some(required), Some(u))
    requires forall i :: 0 <= i < |fewer| ==> fewer[i] in required
    ensures CanActivate(Some(fewer), Some(u))
  {
  }

  /** For the principal of the passport strategy, the guard allows exactly when
      each required name is granted by one of the user's roles. */
  lemma PrincipalAllowedIffRolesGrant(required: seq<string>, p: Principal, rs: seq<Role>)
    requires p.permissions == FlatPermissions(rs)
    ensures CanActivate(Some(required), Some(FromPrincipal(p))) <==>
              forall i :: 0 <= i < |required| ==> exists k :: 0 <= k < |rs| && HasPermission(rs[k], required[i])
  {
    forall n: string
      ensures Grants(FromPrincipal(p).permissions.value, n) <==> exists k :: 0 <= k < |rs| && HasPermission(rs[k], n)
    {
      GrantsIffNamed(p, n);
      PermissionNamesMatchClaim(rs);
    }
  }

  /** A principal grants `n` exactly when `n` is one of its permission names. */
  lemma GrantsIffNamed(p: Principal, n: string)
    ensures Grants(FromPrincipal(p).permissions.value, n) <==> n in Names(p.permissions)
  {
    var perms := FromPrincipal(p).permissions.value;
    if n in Names(p.permissions) {
      var j :| 0 <= j < |p.permissions| && Names(p.permissions)[j] == n;
      assert perms[j] == Some(n);
    }
    if Grants(perms, n) {
      var j :| 0 <= j < |perms| && perms[j] == Some(n);
      assert Names(p.permissions)[j] == n;
    }
  }

  /** The claims stored by `JwtAuthGuard` list permission names as plain
      strings, which have no `name`: any non-empty requirement is refused. */
  lemma ClaimsNeverCarryPermissions(required: seq<string>, c: AccessPayload)
    requires required != []
    ensures !CanActivate(Some(required), Some(FromClaims(c)))
  {
  }
}

=== FILE: rate_limit_guard.dfy ===
/** `RateLimitGuard`: a fixed-window request counter per key, kept in a
    process-wide map, with integer millisecond time. */
module RateLimitGuard {
  import opened Wrappers

  const DefaultWindowMs: int := 60 * 1000
  const DefaultMax: int := 100
  const DefaultMessage: string := "Too many requests, please try again later."
  /** HTTP 429 Too Many Requests (section 4 of RFC 6585). */
  const TooManyRequests: int := 429
  const FallbackKey: string := "unknown"

  /** One property of the handler's options object: not written at all, written
      as `undefined`/`null`, or given a value. The spread in `getOptions` only
      keeps a default for a property that is not written. */
  datatype Field<+T> = Absent | Undefined | Given(value: T)

  /** The request fields the key is derived from. */
  datatype Request = Request(ip: Option<string>, remoteAddress: Option<string>)

  /** The options passed to the `@RateLimit` decorator. */
  datatype HandlerOptions = HandlerOptions(
    windowMs: Field<int>,
    max: Field<int>,
    message: Field<string>,
    keyGenerator: Field<Request -> string>,
    statusCode: Field<int>,
    headers: Field<bool>)

  /** The merged options; `None` is `undefined` or `null`. */
  datatype Options = Options(
    windowMs: Option<int>,
    max: Option<int>,
    message: Option<string>,
    keyGenerator: Option<Request -> string>,
    statusCode: Option<int>,
    headers: Option<bool>)

  function Defaults(): Options
  {
    Options(Some(DefaultWindowMs), Some(DefaultMax), Some(DefaultMessage), None, Some(TooManyRequests), Some(true))
  }

  function Override<T>(d: Option<T>, f: Field<T>): (r: Option<T>)
    ensures f.Absent? ==> r == d
    ensures f.Undefined? ==> r.None?
    ensures f.Given? ==> r == Some(f.value)
  {
    match f
    case Absent => d
    case Undefined => None
    case Given(v) => Some(v)
  }

  /** `getOptions`: `{ ...DEFAULT_OPTIONS, ...(metadata || {}) }`. */
  function GetOptions(metadata: Option<HandlerOptions>): (o: Options)
    ensures metadata.None? ==> o == Defaults()
    ensures metadata.Some? ==>
              o.windowMs == Override(Some(DefaultWindowMs), metadata.value.windowMs) &&
              o.max == Override(Some(DefaultMax), metadata.value.max) &&
              o.message == Override(Some(DefaultMessage), metadata.value.message) &&
              o.keyGenerator == Override(None, metadata.value.keyGenerator) &&
              o.statusCode == Override(Some(TooManyRequests), metadata.value.statusCode) &&
              o.headers == Override(Some(true), metadata.value.headers)
  {
    match metadata
    case None => Defaults()
    case Some(h) =>
      Options(Override(Some(DefaultWindowMs), h.windowMs), Override(Some(DefaultMax), h.max),
              Override(Some(DefaultMessage), h.message), Override(None, h.keyGenerator),
              Override(Some(TooManyRequests), h.statusCode), Override(Some(true), h.headers))
  }

  /** `options.windowMs ?? 60000`: a missing or `undefined` window falls back
      to one minute, any given value (even 0) is kept. */
  function WindowMs(o: Options): (w: int)
    ensures o.windowMs.None? ==> w == DefaultWindowMs
    ensures o.windowMs.Some? ==> w == o.windowMs.value
  {
    o.windowMs.GetOr(DefaultWindowMs)
  }

  /** `options.max ?? 100`: a missing or `undefined` maximum falls back to
      100, any given value (even 0) is kept. */
  function Max(o: Options): (m: int)
    ensures o.max.None? ==> m == DefaultMax
    ensures o.max.Some? ==> m == o.max.value
  {
    o.max.GetOr(DefaultMax)
  }

  /** `(options.message || DEFAULT.message) || 'Too many requests'`: an empty
      message falls back to the default one. */
  function Message(o: Options): (m: string)
    ensures m != ""
    ensures o.message.Some? && o.message.value != "" ==> m == o.message.value
  {
    if o.message.Some? && o.message.value != "" then o.message.value else DefaultMessage
  }

  /** `(options.statusCode || 429) || 429`: 0 falls back to 429. */
  function StatusCode(o: Options): (c: int)
    ensures c != 0
    ensures o.statusCode.Some? && o.statusCode.value != 0 ==> c == o.statusCode.value
    ensures o.statusCode.None? || o.statusCode == Some(0) ==> c == TooManyRequests
  {
    if o.statusCode.Some? && o.statusCode.value != 0 then o.statusCode.value else TooManyRequests
  }

  /** Handler options override the defaults property by property; what the
      handler does not write keeps its default. */
  lemma OptionsOverrideFieldByField(h: HandlerOptions)
    ensures h.windowMs.Absent? ==> WindowMs(GetOptions(Some(h))) == 60000
    ensures h.windowMs.Given? ==> WindowMs(GetOptions(Some(h))) == h.windowMs.value
    ensures h.max.Absent? ==> Max(GetOptions(Some(h))) == 100
    ensures h.max.Given? ==> Max(GetOptions(Some(h))) == h.max.value
    ensures h.statusCode.Absent? ==> StatusCode(GetOptions(Some(h))) == 429
    ensures h.headers.Absent? ==> GetOptions(Some(h)).headers == Some(true)
  {
  }

  /** `generateKey`: the key generator when configured, otherwise the first
      non-empty of `ip` and `remoteAddress`, otherwise `'unknown'`. */
  function GenerateKey(req: Request, o: Options): (key: string)
    ensures o.keyGenerator.Some? ==> key == o.keyGenerator.value(req)
    ensures o.keyGenerator.None? ==>
              key == (if req.ip.Some? && req.ip.value != "" then req.ip.value
                      else if req.remoteAddress.Some? && req.remoteAddress.value != "" then req.remoteAddress.value
                      else FallbackKey)
  {
    if o.keyGenerator.Some? then o.keyGenerator.value(req)
    else if req.ip.Some? && req.ip.value != "" then req.ip.value
    else if req.remoteAddress.Some? && req.remoteAddress.value != "" then req.remoteAddress.value
    else FallbackKey
  }

  /** Without a key generator the key is never empty. */
  lemma DefaultKeyIsNonEmpty(req: Request, o: Options)
    requires o.keyGenerator.None?
    ensures GenerateKey(req, o) != ""
  {
  }

  datatype Record = Record(count: int, resetTime: int)

  type Records = map<string, Record>

  datatype Verdict = Verdict(allowed: bool, remaining: int, resetTime: int)

  /** The window a call at `now` counts in: the stored one while `now` has not
      passed its reset time, otherwise a new one ending `windowMs` from now. */
  function WindowAt(records: Records, key: string, now: int, windowMs: int): (w: Record)
    ensures key !in records || now > records[key].resetTime ==> w == Record(0, now + windowMs)
    ensures key in records && now <= records[key].resetTime ==> w == records[key]
  {
    if key !in records || now > records[key].resetTime then Record(0, now + windowMs) else records[key]
  }

  /** `checkRateLimit`: counts this call in the key's window and allows it iff
      the count, this call included, is at most `max`. */
  function CheckRateLimit(records: Records, key: string, now: int, windowMs: int, max: int): (r: (Records, Verdict))
    ensures r.0.Keys == records.Keys + {key}
    ensures forall k :: k in records && k != key ==> r.0[k] == records[k]
    ensures r.0[key].count == WindowAt(records, key, now, windowMs).count + 1
    ensures r.0[key].resetTime == WindowAt(records, key, now, windowMs).resetTime
    ensures r.1.allowed <==> r.0[key].count <= max
    ensures r.1.remaining >= 0 && r.1.remaining >= max - r.0[key].count
    ensures r.1.remaining == 0 || r.1.remaining == max - r.0[key].count
    ensures r.1.resetTime == r.0[key].resetTime
  {
    var w := WindowAt(records, key, now, windowMs);
    var rec := Record(w.count + 1, w.resetTime);
    var remaining := if max - rec.count > 0 then max - rec.count else 0;
    (records[key := rec], Verdict(rec.count <= max, remaining, rec.resetTime))
  }

  /** `Math.ceil(resetTime / 1000)` for an integer number of milliseconds. */
  function ResetSeconds(resetTime: int): (s: int)
    ensures 1000 * (s - 1) < resetTime <= 1000 * s
  {
    -((-resetTime) / 1000)
  }

  datatype Headers = Headers(remaining: int, reset: int)

  /** What `canActivate` does: returns true, or throws an `HttpException` with
      a message and status; in both cases the headers may have been set. */
  datatype Outcome = Allowed(headers: Option<Headers>) | Throttled(message: string, status: int, headers: Option<Headers>)

  /** `canActivate` */
  function CanActivate(records: Records, metadata: Option<HandlerOptions>, req: Request, now: int): (r: (Records, Outcome))
    ensures var o := GetOptions(metadata);
            var key := GenerateKey(req, o);
            var c := CheckRateLimit(records, key, now, WindowMs(o), Max(o));
            r.0 == c.0 &&
            (r.1.Allowed? <==> c.1.allowed) &&
            (r.1.headers.Some? <==> o.headers == Some(true)) &&
            (r.1.headers.Some? ==> r.1.headers.value == Headers(c.1.remaining, ResetSeconds(c.1.resetTime))) &&
            (r.1.Throttled? ==> r.1.message == Message(o) && r.1.status == StatusCode(o))
  {
    var o := GetOptions(metadata);
    var key := GenerateKey(req, o);
    var (next, v) := CheckRateLimit(records, key, now, WindowMs(o), Max(o));
    var headers := if o.headers == Some(true) then Some(Headers(v.remaining, ResetSeconds(v.resetTime))) else None;
    if v.allowed then (next, Allowed(headers)) else (next, Throttled(Message(o), StatusCode(o), headers))
  }

  /** Runs calls for one key at the given times; returns the records and how
      many calls were allowed. */
  function CallsFor(records: Records, key: string, times: seq<int>, windowMs: int, max: int): (Records, nat)
    decreases |times|
  {
    if times == [] then (records, 0)
    else
      var (next, v) := CheckRateLimit(records, key, times[0], windowMs, max);
      var (last, n) := CallsFor(next, key, times[1..], windowMs, max);
      (last, n + (if v.allowed then 1 else 0))
  }

  function Clamp(lo: int, x: int, hi: int): int
  {
    if x < lo then lo else if x > hi then hi else x
  }

  /** Inside one window every call is counted, denied ones included, and
      exactly the calls that keep the count at most `max` are allowed. */
  lemma {:induction false} CallsWithinWindow(records: Records, key: string, times: seq<int>, windowMs: int, max: int)
    requires key in records
    requires forall i :: 0 <= i < |times| ==> times[i] <= records[key].resetTime
    ensures var (last, n) := CallsFor(records, key, times, windowMs, max);
            key in last && last[key] == Record(records[key].count + |times|, records[key].resetTime) &&
            n == Clamp(0, max - records[key].count, |times|)
  {
    if times != [] {
      var (next, v) := CheckRateLimit(records, key, times[0], windowMs, max);
      assert next[key] == Record(records[key].count + 1, records[key].resetTime);
      CallsWithinWindow(next, key, times[1..], windowMs, max);
    }
  }

  /** The fixed-window limit: a key seen for the first time at `start` gets
      `min(n, max)` of its first `n` calls allowed as long as none of them is
      later than `start + windowMs`. */
  lemma FirstWindowAllowsAtMostMax(records: Records, key: string, times: seq<int>, windowMs: int, max: int)
    requires key !in records && |times| >= 1
    requires forall i :: 0 <= i < |times| ==> times[i] <= times[0] + windowMs
    requires max >= 0
    ensures CallsFor(records, key, times, windowMs, max).1 == (if |times| <= max then |times| else max)
  {
    var (next, v) := CheckRateLimit(records, key, times[0], windowMs, max);
    assert next[key] == Record(1, times[0] + windowMs);
    CallsWithinWindow(next, key, times[1..], windowMs, max);
  }

  /** With `max = 1`, a second call in the same window is refused. */
  lemma SecondCallDeniedWhenMaxIsOne(records: Records, key: string, now: int, later: int, windowMs: int)
    requires key !in records && now <= later <= now + windowMs
    ensures var (r1, v1) := CheckRateLimit(records, key, now, windowMs, 1);
            var (r2, v2) := CheckRateLimit(r1, key, later, windowMs, 1);
            v1.allowed && !v2.allowed && v2.remaining == 0
  {
  }

  /** Once the window has passed, the next call starts a new window and is
      allowed for any positive `max`, however many calls were refused before. */
  lemma CallAfterWindowIsAllowed(records: Records, key: string, now: int, windowMs: int, max: int)
    requires key in records && now > records[key].resetTime && max >= 1
    ensures var (r, v) := CheckRateLimit(records, key, now, windowMs, max);
            v.allowed && r[key] == Record(1, now + windowMs) && v.remaining == max - 1
  {
  }

  /** Calls for one key do not change what another key is told. */
  lemma KeysAreIndependent(records: Records, k1: string, k2: string, t1: int, t2: int, windowMs: int, max: int)
    requires k1 != k2
    ensures var (r1, _) := CheckRateLimit(records, k1, t1, windowMs, max);
            CheckRateLimit(r1, k2, t2, windowMs, max).1 == CheckRateLimit(records, k2, t2, windowMs, max).1
  {
    var (r1, _) := CheckRateLimit(records, k1, t1, windowMs, max);
    assert k2 in r1 <==> k2 in records;
  }

  /** The window boundary is strict: a call exactly at the reset time still
      counts in the old window. */
  lemma WindowBoundaryIsStrict(records: Records, key: string, windowMs: int, max: int)
    requires key in records
    ensures var t := records[key].resetTime;
            CheckRateLimit(records, key, t, windowMs, max).0[key] == Record(records[key].count + 1, t)
  {
  }
}

=== FILE: request_user.dfy ===
/** The `request.user` object the authorization guards read. Two producers
    exist: `JwtAuthGuard` stores the decoded claims of the access token, and
    the passport strategy stores the principal built by `JwtStrategy`. The
    guards only look at a `role` field and at the `name` of each element of a
    `permissions` field. */
module RequestUsers {
  import opened Wrappers
  import opened AuthService
  import opened JwtStrategy

  /** `role` is absent or a string; `permissions` is absent or a list whose
      elements have a `name` (`Some`) or do not (`None`, e.g. plain strings). */
  datatype RequestUser = RequestUser(role: Option<string>, permissions: Option<seq<Option<string>>>)

  /** The principal returned by `JwtStrategy.validate`: no `role` field, and a
      list of permission objects. */
  function FromPrincipal(p: Principal): (u: RequestUser)
    ensures u.role.None?
    ensures u.permissions.Some? && |u.permissions.value| == |p.permissions|
    ensures forall i :: 0 <= i < |p.permissions| ==> u.permissions.value[i] == Some(p.permissions[i].name)
  {
    RequestUser(None, Some(seq(|p.permissions|, i requires 0 <= i < |p.permissions| => Some(p.permissions[i].name))))
  }

  /** The decoded access-token claims stored by `JwtAuthGuard`: a `roles` list
      but no `role` field, and `permissions` as plain strings without `name`. */
  function FromClaims(c: AccessPayload): (u: RequestUser)
    ensures u.role.None?
    ensures u.permissions.Some? && |u.permissions.value| == |c.permissions|
    ensures forall i :: 0 <= i < |c.permissions| ==> u.permissions.value[i].None?
  {
    RequestUser(None, Some(seq(|c.permissions|, _ => None)))
  }
}

=== FILE: roles_guard.dfy ===
/** `RolesGuard.canActivate`: compares one `role` string of the request user
    with the roles the handler requires. */
module RolesGuard {
  import opened Wrappers
  import opened RequestUsers

  /** Allow / Deny are the returned booleans; Forbidden is the thrown
      `ForbiddenException`. */
  datatype Decision = Allow | Deny | Forbidden(reason: ForbiddenReason)
  datatype ForbiddenReason = NotAuthenticated | NoRole

  function CanActivate(required: Option<seq<string>>, user: Option<RequestUser>): (d: Decision)
    ensures (required.None? || required == Some([])) ==> d == Allow
    ensures required.Some? && required.value != [] && user.None? ==> d == Forbidden(NotAuthenticated)
    ensures required.Some? && required.value != [] && user.Some? && (user.value.role.None? || user.value.role == Some("")) ==>
              d == Forbidden(NoRole)
    ensures d == Allow <==> required.None? || required == Some([]) || (user.Some? && user.value.role.Some? && user.value.role.value in required.value && user.value.role.value != "")
    ensures d == Deny <==> required.Some? && required.value != [] && user.Some? && user.value.role.Some? && user.value.role.value != "" && user.value.role.value !in required.value
  {
    match required
    case None => Allow
    case Some(roles) =>
      if roles == [] then Allow
      else match user
        case None => Forbidden(NotAuthenticated)
        case Some(u) =>
          if u.role.None? || u.role.value == "" then Forbidden(NoRole)
          else if u.role.value in roles then Allow
          else Deny
  }

  /** Without requirements the user is never inspected. */
  lemma NoRequirementIgnoresUser(required: Option<seq<string>>, u1: Option<RequestUser>, u2: Option<RequestUser>)
    requires required.None? || required == Some([])
    ensures CanActivate(required, u1) == CanActivate(required, u2)
  {
  }

  /** A user object that carries no single `role` (the principal of the
      passport strategy, or the claims stored by `JwtAuthGuard`, which only
      list `roles`) is forbidden by every non-empty requirement. */
  lemma RoleListIsNeverConsulted(required: seq<string>, u: RequestUser)
    requires required != [] && u.role.None?
    ensures CanActivate(Some(required), Some(u)) == Forbidden(NoRole)
  {
  }

  /** Requiring more roles never turns an Allow into a refusal. */
  lemma AllowIsMonotoneInRequired(required: seq<string>, extra: seq<string>, u: RequestUser)
    requires required != []
    requires CanActivate(Some(required), Some(u)) == Allow
    ensures CanActivate(Some(required + extra), Some(u)) == Allow
  {
  }
}

=== FILE: sanitize_interceptor.dfy ===
/** `SanitizeInterceptor`: rewrites the strings of a request's body, query and
    route parameters before the handler sees them. Request data is a JSON-like
    value; numbers are integers. */
module SanitizeInterceptor {
  import opened Wrappers
  import opened SanitizeUtils

  datatype Json =
    | Undefined
    | Null
    | Bool(b: bool)
    | Num(n: int)
    | Str(s: string)
    | Arr(items: seq<Json>)
    | Obj(members: seq<Member>)

  /** One own property of an object, in insertion order. */
  datatype Member = Member(key: string, value: Json)

  /** JavaScript truthiness: `undefined`, `null`, `false`, `0` and `''` are
      falsy; arrays and objects, even empty ones, are truthy. */
  predicate Truthy(j: Json)
  {
    match j
    case Undefined => false
    case Null => false
    case Bool(b) => b
    case Num(n) => n != 0
    case Str(s) => s != []
    case _ => true
  }

  /** `typeof v === 'object' && v !== null`: arrays and objects. */
  predicate IsObject(j: Json)
  {
    j.Arr? || j.Obj?
  }

  // ----- options -----------------------------------------------------------

  /** The options after defaults are applied. */
  datatype Options = Options(fields: seq<string>, deep: bool, stripTags: bool, escapeHtml: bool,
                             custom: string -> string)

  /** The handler's `@Sanitize` metadata; `None` is a property left out. */
  datatype HandlerOptions = HandlerOptions(fields: Option<seq<string>>, deep: Option<bool>,
                                           stripTags: Option<bool>, escapeHtml: Option<bool>,
                                           custom: Option<string -> string>)

  /** Missing metadata counts as `{}`. Every property falls back to its default
      only when left out: an explicit `false` for `deep`, `stripTags` or
      `escapeHtml` is kept (`!== undefined`), and an array or function is never
      falsy, so `||` only replaces a missing `fields` or sanitizer. */
  function Resolve(meta: Option<HandlerOptions>): (o: Options)
    ensures meta.None? ==> o.fields == [] && o.deep && o.stripTags && o.escapeHtml
    ensures meta.None? ==> forall v :: o.custom(v) == v
    ensures meta.Some? ==> o.fields == (if meta.value.fields.Some? then meta.value.fields.value else [])
    ensures meta.Some? ==> (o.deep <==> meta.value.deep != Some(false))
    ensures meta.Some? ==> (o.stripTags <==> meta.value.stripTags != Some(false))
    ensures meta.Some? ==> (o.escapeHtml <==> meta.value.escapeHtml != Some(false))
    ensures meta.Some? && meta.value.custom.Some? ==> o.custom == meta.value.custom.value
    ensures meta.Some? && meta.value.custom.None? ==> forall v :: o.custom(v) == v
  {
    var h := meta.GetOr(HandlerOptions(None, None, None, None, None));
    Options(h.fields.GetOr([]), h.deep.GetOr(true), h.stripTags.GetOr(true),
            h.escapeHtml.GetOr(true), h.custom.GetOr(v => v))
  }

  /** The key is rewritten: no `fields` list, or the key is on it. */
  predicate Selected(key: string, o: Options)
  {
    |o.fields| == 0 || key in o.fields
  }

  // ----- sanitizeString ----------------------------------------------------

  /** `sanitizeString`: the custom sanitizer, then tag stripping, then HTML
      escaping, each of the last two only when switched on. With escaping on,
      the result holds no raw special character, and decoding the entities
      gives back exactly what the custom sanitizer and the tag stripper
      produced: escaping loses nothing. */
  function SanitizeString(v: string, o: Options): (r: string)
    ensures o.escapeHtml ==> NoRawSpecials(r)
    ensures o.escapeHtml ==> Unescape(r) == (if o.stripTags then StripTags(o.custom(v)) else o.custom(v))
  {
    var c := o.custom(v);
    var t := if o.stripTags then StripTags(c) else c;
    UnescapeEscapeHtml(t);
    if o.escapeHtml then EscapeHtml(t) else t
  }

  /** No raw `<`, `>`, `"` or `'`. */
  predicate NoRawSpecials(s: string)
  {
    '<' !in s && '>' !in s && '"' !in s && '\'' !in s
  }

  /** With escaping off and stripping on, nothing tag-like survives. */
  lemma SanitizeStringStrips(v: string, o: Options)
    requires o.stripTags && !o.escapeHtml
    ensures NoTag(SanitizeString(v, o))
    ensures SanitizeString(v, o) == StripTags(o.custom(v))
  {
    StripTagsLeavesNoTag(o.custom(v));
  }

  /** With both rewrites off, only the custom sanitizer acts. */
  lemma SanitizeStringOnlyCustom(v: string, o: Options)
    requires !o.stripTags && !o.escapeHtml
    ensures SanitizeString(v, o) == o.custom(v)
  {
  }

  /** The custom sanitizer runs first: in the unit test it turns the element
      `<script>…</script>` into `<blocked>…</blocked>`, which the stripper then
      deletes, leaving the escaped text and what follows it
      (`alert(&quot;XSS&quot;)John`). */
  lemma SanitizeStringCustomFirst(v: string, o: Options, tag: string, text: string, tail: string)
    requires o.stripTags && o.escapeHtml
    requires o.custom(v) == Element(tag, text) + tail
    requires '>' !in tag && '<' !in text && '<' !in tail
    ensures SanitizeString(v, o) == EscapeHtml(text) + EscapeHtml(tail)
  {
    StripTagsElement(tag, text, tail);
    StripTagsPlain(tail, []);
    assert tail + [] == tail;
    EscapeHtmlAppend(text, tail);
  }

  /** With stripping off and escaping on, a tag around plain text survives as
      entities (`&lt;script&gt;`). */
  lemma SanitizeStringKeepsTagsEscaped(t: string, o: Options)
    requires !o.stripTags && o.escapeHtml && o.custom("<" + t + ">") == "<" + t + ">"
    requires forall i :: 0 <= i < |t| ==> !IsHtmlSpecial(t[i])
    ensures SanitizeString("<" + t + ">", o) == "&lt;" + t + "&gt;"
  {
    EscapeHtmlTag(t);
  }

  // ----- sanitizeData ------------------------------------------------------

  /** `sanitizeData`: falsy values are returned as they are; arrays are mapped
      element by element; in a (spread) copy of an object each selected key
      whose value is a non-null object is sanitized recursively when `deep` is
      on, and each selected string value goes through `SanitizeString`; a
      truthy string is sanitized; any other value is returned as it is. The
      result has the shape of the input. */
  function SanitizeData(d: Json, o: Options): (r: Json)
    ensures SameShape(d, r)
    decreases d
  {
    if !Truthy(d) then SameShapeReflexive(d); d
    else
      match d
      case Arr(items) => Arr(SanitizeItems(d, o))
      case Obj(ms) => Obj(SanitizeMembers(d, o))
      case Str(s) => Str(SanitizeString(s, o))
      case _ => d
  }

  /** The elements of the array `parent`, each sanitized. */
  function SanitizeItems(parent: Json, o: Options): (r: seq<Json>)
    requires parent.Arr?
    ensures |r| == |parent.items|
    ensures forall i :: 0 <= i < |r| ==> r[i] == SanitizeData(parent.items[i], o)
    decreases parent, 0
  {
    var items := parent.items;
    seq(|items|, i requires 0 <= i < |items| => SanitizeData(items[i], o))
  }

  /** The properties of the object `parent`, each with its new value. */
  function SanitizeMembers(parent: Json, o: Options): (r: seq<Member>)
    requires parent.Obj?
    ensures |r| == |parent.members|
    ensures forall i :: 0 <= i < |r| ==> r[i] == Member(parent.members[i].key, SanitizeMember(parent.members[i], o, parent))
    decreases parent, 1
  {
    var ms := parent.members;
    seq(|ms|, i requires 0 <= i < |ms| => Member(ms[i].key, SanitizeMember(ms[i], o, parent)))
  }

  /** The new value of one property of `parent`. */
  function SanitizeMember(m: Member, o: Options, parent: Json): (r: Json)
    requires parent.Obj? && m in parent.members
    ensures SameShape(m.value, r)
    ensures !Selected(m.key, o) ==> r == m.value
    decreases parent, 0
  {
    SameShapeReflexive(m.value);
    if !Selected(m.key, o) then m.value
    else if IsObject(m.value) && o.deep then SanitizeData(m.value, o)
    else if m.value.Str? then Str(SanitizeString(m.value.s, o))
    else m.value
  }

  /** `a` and `b` have the same shape: the same kind of value at every
      position, arrays of the same length, objects with the same keys in the
      same order, and scalars other than strings equal. */
  predicate SameShape(a: Json, b: Json)
    decreases a
  {
    match a
    case Arr(xs) =>
      b.Arr? && |xs| == |b.items| && forall i :: 0 <= i < |xs| ==> SameShape(xs[i], b.items[i])
    case Obj(ms) =>
      b.Obj? && |ms| == |b.members| &&
      forall i :: 0 <= i < |ms| ==> ms[i].key == b.members[i].key && SameShape(ms[i].value, b.members[i].value)
    case Str(_) => b.Str?
    case _ => b == a
  }

  lemma {:induction false} SameShapeReflexive(a: Json)
    ensures SameShape(a, a)
    decreases a
  {
    match a
    case Arr(xs) =>
      forall i | 0 <= i < |xs| ensures SameShape(xs[i], xs[i]) {
        SameShapeReflexive(xs[i]);
      }
    case Obj(ms) =>
      forall i | 0 <= i < |ms| ensures SameShape(ms[i].value, ms[i].value) {
        SameShapeReflexive(ms[i].value);
      }
    case _ =>
  }

  /** `r` agrees with `d` on every property whose key is not selected, at any
      depth. */
  predicate KeepsUnselected(d: Json, r: Json, o: Options)
    decreases d
  {
    match d
    case Arr(xs) =>
      r.Arr? && |r.items| == |xs| && forall i :: 0 <= i < |xs| ==> KeepsUnselected(xs[i], r.items[i], o)
    case Obj(ms) =>
      r.Obj? && |r.members| == |ms| &&
      forall i :: 0 <= i < |ms| ==>
        if Selected(ms[i].key, o) then KeepsUnselected(ms[i].value, r.members[i].value, o)
        else r.members[i].value == ms[i].value
    case _ => true
  }

  /** A non-empty `fields` list confines rewriting to those keys at every
      nesting level: every other key keeps its value verbatim. */
  lemma {:induction false} SanitizeDataKeepsUnselected(d: Json, o: Options)
    ensures KeepsUnselected(d, SanitizeData(d, o), o)
    decreases d
  {
    var r := SanitizeData(d, o);
    match d
    case Arr(xs) =>
      if Truthy(d) {
        forall i | 0 <= i < |xs| ensures KeepsUnselected(xs[i], r.items[i], o) {
          SanitizeDataKeepsUnselected(xs[i], o);
        }
      }
    case Obj(ms) =>
      forall i | 0 <= i < |ms| && Selected(ms[i].key, o)
        ensures KeepsUnselected(ms[i].value, r.members[i].value, o)
      {
        var m := ms[i];
        assert r.members[i].value == SanitizeMember(m, o, d);
        if IsObject(m.value) && o.deep {
          SanitizeDataKeepsUnselected(m.value, o);
        } else if IsObject(m.value) {
          KeepsUnselectedReflexive(m.value, o);
        }
      }
    case _ =>
  }

  /** A value that is not rewritten keeps everything below it. */
  lemma {:induction false} KeepsUnselectedReflexive(d: Json, o: Options)
    ensures KeepsUnselected(d, d, o)
    decreases d
  {
    match d
    case Arr(xs) =>
      forall i | 0 <= i < |xs| ensures KeepsUnselected(xs[i], xs[i], o) {
        KeepsUnselectedReflexive(xs[i], o);
      }
    case Obj(ms) =>
      forall i | 0 <= i < |ms| && Selected(ms[i].key, o) ensures KeepsUnselected(ms[i].value, ms[i].value, o) {
        KeepsUnselectedReflexive(ms[i].value, o);
      }
    case _ =>
  }

  /** Every string anywhere in `j` is free of raw special characters. */
  predicate AllEscaped(j: Json)
    decreases j
  {
    match j
    case Str(s) => NoRawSpecials(s)
    case Arr(xs) => forall i :: 0 <= i < |xs| ==> AllEscaped(xs[i])
    case Obj(ms) => forall i :: 0 <= i < |ms| ==> AllEscaped(ms[i].value)
    case _ => true
  }

  /** With the default `fields` and `deep` and escaping on, no raw `<`, `>`,
      `"` or `'` is left in any string of the data, however deeply nested. */
  lemma {:induction false} SanitizeDataEscapesEverywhere(d: Json, o: Options)
    requires o.escapeHtml && o.deep && o.fields == []
    ensures AllEscaped(SanitizeData(d, o))
    decreases d
  {
    var r := SanitizeData(d, o);
    match d
    case Str(s) =>
      if Truthy(d) {
              }
    case Arr(xs) =>
      forall i | 0 <= i < |xs| ensures AllEscaped(r.items[i]) {
        SanitizeDataEscapesEverywhere(xs[i], o);
      }
    case Obj(ms) =>
      forall i | 0 <= i < |ms| ensures AllEscaped(r.members[i].value) {
        var v := ms[i].value;
        assert r.members[i].value == SanitizeMember(ms[i], o, d);
        if IsObject(v) {
          SanitizeDataEscapesEverywhere(v, o);
        } else if v.Str? {
                  }
      }
    case _ =>
  }

  /** With `deep` off, nested objects and arrays inside an object are left
      untouched; only the object's direct string properties are rewritten. */
  lemma ShallowLeavesNestedValues(d: Json, o: Options)
    requires !o.deep && d.Obj?
    ensures SanitizeData(d, o).Obj?
    ensures forall i :: 0 <= i < |d.members| && IsObject(d.members[i].value) ==>
              SanitizeData(d, o).members[i].value == d.members[i].value
    ensures forall i :: 0 <= i < |d.members| && Selected(d.members[i].key, o) && d.members[i].value.Str? ==>
              SanitizeData(d, o).members[i].value == Str(SanitizeString(d.members[i].value.s, o))
  {
  }

  /** With neither rewrite on and the identity sanitizer, nothing changes. */
  lemma {:induction false} SanitizeDataIdentity(d: Json, o: Options)
    requires !o.stripTags && !o.escapeHtml && forall v :: o.custom(v) == v
    ensures SanitizeData(d, o) == d
    decreases d
  {
    var r := SanitizeData(d, o);
    match d
    case Arr(xs) =>
      forall i | 0 <= i < |xs| ensures r.items[i] == xs[i] {
        SanitizeDataIdentity(xs[i], o);
      }
      assert r.items == xs;
    case Obj(ms) =>
      forall i | 0 <= i < |ms| ensures r.members[i] == ms[i] {
        var v := ms[i].value;
        assert r.members[i] == Member(ms[i].key, SanitizeMember(ms[i], o, d));
        if IsObject(v) {
          SanitizeDataIdentity(v, o);
        } else if v.Str? {
          assert SanitizeString(v.s, o) == v.s;
        }
      }
      assert r.members == ms;
    case _ =>
  }

  // ----- the query ---------------------------------------------------------

  /** The query pass: a fresh object whose top-level string values, empty ones
      included, go through `SanitizeString`; every other value is copied. */
  function SanitizeQuery(q: seq<Member>, o: Options): (r: seq<Member>)
    ensures |r| == |q|
    ensures forall i :: 0 <= i < |q| ==> r[i].key == q[i].key
    ensures forall i :: 0 <= i < |q| && !q[i].value.Str? ==> r[i].value == q[i].value
    ensures forall i :: 0 <= i < |q| && q[i].value.Str? ==> r[i].value.Str?
    ensures o.escapeHtml ==> forall i :: 0 <= i < |q| && q[i].value.Str? ==> NoRawSpecials(r[i].value.s)
  {
    seq(|q|, i requires 0 <= i < |q| =>
      Member(q[i].key, if q[i].value.Str? then Str(SanitizeString(q[i].value.s, o)) else q[i].value))
  }

  /** The query pass ignores `fields` and `deep`, and never looks inside
      nested values: the same keys, sanitized top-level strings, and every
      non-string copied as it is. */
  lemma QueryIsTopLevelOnly(q: seq<Member>, o: Options, fields: seq<string>, deep: bool)
    ensures SanitizeQuery(q, o) == SanitizeQuery(q, o.(fields := fields, deep := deep))
  {
  }

  /** On a query of non-empty strings and no `fields` list, the query pass
      does what `sanitizeData` would do to the same object. */
  lemma QueryAgreesWithDataOnStrings(q: seq<Member>, o: Options)
    requires o.fields == []
    requires forall i :: 0 <= i < |q| ==> q[i].value.Str? && q[i].value.s != []
    ensures Obj(SanitizeQuery(q, o)) == SanitizeData(Obj(q), o)
  {
    var d := Obj(q);
    var r := SanitizeData(d, o);
    forall i | 0 <= i < |q| ensures r.members[i] == SanitizeQuery(q, o)[i] {
      assert r.members[i] == Member(q[i].key, SanitizeMember(q[i], o, d));
    }
    assert r.members == SanitizeQuery(q, o);
  }

  // ----- intercept ---------------------------------------------------------

  /** The parts of a request the interceptor rewrites; a missing body or
      parameter object is `Undefined`, a missing query is `None`. */
  datatype Request = Request(body: Json, query: Option<seq<Member>>, params: Json)

  /** `intercept`: options resolved from the metadata, then the body, query
      and route parameters sanitized when present. Nothing changes shape: the
      body and parameters keep their kinds, lengths and keys, and the query
      keeps its keys in order. */
  function Intercept(req: Request, meta: Option<HandlerOptions>): (r: Request)
    ensures SameShape(req.body, r.body) && SameShape(req.params, r.params)
    ensures r.query.Some? <==> req.query.Some?
    ensures req.query.Some? ==>
              (|r.query.value| == |req.query.value| &&
               forall i :: 0 <= i < |req.query.value| ==> r.query.value[i].key == req.query.value[i].key)
  {
    var o := Resolve(meta);
    SameShapeReflexive(req.body);
    SameShapeReflexive(req.params);
    Request(
      if Truthy(req.body) then SanitizeData(req.body, o) else req.body,
      if req.query.Some? then Some(SanitizeQuery(req.query.value, o)) else None,
      if Truthy(req.params) then SanitizeData(req.params, o) else req.params)
  }

  /** The presence checks are redundant with `sanitizeData`'s own: body and
      parameters are exactly their sanitized values, and a query is present
      afterwards exactly when it was before. */
  lemma InterceptSanitizesEachPart(req: Request, meta: Option<HandlerOptions>)
    ensures Intercept(req, meta).body == SanitizeData(req.body, Resolve(meta))
    ensures Intercept(req, meta).params == SanitizeData(req.params, Resolve(meta))
    ensures Intercept(req, meta).query.Some? <==> req.query.Some?
    ensures req.query.Some? ==> Intercept(req, meta).query.value == SanitizeQuery(req.query.value, Resolve(meta))
  {
  }

  /** Without metadata, no string in the sanitized body or parameters holds a
      raw `<`, `>`, `"` or `'`, and neither does any string the query holds at
      its top level. */
  lemma InterceptDefaultsEscapeEverything(req: Request)
    ensures AllEscaped(Intercept(req, None).body)
    ensures AllEscaped(Intercept(req, None).params)
    ensures req.query.Some? ==>
              forall i :: 0 <= i < |req.query.value| && req.query.value[i].value.Str? ==>
                NoRawSpecials(Intercept(req, None).query.value[i].value.s)
  {
    var o := Resolve(None);
    SanitizeDataEscapesEverywhere(req.body, o);
    SanitizeDataEscapesEverywhere(req.params, o);
    if req.query.Some? {
      var q := req.query.value;
      forall i | 0 <= i < |q| && q[i].value.Str?
        ensures NoRawSpecials(Intercept(req, None).query.value[i].value.s)
      {
              }
    }
  }
}

=== FILE: sanitize_utils.dfy ===
/** `SanitizeUtils`: character-level string rewrites. Each global regular
    expression replacement of the source is written as a left-to-right scan
    over the string. */
module SanitizeUtils {
  import opened Wrappers
  import opened Seqs

  // ----- stripHtmlTags -----------------------------------------------------

  /** No `<` is followed, anywhere later, by a `>`: nothing left looks like a
      tag. */
  predicate NoTag(s: string)
  {
    forall i, j :: 0 <= i < j < |s| && s[i] == '<' ==> s[j] != '>'
  }

  /** The position of the first `>` in `s`, if any. */
  function CloseAt(s: string): (r: Option<nat>)
    ensures r.Some? ==> r.value < |s| && s[r.value] == '>'
  {
    if s == [] then None
    else if s[0] == '>' then Some(0)
    else match CloseAt(s[1..]) case None => None case Some(j) => Some(j + 1)
  }

  /** `CloseAt` finds the first `>`, and finds none only when there is none. */
  lemma {:induction false} CloseAtIsFirst(s: string)
    ensures CloseAt(s).None? ==> forall i :: 0 <= i < |s| ==> s[i] != '>'
    ensures CloseAt(s).Some? ==> forall i :: 0 <= i < CloseAt(s).value ==> s[i] != '>'
  {
    if s != [] && s[0] != '>' {
      CloseAtIsFirst(s[1..]);
      assert forall i :: 1 <= i < |s| ==> s[i] == s[1..][i - 1];
    }
  }

  /** `input.replace(/<[^>]*>/g, '')`: scanning left to right, a `<` that has
      a `>` somewhere after it starts a tag that runs to the first such `>`,
      and the tag is deleted; every other character is kept. */
  function StripTags(s: string): (r: string)
    ensures |r| <= |s|
    decreases |s|
  {
    if s == [] then []
    else if s[0] == '<' && CloseAt(s).Some? then StripTags(s[CloseAt(s).value + 1..])
    else [s[0]] + StripTags(s[1..])
  }

  /** Stripping only deletes characters: the output is the input with some
      characters taken out, in their original order, so everything in the
      output was in the input. */
  lemma {:induction false} StripTagsKeepsCharacters(s: string)
    ensures IsSubsequence(StripTags(s), s)
    ensures forall i :: 0 <= i < |StripTags(s)| ==> StripTags(s)[i] in s
    decreases |s|
  {
    if s == [] {
    } else if s[0] == '<' && CloseAt(s).Some? {
      var j := CloseAt(s).value;
      StripTagsKeepsCharacters(s[j + 1..]);
      SubsequenceOfLonger(StripTags(s[j + 1..]), s[..j + 1], s[j + 1..]);
      assert s[..j + 1] + s[j + 1..] == s;
    } else {
      StripTagsKeepsCharacters(s[1..]);
      SubsequenceCons(s[0], StripTags(s[1..]), s[1..]);
      assert [s[0]] + s[1..] == s;
    }
    SubsequenceMembers(StripTags(s), s);
  }

  /** Stripping leaves nothing that looks like a tag. */
  lemma {:induction false} StripTagsLeavesNoTag(s: string)
    ensures NoTag(StripTags(s))
    decreases |s|
  {
    if s == [] {
    } else if s[0] == '<' && CloseAt(s).Some? {
      StripTagsLeavesNoTag(s[CloseAt(s).value + 1..]);
    } else {
      StripTagsLeavesNoTag(s[1..]);
      var rest := StripTags(s[1..]);
      assert StripTags(s) == [s[0]] + rest;
      if s[0] == '<' {
        CloseAtIsFirst(s);
        StripTagsKeepsCharacters(s[1..]);
        forall i | 0 <= i < |rest| ensures rest[i] != '>' {
          var k :| 0 <= k < |s[1..]| && s[1..][k] == rest[i];
          assert s[k + 1] == rest[i];
        }
      }
      NoTagCons(s[0], rest);
    }
  }

  lemma NoTagCons(c: char, rest: string)
    requires NoTag(rest)
    requires c == '<' ==> forall i :: 0 <= i < |rest| ==> rest[i] != '>'
    ensures NoTag([c] + rest)
  {
    var r := [c] + rest;
    forall i, j | 0 <= i < j < |r| && r[i] == '<' ensures r[j] != '>' {
      assert r[j] == rest[j - 1];
      if i > 0 {
        assert r[i] == rest[i - 1];
      }
    }
  }

  /** A string without tags is left alone. */
  lemma {:induction false} StripTagsKeepsTagFree(s: string)
    requires NoTag(s)
    ensures StripTags(s) == s
    decreases |s|
  {
    if s != [] {
      assert StripTags(s) == [s[0]] + StripTags(s[1..]);
      assert NoTag(s[1..]) by {
        forall i, j | 0 <= i < j < |s[1..]| && s[1..][i] == '<' ensures s[1..][j] != '>' {
          assert s[i + 1] == '<';
        }
      }
      StripTagsKeepsTagFree(s[1..]);
    }
  }

  /** Stripping twice is stripping once. */
  lemma StripTagsIdempotent(s: string)
    ensures StripTags(StripTags(s)) == StripTags(s)
  {
    StripTagsLeavesNoTag(s);
    StripTagsKeepsTagFree(StripTags(s));
  }

  /** Text before the first `<` is kept as it is; in particular text without
      `<` is unchanged. */
  lemma {:induction false} StripTagsPlain(a: string, b: string)
    requires '<' !in a
    ensures StripTags(a + b) == a + StripTags(b)
  {
    if a != [] {
      assert (a + b)[0] == a[0] && (a + b)[1..] == a[1..] + b;
      StripTagsPlain(a[1..], b);
    } else {
      assert a + b == b;
    }
  }

  /** A complete tag at the front is deleted. */
  lemma StripTagsTag(x: string, b: string)
    requires '>' !in x
    ensures StripTags("<" + x + ">" + b) == StripTags(b)
  {
    var s := "<" + x + ">" + b;
    CloseAtIsFirst(s);
    assert s[|x| + 1] == '>';
    assert forall i :: 0 < i < |x| + 1 ==> s[i] == x[i - 1];
    assert CloseAt(s) == Some(|x| + 1);
    assert s[|x| + 2..] == b;
  }

  /** An element: an opening tag, text, and the matching closing tag. */
  function Element(tag: string, text: string): string
  {
    ("<" + tag + ">") + (text + ("</" + tag + ">"))
  }

  /** The shape of the unit example: an element loses its opening and closing
      tags and keeps the text between them; what follows is stripped on its
      own. */
  lemma StripTagsElement(tag: string, text: string, tail: string)
    requires '>' !in tag && '<' !in text
    ensures StripTags(Element(tag, text) + tail) == text + StripTags(tail)
  {
    var open, close := "<" + tag + ">", "</" + tag + ">";
    assert Element(tag, text) + tail == open + (text + (close + tail));
    StripTagsClosingTag(tag, tail);
    StripTagsPlain(text, close + tail);
    StripTagsTag(tag, text + (close + tail));
  }

  /** A closing tag is deleted. */
  lemma StripTagsClosingTag(tag: string, tail: string)
    requires '>' !in tag
    ensures StripTags("</" + tag + ">" + tail) == StripTags(tail)
  {
    var x := "/" + tag;
    StripTagsTag(x, tail);
    assert "<" + x + ">" + tail == "</" + tag + ">" + tail;
  }

  // ----- escapeHtml --------------------------------------------------------

  /** `input.replace(/c/g, rep)` for a single character `c`. */
  function ReplaceChar(s: string, c: char, rep: string): string
  {
    if s == [] then [] else (if s[0] == c then rep else [s[0]]) + ReplaceChar(s[1..], c, rep)
  }

  /** Replacing a character that does not occur changes nothing. */
  lemma {:induction false} ReplaceCharAbsent(s: string, c: char, rep: string)
    requires c !in s
    ensures ReplaceChar(s, c, rep) == s
  {
    if s != [] {
      assert s[1..] == s[1..] && forall x :: x in s[1..] ==> x in s;
      ReplaceCharAbsent(s[1..], c, rep);
    }
  }

  /** What replacing does: the pieces between the occurrences of `c` are kept
      as they are and each occurrence becomes `rep`. Hence the result holds no
      `c` unless the replacement does, no character that neither the input
      nor the replacement holds, and equals the input when `c` is absent. */
  lemma {:induction false} ReplaceCharContents(s: string, c: char, rep: string)
    ensures ReplaceChar(s, c, rep) == Join(Split(s, c), rep)
    ensures c !in s ==> ReplaceChar(s, c, rep) == s
    ensures forall x :: x in ReplaceChar(s, c, rep) ==> x in s || x in rep
    ensures c !in rep ==> c !in ReplaceChar(s, c, rep)
  {
    ReplaceCharPieces(Split(s, c), c, rep);
    ReplaceCharMembers(s, c, rep);
    if c !in s {
      ReplaceCharAbsent(s, c, rep);
    }
  }

  lemma {:induction false} ReplaceCharMembers(s: string, c: char, rep: string)
    ensures forall x :: x in ReplaceChar(s, c, rep) ==> x in s || x in rep
    ensures c !in rep ==> c !in ReplaceChar(s, c, rep)
  {
    if s != [] {
      ReplaceCharMembers(s[1..], c, rep);
      assert forall x :: x in s[1..] ==> x in s;
    }
  }

  /** A character the replacement lacks is absent afterwards if it was the
      replaced one or was absent before. */
  lemma ReplaceCharOmits(s: string, c: char, rep: string, x: char)
    requires x !in rep && (x == c || x !in s)
    ensures x !in ReplaceChar(s, c, rep)
  {
    ReplaceCharMembers(s, c, rep);
  }

  /** Replacing in `c`-free pieces joined by `c` joins the same pieces by
      `rep` instead. */
  lemma {:induction false} ReplaceCharPieces(pieces: seq<string>, c: char, rep: string)
    requires |pieces| >= 1
    requires forall i :: 0 <= i < |pieces| ==> c !in pieces[i]
    ensures ReplaceChar(Join(pieces, [c]), c, rep) == Join(pieces, rep)
  {
    ReplaceCharAbsent(pieces[0], c, rep);
    if |pieces| > 1 {
      var rest := Join(pieces[1..], [c]);
      ReplaceCharPieces(pieces[1..], c, rep);
      ReplaceCharAppend(pieces[0] + [c], rest, c, rep);
      ReplaceCharAppend(pieces[0], [c], c, rep);
      ReplaceCharSingle(c, c, rep);
    }
  }

  lemma {:induction false} ReplaceCharAppend(a: string, b: string, c: char, rep: string)
    ensures ReplaceChar(a + b, c, rep) == ReplaceChar(a, c, rep) + ReplaceChar(b, c, rep)
  {
    if a == [] {
      assert a + b == b;
    } else {
      assert (a + b)[0] == a[0] && (a + b)[1..] == a[1..] + b;
      ReplaceCharAppend(a[1..], b, c, rep);
    }
  }

  /** `escapeHtml`: five global replacements, `&` first. No raw `<`, `>`,
      `"` or `'` survives, and text without special characters is left
      alone. */
  function EscapeHtml(s: string): (r: string)
    ensures '<' !in r && '>' !in r && '"' !in r && '\'' !in r
    ensures (forall i :: 0 <= i < |s| ==> !IsHtmlSpecial(s[i])) ==> r == s
  {
    var s1 := ReplaceChar(s, '&', "&amp;");
    var s2 := ReplaceChar(s1, '<', "&lt;");
    var s3 := ReplaceChar(s2, '>', "&gt;");
    var s4 := ReplaceChar(s3, '"', "&quot;");
    var r := ReplaceChar(s4, '\'', "&#039;");
    ReplaceCharOmits(s1, '<', "&lt;", '<');
    ReplaceCharOmits(s2, '>', "&gt;", '<');
    ReplaceCharOmits(s3, '"', "&quot;", '<');
    ReplaceCharOmits(s4, '\'', "&#039;", '<');
    ReplaceCharOmits(s2, '>', "&gt;", '>');
    ReplaceCharOmits(s3, '"', "&quot;", '>');
    ReplaceCharOmits(s4, '\'', "&#039;", '>');
    ReplaceCharOmits(s3, '"', "&quot;", '"');
    ReplaceCharOmits(s4, '\'', "&#039;", '"');
    ReplaceCharOmits(s4, '\'', "&#039;", '\'');
    assert (forall i :: 0 <= i < |s| ==> !IsHtmlSpecial(s[i])) ==> r == s by {
      if forall i :: 0 <= i < |s| ==> !IsHtmlSpecial(s[i]) {
        ReplaceCharAbsent(s, '&', "&amp;");
        ReplaceCharAbsent(s, '<', "&lt;");
        ReplaceCharAbsent(s, '>', "&gt;");
        ReplaceCharAbsent(s, '"', "&quot;");
        ReplaceCharAbsent(s, '\'', "&#039;");
      }
    }
    r
  }

  /** The entity each character becomes. */
  function EscapeChar(x: char): string
  {
    match x
    case '&' => "&amp;"
    case '<' => "&lt;"
    case '>' => "&gt;"
    case '"' => "&quot;"
    case '\'' => "&#039;"
    case _ => [x]
  }

  predicate IsHtmlSpecial(x: char)
  {
    x == '&' || x == '<' || x == '>' || x == '"' || x == '\''
  }

  /** The escaping of each character, concatenated. */
  function EscapeEach(s: string): string
  {
    if s == [] then [] else EscapeChar(s[0]) + EscapeEach(s[1..])
  }

  /** Escaping distributes over concatenation. */
  lemma EscapeHtmlAppend(a: string, b: string)
    ensures EscapeHtml(a + b) == EscapeHtml(a) + EscapeHtml(b)
  {
    var a1, b1 := ReplaceChar(a, '&', "&amp;"), ReplaceChar(b, '&', "&amp;");
    ReplaceCharAppend(a, b, '&', "&amp;");
    var a2, b2 := ReplaceChar(a1, '<', "&lt;"), ReplaceChar(b1, '<', "&lt;");
    ReplaceCharAppend(a1, b1, '<', "&lt;");
    var a3, b3 := ReplaceChar(a2, '>', "&gt;"), ReplaceChar(b2, '>', "&gt;");
    ReplaceCharAppend(a2, b2, '>', "&gt;");
    var a4, b4 := ReplaceChar(a3, '"', "&quot;"), ReplaceChar(b3, '"', "&quot;");
    ReplaceCharAppend(a3, b3, '"', "&quot;");
    ReplaceCharAppend(a4, b4, '\'', "&#039;");
  }

  lemma ReplaceCharSingle(x: char, c: char, rep: string)
    ensures ReplaceChar([x], c, rep) == if x == c then rep else [x]
  {
    assert [x][1..] == [];
    assert ReplaceChar([x], c, rep) == (if x == c then rep else [x]) + ReplaceChar([], c, rep);
  }

  lemma EscapeHtmlOfChar(x: char)
    ensures EscapeHtml([x]) == EscapeChar(x)
  {
    if IsHtmlSpecial(x) {
      EscapeHtmlOfSpecial(x);
    } else {
      ReplaceCharContents([x], '&', "&amp;");
      ReplaceCharContents([x], '<', "&lt;");
      ReplaceCharContents([x], '>', "&gt;");
      ReplaceCharContents([x], '"', "&quot;");
      ReplaceCharContents([x], '\'', "&#039;");
    }
  }

  /** Each special character goes through exactly one pass that changes it. */
  lemma EscapeHtmlOfSpecial(x: char)
    requires IsHtmlSpecial(x)
    ensures EscapeHtml([x]) == EscapeChar(x)
  {
    if x == '&' {
      ReplaceCharSingle(x, '&', "&amp;");
      LaterPassesKeep("&amp;", 1);
    } else if x == '<' {
      ReplaceCharContents([x], '&', "&amp;");
      ReplaceCharSingle(x, '<', "&lt;");
      LaterPassesKeep("&lt;", 2);
    } else if x == '>' {
      ReplaceCharContents([x], '&', "&amp;");
      ReplaceCharContents([x], '<', "&lt;");
      ReplaceCharSingle(x, '>', "&gt;");
      LaterPassesKeep("&gt;", 3);
    } else if x == '"' {
      ReplaceCharContents([x], '&', "&amp;");
      ReplaceCharContents([x], '<', "&lt;");
      ReplaceCharContents([x], '>', "&gt;");
      ReplaceCharSingle(x, '"', "&quot;");
      LaterPassesKeep("&quot;", 4);
    } else {
      ReplaceCharContents([x], '&', "&amp;");
      ReplaceCharContents([x], '<', "&lt;");
      ReplaceCharContents([x], '>', "&gt;");
      ReplaceCharContents([x], '"', "&quot;");
      ReplaceCharSingle(x, '\'', "&#039;");
    }
  }

  /** An entity holds none of the characters the passes after its own one
      replace, so those passes keep it. */
  lemma LaterPassesKeep(e: string, k: nat)
    requires 1 <= k <= 4
    requires forall i :: 0 <= i < |e| ==> e[i] != '<' && e[i] != '>' && e[i] != '"' && e[i] != '\''
    ensures k <= 1 ==> ReplaceChar(e, '<', "&lt;") == e
    ensures k <= 2 ==> ReplaceChar(e, '>', "&gt;") == e
    ensures k <= 3 ==> ReplaceChar(e, '"', "&quot;") == e
    ensures ReplaceChar(e, '\'', "&#039;") == e
  {
    ReplaceCharContents(e, '<', "&lt;");
    ReplaceCharContents(e, '>', "&gt;");
    ReplaceCharContents(e, '"', "&quot;");
    ReplaceCharContents(e, '\'', "&#039;");
  }

  /** The five passes escape each character on its own: `&` goes first, so
      the ampersands the later passes introduce are never escaped again. */
  lemma {:induction false} EscapeHtmlIsPerCharacter(s: string)
    ensures EscapeHtml(s) == EscapeEach(s)
  {
    if s != [] {
      assert s == [s[0]] + s[1..];
      EscapeHtmlAppend([s[0]], s[1..]);
      EscapeHtmlOfChar(s[0]);
      EscapeHtmlIsPerCharacter(s[1..]);
    }
  }

  /** Decoding of the five entities (and nothing else). */
  function Unescape(t: string): string
    decreases |t|
  {
    if t == [] then []
    else if t[0] != '&' then [t[0]] + Unescape(t[1..])
    else if |t| >= 5 && t[..5] == "&amp;" then "&" + Unescape(t[5..])
    else if |t| >= 4 && t[..4] == "&lt;" then "<" + Unescape(t[4..])
    else if |t| >= 4 && t[..4] == "&gt;" then ">" + Unescape(t[4..])
    else if |t| >= 6 && t[..6] == "&quot;" then "\"" + Unescape(t[6..])
    else if |t| >= 6 && t[..6] == "&#039;" then "'" + Unescape(t[6..])
    else [t[0]] + Unescape(t[1..])
  }

  lemma UnescapeOfEscapedChar(x: char, rest: string)
    ensures Unescape(EscapeChar(x) + rest) == [x] + Unescape(rest)
  {
    if IsHtmlSpecial(x) {
      UnescapeOfEntity(x, rest);
    } else {
      var t := [x] + rest;
      assert t[0] == x && t[1..] == rest;
    }
  }

  /** Each entity decodes to the character it stands for. */
  lemma UnescapeOfEntity(x: char, rest: string)
    requires IsHtmlSpecial(x)
    ensures Unescape(EscapeChar(x) + rest) == [x] + Unescape(rest)
  {
    var e := EscapeChar(x);
    var t := e + rest;
    assert t[..|e|] == e && t[|e|..] == rest;
    if x == '&' {
      assert t[..5] == "&amp;";
    } else {
      assert t[1] != 'a';
      if x == '<' {
        assert t[..4] == "&lt;";
      } else {
        assert t[1] != 'l';
        if x == '>' {
          assert t[..4] == "&gt;";
        } else {
          assert t[1] != 'g';
          if x == '"' {
            assert t[..6] == "&quot;";
          } else {
            assert t[1] != 'q' && t[..6] == "&#039;";
          }
        }
      }
    }
  }

  /** Escaping loses nothing: decoding the five entities gives the input back. */
  lemma {:induction false} UnescapeEscapeHtml(s: string)
    ensures Unescape(EscapeHtml(s)) == s
  {
    EscapeHtmlIsPerCharacter(s);
    UnescapeEscapeEach(s);
  }

  lemma {:induction false} UnescapeEscapeEach(s: string)
    ensures Unescape(EscapeEach(s)) == s
  {
    if s != [] {
      UnescapeOfEscapedChar(s[0], EscapeEach(s[1..]));
      UnescapeEscapeEach(s[1..]);
    }
  }

  /** The shape of the unit example: the brackets of a tag around plain text
      become entities and the text is kept. */
  lemma EscapeHtmlTag(t: string)
    requires forall i :: 0 <= i < |t| ==> !IsHtmlSpecial(t[i])
    ensures EscapeHtml("<" + t + ">") == "&lt;" + t + "&gt;"
  {
    EscapeHtmlAppend("<" + t, ">");
    EscapeHtmlAppend("<", t);
    EscapeHtmlOfChar('<');
    EscapeHtmlOfChar('>');
  }

  // ----- preventSqlInjection -----------------------------------------------

  /** No two adjacent dashes. */
  predicate NoDoubleDash(s: string)
  {
    forall i :: 0 <= i < |s| - 1 ==> !(s[i] == '-' && s[i + 1] == '-')
  }

  /** `input.replace(/--/g, '')`: non-overlapping pairs, left to right. */
  function RemoveDoubleDash(s: string): (r: string)
    ensures '-' !in s ==> r == s
    ensures forall x :: x in r ==> x in s
    ensures s != [] && s[0] != '-' ==> r != [] && r[0] == s[0]
    ensures NoDoubleDash(r)
    decreases |s|
  {
    if s == [] then []
    else
      var pair := |s| >= 2 && s[0] == '-' && s[1] == '-';
      var n := if pair then 2 else 1;
      var rest := RemoveDoubleDash(s[n..]);
      assert forall x :: x in s[n..] ==> x in s;
      (if pair then [] else [s[0]]) + rest
  }

  /** Removing `--` only deletes characters: the rest keep their order. */
  lemma {:induction false} RemoveDoubleDashKeepsOrder(s: string)
    ensures IsSubsequence(RemoveDoubleDash(s), s)
    decreases |s|
  {
    if s != [] {
      RemoveDoubleDashStep(s);
      if |s| >= 2 && s[0] == '-' && s[1] == '-' {
        RemoveDoubleDashKeepsOrder(s[2..]);
        SubsequenceOfLonger(RemoveDoubleDash(s[2..]), s[..2], s[2..]);
        assert s[..2] + s[2..] == s;
      } else {
        RemoveDoubleDashKeepsOrder(s[1..]);
        SubsequenceCons(s[0], RemoveDoubleDash(s[1..]), s[1..]);
        assert [s[0]] + s[1..] == s;
      }
    }
  }

  /** `k` dashes. */
  function Dashes(k: nat): (r: string)
    ensures |r| == k && forall i :: 0 <= i < k ==> r[i] == '-'
  {
    if k == 0 then [] else "-" + Dashes(k - 1)
  }

  /** Each maximal run of `k` dashes loses its pairs from the left and keeps
      `k % 2` dashes; with `RemoveDoubleDashPlain` this determines the result
      on every input. */
  lemma {:induction false} RemoveDoubleDashRuns(k: nat, b: string)
    requires b == [] || b[0] != '-'
    ensures RemoveDoubleDash(Dashes(k) + b) == Dashes(k % 2) + RemoveDoubleDash(b)
  {
    var s := Dashes(k) + b;
    if k == 0 {
      assert s == b;
    } else if k == 1 {
      assert RemoveDoubleDash(s) == "-" + RemoveDoubleDash(b) by {
        assert s == "-" + b && s[1..] == b;
        RemoveDoubleDashStep(s);
      }
    } else {
      var d := Dashes(k - 2);
      assert RemoveDoubleDash(s) == RemoveDoubleDash(d + b) by {
        assert Dashes(k) == "-" + ("-" + d);
        assert s[0] == '-' && s[1] == '-' && s[2..] == d + b;
        RemoveDoubleDashStep(s);
      }
      RemoveDoubleDashRuns(k - 2, b);
      assert Dashes((k - 2) % 2) == Dashes(k % 2);
    }
  }

  /** One step of the scan: a leading `--` is dropped, any other first
      character is kept. */
  lemma RemoveDoubleDashStep(s: string)
    requires s != []
    ensures |s| >= 2 && s[0] == '-' && s[1] == '-' ==> RemoveDoubleDash(s) == RemoveDoubleDash(s[2..])
    ensures !(|s| >= 2 && s[0] == '-' && s[1] == '-') ==> RemoveDoubleDash(s) == [s[0]] + RemoveDoubleDash(s[1..])
  {
  }

  /** `input.replace(/c/g, '')` */
  function RemoveChar(s: string, c: char): (r: string)
    ensures c !in r
    ensures forall x :: x in r ==> x in s
    ensures c !in s ==> r == s
  {
    ReplaceCharContents(s, c, "");
    ReplaceChar(s, c, "")
  }

  /** `preventSqlInjection` as written: double each quote, delete `--`, then
      delete `;`. The result has no `;`. */
  function PreventSqlInjection(s: string): (r: string)
    ensures ';' !in r
  {
    RemoveChar(RemoveDoubleDash(ReplaceChar(s, '\'', "''")), ';')
  }

  /** Deleting `;` after `--` can join two dashes: `-;-` comes out as `--`. */
  lemma PreventSqlInjectionLeavesCommentMarker()
    ensures PreventSqlInjection("-;-") == "--"
    ensures !NoDoubleDash(PreventSqlInjection("-;-"))
  {
    assert RemoveDoubleDash("-;-") == "-;-";
    assert ReplaceChar("-;-", ';', "") == "--";
    var r := PreventSqlInjection("-;-");
    assert r[0] == '-' && r[1] == '-';
  }

  /** The same cleaner with `;` deleted before `--`: neither survives. */
  function PreventSqlInjectionCorrected(s: string): (r: string)
    ensures ';' !in r
    ensures NoDoubleDash(r)
  {
    RemoveDoubleDash(RemoveChar(ReplaceChar(s, '\'', "''"), ';'))
  }

  /** On input without `;` the two orders agree. */
  lemma CorrectedAgreesWithoutSemicolons(s: string)
    requires ';' !in s
    ensures PreventSqlInjectionCorrected(s) == PreventSqlInjection(s)
  {
    ReplaceCharContents(s, '\'', "''");
    var t := ReplaceChar(s, '\'', "''");
    assert ';' !in RemoveDoubleDash(t);
  }

  /** The shape of the unit example (`Robert'); DROP TABLE Students;--`): the
      quote is doubled, both `;` go and the trailing `--` goes. */
  lemma PreventSqlInjectionClosesStatement(a: string, b: string)
    requires '\'' !in a && ';' !in a && '-' !in a
    requires '\'' !in b && ';' !in b && '-' !in b
    ensures PreventSqlInjection(a + "');" + b + ";--") == a + "'')" + b
  {
    var d := a + "'')" + ";" + b + ";";
    QuoteOfStatement(a, b);
    assert RemoveDoubleDash(d + "--") == d by {
      RemoveDoubleDashPlain(d, "--");
      assert RemoveDoubleDash("--") == [];
      assert d + [] == d;
    }
    SemicolonsOfStatement(a, b);
  }

  lemma QuoteOfStatement(a: string, b: string)
    requires '\'' !in a && '\'' !in b
    ensures ReplaceChar(a + "');" + b + ";--", '\'', "''") == a + "'')" + ";" + b + ";" + "--"
  {
    var x := ");" + b + ";--";
    JoinPair(a, x, "'");
    JoinPair(a, x, "''");
    QuoteIsDoubled([a, x]);
    assert a + "');" + b + ";--" == a + "'" + x;
    assert a + "''" + x == a + "'')" + ";" + b + ";" + "--";
  }

  lemma SemicolonsOfStatement(a: string, b: string)
    requires ';' !in a && ';' !in b
    ensures RemoveChar(a + "'')" + ";" + b + ";", ';') == a + "'')" + b
  {
    var p := a + "'')";
    JoinTriple(p, b, "", ";");
    JoinTriple(p, b, "", "");
    assert p + ";" + b + ";" == p + ";" + b + ";" + "";
    RemoveCharPieces([p, b, ""], ';');
    assert p + "" + b + "" + "" == a + "'')" + b;
  }

  /** Every quote is doubled: quote-free pieces joined by `'` come out
      joined by `''`. */
  lemma QuoteIsDoubled(pieces: seq<string>)
    requires |pieces| >= 1
    requires forall i :: 0 <= i < |pieces| ==> '\'' !in pieces[i]
    ensures ReplaceChar(Join(pieces, "'"), '\'', "''") == Join(pieces, "''")
  {
    ReplaceCharPieces(pieces, '\'', "''");
  }

  /** Text without `-` is kept as it is. */
  lemma {:induction false} RemoveDoubleDashPlain(a: string, b: string)
    requires '-' !in a
    ensures RemoveDoubleDash(a + b) == a + RemoveDoubleDash(b)
  {
    if a != [] {
      var s := a + b;
      assert s[0] == a[0] && s[1..] == a[1..] + b;
      RemoveDoubleDashStep(s);
      RemoveDoubleDashPlain(a[1..], b);
      assert [a[0]] + a[1..] == a;
    } else {
      assert a + b == b;
    }
  }

  /** Deleting `c` from `c`-free pieces joined by `c` concatenates the
      pieces. */
  lemma RemoveCharPieces(pieces: seq<string>, c: char)
    requires |pieces| >= 1
    requires forall i :: 0 <= i < |pieces| ==> c !in pieces[i]
    ensures RemoveChar(Join(pieces, [c]), c) == Join(pieces, "")
  {
    ReplaceCharPieces(pieces, c, "");
  }

  // ----- sanitizeUrl -------------------------------------------------------

  /** ASCII lower case; the regular expression's `i` flag without the `u` flag
      never matches a non-ASCII character against an ASCII one. */
  function LowerAscii(c: char): char
  {
    if 'A' <= c <= 'Z' then (c as int + 32) as char else c
  }

  /** `s` starts with `p` (lower case) ignoring ASCII case. */
  predicate StartsWithIgnoringCase(s: string, p: string)
  {
    |p| <= |s| && forall i :: 0 <= i < |p| ==> LowerAscii(s[i]) == p[i]
  }

  const Schemes: seq<string> := ["javascript:", "data:", "vbscript:"]

  /** `input.replace(/^(javascript|data|vbscript):/i, '')`: at most one
      leading scheme is removed. */
  function SanitizeUrl(s: string): (r: string)
    ensures forall k :: 0 <= k < |Schemes| && StartsWithIgnoringCase(s, Schemes[k]) ==> r == s[|Schemes[k]|..]
    ensures (forall k :: 0 <= k < |Schemes| ==> !StartsWithIgnoringCase(s, Schemes[k])) ==> r == s
  {
    SchemesAreExclusive(s);
    assert Schemes[0] == "javascript:" && Schemes[1] == "data:" && Schemes[2] == "vbscript:";
    if StartsWithIgnoringCase(s, "javascript:") then s[11..]
    else if StartsWithIgnoringCase(s, "data:") then s[5..]
    else if StartsWithIgnoringCase(s, "vbscript:") then s[9..]
    else s
  }

  /** The three schemes start with different letters, so at most one matches. */
  lemma SchemesAreExclusive(s: string)
    ensures !(StartsWithIgnoringCase(s, "javascript:") && StartsWithIgnoringCase(s, "data:"))
    ensures !(StartsWithIgnoringCase(s, "javascript:") && StartsWithIgnoringCase(s, "vbscript:"))
    ensures !(StartsWithIgnoringCase(s, "data:") && StartsWithIgnoringCase(s, "vbscript:"))
  {
    if |s| > 0 {
      assert StartsWithIgnoringCase(s, "javascript:") ==> LowerAscii(s[0]) == 'j';
      assert StartsWithIgnoringCase(s, "data:") ==> LowerAscii(s[0]) == 'd';
      assert StartsWithIgnoringCase(s, "vbscript:") ==> LowerAscii(s[0]) == 'v';
    }
  }

  /** The result is always a suffix of the input. */
  lemma SanitizeUrlIsSuffix(s: string)
    ensures |SanitizeUrl(s)| <= |s| && SanitizeUrl(s) == s[|s| - |SanitizeUrl(s)|..]
  {
  }

  /** A `javascript:` scheme in any letter case is removed and what follows
      is kept as it is, even when it starts with another scheme: only one
      scheme is ever removed. */
  lemma SanitizeUrlRemovesOneScheme(p: string, rest: string)
    requires |p| == 11 && StartsWithIgnoringCase(p, "javascript:")
    ensures SanitizeUrl(p + rest) == rest
  {
    var s := p + rest;
    assert StartsWithIgnoringCase(s, "javascript:") by {
      forall i | 0 <= i < 11 ensures LowerAscii(s[i]) == "javascript:"[i] {
        assert s[i] == p[i];
      }
    }
    assert s[11..] == rest;
  }

  /** A first character that is not `j`, `d` or `v` in either case rules out
      every scheme. */
  lemma NotStartsWith(s: string)
    requires s != [] && LowerAscii(s[0]) != 'j' && LowerAscii(s[0]) != 'd' && LowerAscii(s[0]) != 'v'
    ensures SanitizeUrl(s) == s
  {
    assert !StartsWithIgnoringCase(s, "javascript:") && !StartsWithIgnoringCase(s, "data:") && !StartsWithIgnoringCase(s, "vbscript:");
  }

  // ----- sanitizeFilename --------------------------------------------------

  predicate IsFilenameUnsafe(c: char)
  {
    c == '/' || c == '\\' || c == '?' || c == '%' || c == '*' || c == ':' || c == '|' || c == '"' || c == '<' || c == '>'
  }

  /** `input.replace(/[/\\?%*:|"<>]/g, '-')` */
  function SanitizeFilename(s: string): (r: string)
    ensures |r| == |s|
    ensures forall i :: 0 <= i < |s| ==> r[i] == (if IsFilenameUnsafe(s[i]) then '-' else s[i])
  {
    if s == [] then []
    else
      var rest := SanitizeFilename(s[1..]);
      [if IsFilenameUnsafe(s[0]) then '-' else s[0]] + rest
  }

  /** No unsafe character survives, and sanitizing twice changes nothing. */
  lemma SanitizeFilenameIsClean(s: string)
    ensures forall i :: 0 <= i < |s| ==> !IsFilenameUnsafe(SanitizeFilename(s)[i])
    ensures SanitizeFilename(SanitizeFilename(s)) == SanitizeFilename(s)
  {
  }

  /** Safe characters are kept and unsafe ones become `-`, one for one. */
  lemma SanitizeFilenameKeepsSafeName(s: string)
    requires forall i :: 0 <= i < |s| ==> !IsFilenameUnsafe(s[i])
    ensures SanitizeFilename(s) == s
  {
  }

  // ----- combine -----------------------------------------------------------

  /** `combine(...sanitizers)(input)`: `reduce` applies them left to right,
      so the last sanitizer runs on what all the others produced. */
  function Combine(fs: seq<string -> string>, input: string): (r: string)
    ensures fs == [] ==> r == input
    ensures fs != [] ==> r == fs[|fs| - 1](Combine(fs[..|fs| - 1], input))
    decreases |fs|
  {
    if fs == [] then input
    else
      var r := Combine(fs[1..], fs[0](input));
      assert r == fs[|fs| - 1](Combine(fs[..|fs| - 1], input)) by {
        var init := fs[..|fs| - 1];
        if |fs| == 1 {
          assert init == [];
        } else {
          assert fs[1..][..|fs| - 2] == init[1..];
          assert fs[1..][|fs| - 2] == fs[|fs| - 1];
          assert init[0] == fs[0];
        }
      }
      r
  }

  /** Combining two lists runs the first list, then the second. */
  lemma {:induction false} CombineAppend(a: seq<string -> string>, b: seq<string -> string>, input: string)
    ensures Combine(a + b, input) == Combine(b, Combine(a, input))
  {
    if a != [] {
      assert (a + b)[0] == a[0] && (a + b)[1..] == a[1..] + b;
      CombineAppend(a[1..], b, a[0](input));
    } else {
      assert a + b == b;
    }
  }

  /** No sanitizers is the identity; two run first-to-last. */
  lemma CombineOrder(f: string -> string, g: string -> string, input: string)
    ensures Combine([], input) == input
    ensures Combine([f, g], input) == g(f(input))
  {
    assert [f, g][0] == f && [f, g][1..] == [g] && [g][1..] == [];
    assert Combine([g], f(input)) == Combine([], g(f(input)));
  }
}

=== FILE: seqs.dfy ===
/** Sequence combinators matching the JavaScript array and string methods
    the source relies on (`some`, `every`, `find`, `filter`, `flat`, `split`,
    `join`). */
module Seqs {
  import opened Wrappers

  /** `xs.some(p)` */
  function AnySatisfy<T>(xs: seq<T>, p: T -> bool): (r: bool)
    ensures r <==> exists i :: 0 <= i < |xs| && p(xs[i])
  {
    if xs == [] then false
    else if p(xs[0]) then true
    else
      var rest := AnySatisfy(xs[1..], p);
      assert forall i :: 1 <= i < |xs| ==> xs[i] == xs[1..][i - 1];
      rest
  }

  /** `xs.every(p)` */
  function AllSatisfy<T>(xs: seq<T>, p: T -> bool): (r: bool)
    ensures r <==> forall i :: 0 <= i < |xs| ==> p(xs[i])
  {
    if xs == [] then true
    else if !p(xs[0]) then false
    else
      var rest := AllSatisfy(xs[1..], p);
      assert forall i :: 1 <= i < |xs| ==> xs[i] == xs[1..][i - 1];
      rest
  }

  /** Index of the first element satisfying `p`: the row a `findOne` query
      returns when several rows match. */
  function FirstIndex<T>(xs: seq<T>, p: T -> bool): (r: Option<nat>)
    ensures r.Some? ==> r.value < |xs| && p(xs[r.value])
    ensures r.Some? ==> forall j :: 0 <= j < r.value ==> !p(xs[j])
    ensures r.None? <==> forall j :: 0 <= j < |xs| ==> !p(xs[j])
  {
    if xs == [] then None
    else if p(xs[0]) then Some(0)
    else
      match FirstIndex(xs[1..], p)
      case None =>
        assert forall j :: 1 <= j < |xs| ==> xs[j] == xs[1..][j - 1];
        None
      case Some(k) =>
        assert forall j :: 1 <= j <= k + 1 ==> xs[j] == xs[1..][j - 1];
        Some(k + 1)
  }

  /** `xs.filter(p)`: the elements satisfying `p`, in their original order. */
  function Filter<T>(xs: seq<T>, p: T -> bool): (r: seq<T>)
    ensures |r| <= |xs|
    ensures forall i :: 0 <= i < |r| ==> r[i] in xs && p(r[i])
    ensures forall i :: 0 <= i < |xs| && p(xs[i]) ==> xs[i] in r
    ensures (forall i :: 0 <= i < |xs| ==> p(xs[i])) ==> r == xs
  {
    if xs == [] then []
    else
      var rest := Filter(xs[1..], p);
      assert forall i :: 1 <= i < |xs| ==> xs[i] == xs[1..][i - 1];
      if p(xs[0]) then
        [xs[0]] + rest
      else rest
  }

  /** `xss.flat()`: the concatenation of the inner sequences, in order. */
  function Flatten<T>(xss: seq<seq<T>>): (r: seq<T>)
    ensures forall k :: 0 <= k < |r| ==> exists i :: 0 <= i < |xss| && r[k] in xss[i]
    ensures forall i, j :: 0 <= i < |xss| && 0 <= j < |xss[i]| ==> xss[i][j] in r
  {
    if xss == [] then []
    else
      var rest := Flatten(xss[1..]);
      assert forall i :: 1 <= i < |xss| ==> xss[i] == xss[1..][i - 1];
      xss[0] + rest
  }

  /** Flattening distributes over concatenation of the outer sequence. */
  lemma {:induction false} FlattenAppend<T>(a: seq<seq<T>>, b: seq<seq<T>>)
    ensures Flatten(a + b) == Flatten(a) + Flatten(b)
  {
    if a == [] {
      assert a + b == b;
    } else {
      assert (a + b)[0] == a[0];
      assert (a + b)[1..] == a[1..] + b;
      FlattenAppend(a[1..], b);
      calc {
        Flatten(a + b);
        (a + b)[0] + Flatten((a + b)[1..]);
        a[0] + Flatten(a[1..] + b);
        a[0] + (Flatten(a[1..]) + Flatten(b));
        (a[0] + Flatten(a[1..])) + Flatten(b);
      }
    }
  }

  /** `s.split(sep)`: the maximal separator-free pieces, in order; there is
      always at least one. */
  function Split<T(==)>(s: seq<T>, sep: T): (parts: seq<seq<T>>)
    ensures |parts| >= 1
    ensures forall i :: 0 <= i < |parts| ==> sep !in parts[i]
    ensures Join(parts, [sep]) == s
  {
    if s == [] then [[]]
    else
      var rest := Split(s[1..], sep);
      if s[0] == sep then
        assert Join([[]] + rest, [sep]) == [] + [sep] + Join(rest, [sep]);
        [[]] + rest
      else
        var parts := [[s[0]] + rest[0]] + rest[1..];
        assert parts[1..] == rest[1..];
        JoinHead(rest, [sep]);
        JoinHead(parts, [sep]);
        parts
  }

  /** `parts.join(sep)` */
  function Join<T>(parts: seq<seq<T>>, sep: seq<T>): seq<T>
    requires |parts| >= 1
  {
    if |parts| == 1 then parts[0] else parts[0] + sep + Join(parts[1..], sep)
  }

  /** Joining puts the first piece in front of the join of the rest. */
  lemma JoinHead<T>(parts: seq<seq<T>>, sep: seq<T>)
    requires |parts| >= 1
    ensures Join(parts, sep) == parts[0] + (if |parts| == 1 then [] else sep + Join(parts[1..], sep))
  {
  }

  /** A separator-free prefix followed by the separator splits off as one piece. */
  lemma {:induction false} SplitAfterPrefix<T>(a: seq<T>, b: seq<T>, sep: T)
    requires sep !in a
    ensures Split(a + [sep] + b, sep) == [a] + Split(b, sep)
  {
    if a == [] {
      assert a + [sep] + b == [sep] + b;
      assert ([sep] + b)[1..] == b;
    } else {
      assert (a + [sep] + b)[1..] == a[1..] + [sep] + b;
      SplitAfterPrefix(a[1..], b, sep);
      assert [a[0]] + a[1..] == a;
    }
  }

  /** Splitting a separator-free sequence yields the sequence itself. */
  lemma {:induction false} SplitWithoutSeparator<T>(a: seq<T>, sep: T)
    requires sep !in a
    ensures Split(a, sep) == [a]
  {
    if a != [] {
      SplitWithoutSeparator(a[1..], sep);
      assert [a[0]] + a[1..] == a;
    }
  }

  /** `a` is `b` with some elements deleted: what is left keeps its order. */
  predicate IsSubsequence<T(==)>(a: seq<T>, b: seq<T>)
    decreases |b|
  {
    if a == [] then true
    else if b == [] then false
    else (a[0] == b[0] && IsSubsequence(a[1..], b[1..])) || IsSubsequence(a, b[1..])
  }

  /** Deleting a prefix as well keeps a subsequence a subsequence. */
  lemma {:induction false} SubsequenceOfLonger<T>(a: seq<T>, c: seq<T>, b: seq<T>)
    requires IsSubsequence(a, b)
    ensures IsSubsequence(a, c + b)
    decreases |c|
  {
    if c != [] && a != [] {
      assert (c + b)[1..] == c[1..] + b;
      SubsequenceOfLonger(a, c[1..], b);
    } else if c == [] {
      assert c + b == b;
    }
  }

  /** Keeping the first element of both. */
  lemma SubsequenceCons<T>(x: T, a: seq<T>, b: seq<T>)
    requires IsSubsequence(a, b)
    ensures IsSubsequence([x] + a, [x] + b)
  {
    assert ([x] + a)[1..] == a && ([x] + b)[1..] == b;
  }

  /** Every element of a subsequence occurs in the longer sequence. */
  lemma {:induction false} SubsequenceMembers<T>(a: seq<T>, b: seq<T>)
    requires IsSubsequence(a, b)
    ensures forall x :: x in a ==> x in b
    decreases |b|
  {
    if a != [] {
      if a[0] == b[0] && IsSubsequence(a[1..], b[1..]) {
        SubsequenceMembers(a[1..], b[1..]);
        assert forall x :: x in a ==> x == a[0] || x in a[1..];
      } else {
        SubsequenceMembers(a, b[1..]);
      }
      assert forall x :: x in b[1..] ==> x in b;
    }
  }

  lemma JoinPair<T>(a: seq<T>, b: seq<T>, sep: seq<T>)
    ensures Join([a, b], sep) == a + sep + b
  {
    assert [a, b][1..] == [b];
  }

  lemma JoinTriple<T>(a: seq<T>, b: seq<T>, c: seq<T>, sep: seq<T>)
    ensures Join([a, b, c], sep) == a + sep + b + sep + c
  {
    assert [a, b, c][1..] == [b, c];
    JoinPair(b, c, sep);
  }
}

=== FILE: wrappers.dfy ===
/** Failure-carrying values used throughout the model: `Option` stands for a
    JavaScript value that may be `undefined`/`null`, `Result` for a call that
    either returns or throws. */
module Wrappers {

  datatype Option<+T> = None | Some(value: T) {

    /** The value, or `default` when absent (JavaScript's `x ?? default`). */
    function GetOr(default: T): T {
      match this
      case Some(v) => v
      case None => default
    }
  }

  /** `Ok` for a normal return, `Err` for a thrown exception. */
  datatype Result<+T, +E> = Ok(value: T) | Err(error: E)
}
